=== FILE: README.md ===
# Shaastrayog storefront: a Dafny model of its business logic

Shaastrayog is a Next.js storefront for Ayurvedic products. Most of it is
markup and I/O. Underneath sit the small pieces of sequential logic modelled
here, as pure functions over explicit state:

- **Cart** (`Cart`, `CartPage`): the cart provider's add, remove, update and
  clear; the item count and the discounted total; the cart page's quantity
  guard, shipping rule (free from ₹999) and grand total.
- **Inventory** (`Inventory`, `ProductsRoute`, `Admin`):
  - the product schema's bounds, defaults and trimming;
  - the `soldUnits` virtual and the pre-save rule `available + reserved <= total`;
  - the unique SKU index and `updateQuantities`;
  - the products API's `POST` validation and `GET` listing;
  - the stock manager page.
- **Payments** (`Payments`, `OrderRoute`, `PaymentRoute`, `PhonePe`, `JsonText`):
  - the payment collection as a map keyed by order id, and the service over it;
  - the create-order and verify-payment routes;
  - the Express PhonePe routes, including `JSON.stringify` of the signed payment data.
- **Checkout** (`Checkout`, `Nimbus`, `Flows`): the form schema, the choice
  between online payment and cash on delivery, and the requests each path
  sends, in order. `Flows` joins the page to the two routes it calls.
- **Carrier webhook and invoice** (`Webhook`, `Invoice`): the payload's field
  fallbacks and send guard, and the invoice HTML. The HTML comes with a
  reader that gets the values back from the page.
- **Smaller pieces** (`Shop`, `ProfileRoute`, `ProfilePage`, `ProfileFlow`, `Register`, `Carousel`):
  - the shop filter;
  - the profile API's `GET` and `PUT`;
  - the profile form's nested-field update and save outcome, and how it reads the `PUT`'s answer;
  - the register page's password checks;
  - the two slide carousels.

`Js` holds the JavaScript semantics the handlers rely on:

- absent JSON fields as `Option`;
- truthiness and `a || b`;
- `toLowerCase` on ASCII, `trim`, `includes`, `join`, `filter`;
- the decimal rendering of numbers.

The outside world enters as parameters:

- the HMAC-SHA256 digest is an uninterpreted function `hmac(key, text)`;
- the zod email check is `isEmail`;
- the payment gateway's answer is `gateway`;
- database outages are `dbUp`;
- whether a mail, fetch or session refresh throws is a `Reply` or a boolean;
- today's date is a string.

A handler's result carries its response together with the collection after
it, and, for the pages, the requests sent, in order.

Several lemmas record behaviour the code really has, beyond the happy path:

- a zero price or amount counts as missing;
- a body without `customerInfo` is a 500, not a 400 (`OrderRoute.MissingCustomerIs500`);
- a payment status can be set back from completed to pending;
- the checkout page still requests the prepaid shipment and empties the cart
  when the server rejects the signature (`Flows.ForgedSignatureShips`); only
  the route's own mail and record update are skipped;
- a duplicate gateway order id is a 500 (`OrderRoute.DuplicateOrderIdIs500`),
  and so is a SKU held by an inactive product
  (`ProductsRoute.InactiveSkuIs500`); only the profile email conflict is a 409;
- the carrier webhook answers 400 when its mail fails
  (`Webhook.MailFailureIs400`), while the payment route ignores the mail's
  outcome;
- when the shipment request throws, the checkout page shows an error and keeps
  the cart (`Checkout.AfterPayment`, `Checkout.PayOnDelivery`);
- the webhook does not reject incomplete payloads; it fills in placeholder
  items and a zero price (`Webhook.ItemsOf`).
- the Express payment callback answers every request with "success" and
  looks at nothing in it (`PhonePe.Callback`).

## Model

| member | source | states |
|---|---|---|
| Cart.AddItem | components/cart/cart-provider.tsx:59-76 | an id the catalog lacks or lists with 0 units leaves the cart as it was; an id already present gets the new quantity added to each matching entry, everything else unchanged and in order; a new id is appended at the end |
| Cart.MergeQuantity | components/cart/cart-provider.tsx:69-73 | same length; exactly the entries with the id get their quantity raised by the added amount, all others are kept |
| Cart.AddItemKeepsIdsDistinct | components/cart/cart-provider.tsx:69-76 | adding never creates two entries with one id |
| Cart.AddItemTotalItems | components/cart/cart-provider.tsx:59-76 | an accepted add raises the item count by exactly the added quantity (merge or append); a refused add leaves it |
| Cart.MergeTotalItems | components/cart/cart-provider.tsx:69-73 | merging into the single entry with that id raises the item count by the added quantity |
| Cart.AddIgnoresAvailableUnits | components/cart/cart-provider.tsx:62-76 | merging is never capped by stock: 15 + 10 units of a product with 20 available gives 25 |
| Cart.OutOfStockFixtureRefused | components/cart/cart-provider.tsx:62-67 | the fixture product with 0 available units can never be added |
| Cart.RemoveItem | components/cart/cart-provider.tsx:92-96 | afterwards no entry has the id; the entries kept are exactly those with another id, in their order, each as often as before; an absent id changes nothing |
| Cart.UpdateQuantity | components/cart/cart-provider.tsx:98-107 | a quantity below 1 changes nothing; otherwise only the matching entries change, and only their quantity |
| Cart.SetQuantity | components/cart/cart-provider.tsx:101-103 | same length; the matching entries get the quantity, all others are unchanged |
| Cart.EditsKeepIdsDistinct | components/cart/cart-provider.tsx:98-112 | updating and clearing keep ids pairwise distinct |
| Cart.ClearCart | components/cart/cart-provider.tsx:109-112 | the cleared cart has no entry, item count 0 and total price 0 |
| Cart.TotalItemsAppend | components/cart/cart-provider.tsx:115-118 | the item count of a concatenation is the sum of the parts' counts |
| Cart.TotalPriceAppend | components/cart/cart-provider.tsx:120-131 | the total price of a concatenation is the sum of the parts' totals, each line floored separately |
| Cart.TotalItemsNonNegative | components/cart/cart-provider.tsx:115-118 | with non-negative quantities the count is non-negative, and 0 exactly when every quantity is 0 |
| CartPage.ShippingCost | app/cart/page.tsx:53 | shipping is 0 exactly when the cart total reaches 999, and 100 otherwise |
| CartPage.FinalTotal | app/cart/page.tsx:53-54 | the grand total lies between the cart total and the cart total plus 100, and equals the cart total from 999 on |
| CartPage.FinalTotalNotMonotone | app/cart/page.tsx:53-54 | for carts worth t <= t', the larger costs less to check out exactly when t < 999 <= t' < t + 100; for instance 998 against 999 |
| CartPage.HandleQuantityChange | app/cart/page.tsx:27-30 | a request below 1 leaves the cart; any other request is exactly the provider's update |
| CartPage.UnitPrice | app/cart/page.tsx:100-105 | the row price is the provider's line total for one unit, and lies between 0 and the list price for a discount in 0..100 |
| CartPage.Rows | app/cart/page.tsx:88-105 | one row per cart entry, in cart order, with its id, name, discounted unit price and quantity |
| CartPage.Render | app/cart/page.tsx:56-183 | the empty state exactly for the empty cart; otherwise a row per entry and a summary whose subtotal is the cart total and whose total is subtotal plus shipping |
| Catalog.FindById | lib/data.ts:3-48 | finds a product exactly when one with that id is listed, and what it finds is the first listed product with that id |
| Inventory.SchemaErrors | database/model/product.ts:28-61 | no validator fails exactly when the name is non-empty and price and all three unit counts are at least 0 |
| Inventory.Validate | database/model/product.ts:28-99 | a record saves exactly when it passes the validators and available plus reserved does not exceed total; validator errors are reported before the units rule |
| Inventory.Insert | database/model/product.ts:66-99 | a new document is stored exactly when it is saveable and its SKU key is unused, and then is appended; a refused one leaves the collection |
| Inventory.InsertKeepsValid | database/model/product.ts:44-99 | inserting keeps every stored record saveable and SKUs unique |
| Inventory.SoldUnitsBounds | database/model/product.ts:44-99 | every saveable product has 0 <= soldUnits <= totalUnits |
| Inventory.StoreSoldUnitsBounds | database/model/product.ts:86-99 | the same bound holds for every product of a valid collection |
| Inventory.UpdateQuantities | database/model/product.ts:102-119 | the units rule is checked before anything is assigned; an accepted update sets exactly the three unit fields and soldUnits becomes total - available - reserved |
| Inventory.UpdateQuantitiesKeepsValid | database/model/product.ts:102-119 | an accepted update of one stored product keeps the collection invariant |
| ProductsRoute.NewProduct | app/api/products/route.ts:78-88 | available and reserved units default to 0 when absent or 0; the product is active; total units and price are as sent; the name is trimmed, and the SKU, description, category and image URL are stored trimmed when present |
| ProductsRoute.Post | app/api/products/route.ts:42-105 | a 400 exactly when a parsed body has a falsy name or price or no total units (that message), or a non-empty SKU an active product holds after trimming (the SKU message); a failed connection is a 500 "Failed to connect to database"; an unparsable body a 500 with the parse error; a refused save a 500 with the save error's message; a 201 stores exactly the new product at the end; everything else leaves the collection unchanged |
| ProductsRoute.CaughtMessage | app/api/products/route.ts:99-105 | the 500 carries the error's message, or "Failed to create product" when that is empty |
| ProductsRoute.ConnectFailureIs500 | app/api/products/route.ts:6-17 | a failed connection is answered 500 with the message the route's own `connectDB` throws, before the body is read, and nothing is stored |
| ProductsRoute.PostKeepsValid | app/api/products/route.ts:78-98 | `POST` keeps the collection invariant |
| ProductsRoute.ZeroPriceRejected | app/api/products/route.ts:60-65 | a price of 0 is answered 400 as a missing field |
| ProductsRoute.UnitsInvariantIs500 | app/api/products/route.ts:90-105 | units breaking the invariant pass the route's checks and come back as a 500 carrying the save error's message |
| ProductsRoute.InactiveSkuIs500 | app/api/products/route.ts:67-105 | reusing an inactive product's SKU passes the route's check and fails the unique index with a 500 |
| ProductsRoute.InsertByDateCorrect | app/api/products/route.ts:24-26 | inserting into a newest-first list keeps it newest-first and adds exactly that product |
| ProductsRoute.SortNewestFirstCorrect | app/api/products/route.ts:24-26 | the sort yields a newest-first permutation of its input |
| ProductsRoute.Get | app/api/products/route.ts:20-39 | a 500 exactly when the database is down; otherwise exactly the active products, each as often as stored, newest first |
| Admin.HandleLogin | app/admin/page.tsx:16-26 | only the password "admin123" authenticates, and it loads the fixture products; on success the password, search term, editing id and unit count are kept; any other password only sets "Invalid password" |
| Admin.HandleEdit | app/admin/page.tsx:28-32 | editing starts on that product with its current available units and the error cleared; products, authentication, password and search term are untouched |
| Admin.HandleSave | app/admin/page.tsx:34-57 | a negative count only sets the error; otherwise only the edited product's available units change, every other field and product stays, editing ends, the error clears, and authentication, password, search term and the entered count are kept |
| Admin.SetAvailable | app/admin/page.tsx:44-48 | same length; exactly the product with the edited id gets the new count |
| Admin.SaveChangesTotalByDelta | app/admin/page.tsx:44-48 | with distinct ids a save moves the displayed units total by exactly the edited product's change |
| Admin.FilteredProducts | app/admin/page.tsx:59-63 | a product is listed exactly when its lower-cased name or category contains the lower-cased term, each as often as in the list; order is kept |
| Admin.EmptySearchKeepsAll | app/admin/page.tsx:59-63 | the empty term lists every product |
| Admin.LowStockProducts | app/admin/page.tsx:65 | exactly the products with at most 10 available units, each as often as in the list, in order |
| Admin.LoginShowsOneLowStockItem | app/admin/page.tsx:16-26 | after login the out-of-stock fixture product is the only low-stock item |
| Admin.Logout | app/admin/page.tsx:104-111 | logout clears authentication, password, products, editing id and error, and keeps the search term |
| Admin.LoginThenLogout | app/admin/page.tsx:18-26 | logging out after a login, successful or not, leaves the page as logging out without it |
| Admin.EditThenSaveKeepsProducts | app/admin/page.tsx:28-57 | editing a product and saving its unchanged count leaves the products as they were, when no other product shares its id |
| Payments.MissingRequired | database/model/payment.ts:16-29 | the required-field errors are empty exactly when order id, customer name and phone are non-empty |
| Payments.SavePayment | lib/services.ts:7-27 | a record is stored exactly when the required fields are present and the order id is new; it is pending, has no payment id, and is what was given |
| Payments.SaveThenGet | lib/services.ts:7-54 | saving keeps records under their own order id, and a lookup returns the saved pending record |
| Payments.UpdatePaymentStatus | lib/services.ts:30-47 | with a record for the order id, it gets the payment id and the status and is returned; without one, null and no change |
| Payments.UpdateFrame | lib/services.ts:37-44 | an update touches only the named record, only its payment id and status, and never adds or removes a key |
| Payments.StatusCanGoBackwards | lib/services.ts:30-47 | a completed payment can be set back to pending |
| Payments.UpdateNeverInserts | lib/services.ts:37-46 | the set of order ids is the same after any update |
| Payments.GetPaymentByOrderId | lib/services.ts:50-54 | returns the record exactly when one has that order id |
| Payments.SignedText | lib/services.ts:72 | the signed text is the order id, a bar, then the payment id |
| Payments.VerifyPayment | lib/services.ts:66-79 | true exactly when the signature equals the HMAC of the signed text under the secret |
| Payments.VerifyIgnoresGrouping | lib/services.ts:72-78 | ids containing the bar can be regrouped without changing the verdict |
| Payments.OwnSignatureVerifies | lib/services.ts:66-79 | a signature made with the secret over the two ids verifies |
| OrderRoute.GatewayRequest | app/api/order/route.ts:26-30 | the gateway is asked for 100 times the amount, in INR, with automatic capture |
| OrderRoute.Post | app/api/order/route.ts:10-58 | unparsable body or absent customerInfo is a 500 with no gateway call; a 400 exactly when the customer info has a falsy name, email, phone or amount; complete fields mean exactly one gateway request, and every outcome other than success is then a 500 "Failed to create order"; created orders store a pending record under the gateway id; nothing but success changes the store |
| OrderRoute.CreatedIff | app/api/order/route.ts:14-50 | an order is created exactly when the fields are present, the gateway answers with a new non-empty id and the database is up |
| OrderRoute.CreatedRecordIsPending | app/api/order/route.ts:32-40 | after a creation the lookup finds a pending record with the gateway's amount and no email or payment id |
| OrderRoute.DatabaseDownOrphansGatewayOrder | app/api/order/route.ts:32-57 | a database failure after the gateway call is a 500 that leaves a gateway order with no record |
| OrderRoute.DuplicateOrderIdIs500 | app/api/order/route.ts:51-57 | an already stored gateway id is answered 500, not 400 |
| OrderRoute.MissingCustomerIs500 | app/api/order/route.ts:12-15 | a body without customerInfo is a 500 and the gateway is never asked |
| PaymentRoute.Post | app/api/payment/route.ts:5-46 | any of the body's fields may be absent, and an absent id is signed as "undefined"; success exactly when a signature is present and verifies and the database is up; a 400 "Invalid signature" exactly when the secret is set and the signature is absent or wrong; a 500 exactly when the body is not JSON, the secret is unset, or a valid request meets a database failure; only success changes the store, completing the record under both ids, and starts the mail with the payment id and email as sent |
| PaymentRoute.MissingSignatureIs400 | app/api/payment/route.ts:7-24 | a body without `razorpay_signature` is refused 400 "Invalid signature" with nothing stored and no mail |
| PaymentRoute.MissingOrderIdSignsUndefined | lib/services.ts:66-78 | without an order id the route verifies exactly the signature over "undefined\|" and the payment id, and changes no record |
| PaymentRoute.MailOutcomeIgnored | app/api/payment/route.ts:33-41 | whether the mail is delivered changes neither the response nor the store |
| PaymentRoute.VerifiedCompletesRecord | app/api/payment/route.ts:27-41 | a verified payment with a record becomes completed with its payment id; no other record changes |
| PaymentRoute.SuccessWithoutRecord | app/api/payment/route.ts:27-41 | a valid signature for an order nobody saved still answers success and starts the mail |
| PaymentRoute.ReverificationOverwrites | app/api/payment/route.ts:27-41 | a failed record can be turned into a completed one by verifying again |
| PhonePe.GenerateChecksum | backend/routes/payment.js:9-14 | throws "Merchant secret key is not defined" exactly when the secret is unset or empty; otherwise the HMAC of the data |
| PhonePe.PaymentDataJson | backend/routes/payment.js:29-39 | the signed JSON text is an object literal |
| PhonePe.PaymentDataJsonInjective | backend/routes/payment.js:29-39 | two payment data with the same JSON text are equal, so the checksum covers every field |
| PhonePe.NumberThenComma | backend/routes/payment.js:29-39 | a rendered amount ends at the comma after it |
| PhonePe.Initiate | backend/routes/payment.js:17-49 | a 400 exactly when amount, order id or phone is falsy; then a 500 exactly when merchant id or secret is unset; otherwise the data as sent and the HMAC of its JSON |
| PhonePe.FieldsCheckedFirst | backend/routes/payment.js:17-26 | a request with a missing field gets the same 400 whatever the settings |
| PhonePe.ChecksumNeverThrows | backend/routes/payment.js:24-42 | the checksum's own error never reaches the client |
| JsonText.EscapeAll | backend/routes/payment.js:39 | escaping never shortens a string |
| JsonText.Quote | backend/routes/payment.js:39 | a quoted string starts and ends with a double quote and is at least two characters longer than the text |
| JsonText.ReadEscapeChar | backend/routes/payment.js:39 | reading one escaped character gives that character back |
| JsonText.ReadQuotedRoundTrip | backend/routes/payment.js:39 | reading an escaped string gives the string and hands back what follows the closing quote |
| JsonText.QuotedPrefixInjective | backend/routes/payment.js:39 | two escaped strings followed by a quote are equal only if the strings and the rest are |
| JsonText.QuoteReadsBack | backend/routes/payment.js:39 | reading back a quoted string after its opening quote gives the text and whatever follows |
| Checkout.DigitRunIff | app/checkout/page.tsx:89-99 | the pattern `^\d+$` holds exactly for a non-empty all-digit text |
| Checkout.Failures | app/checkout/page.tsx:85-103 | no issue is reported exactly when no check failed |
| Checkout.FormIssues | app/checkout/page.tsx:85-103 | no issue exactly when both names have 2+ characters, the email is valid, the phone is 10+ digits, the address 5+ characters, city and state 2+, the postal code 6+ digits, and the method is razorpay or cod |
| Checkout.ValidFormDigits | app/checkout/page.tsx:89-99 | a valid form's phone and postal code are all digits |
| Checkout.Dispatch | app/checkout/page.tsx:438-447 | an invalid form goes nowhere; a valid one goes online exactly for "razorpay" and to cash on delivery exactly for "cod" |
| Checkout.ItemNames | app/checkout/page.tsx:250-252 | one name per item, in cart order |
| Checkout.Shipment | app/checkout/page.tsx:238-258 | the shipment carries "first last", the form's address, city, state, postal code and phone, the given order number, the names joined by ", ", the quantity sum, a 15 x 10 x 10 cm parcel of 0.1 kg, and the given mode and collectable amount |
| Checkout.ShipmentCoversItems | app/checkout/page.tsx:238-258 | every item's name occurs in the product name, and the quantity is at least each item's quantity and never negative |
| Checkout.QuantityWithinTotal | app/checkout/page.tsx:253 | with non-negative quantities each item's quantity is at most the sum |
| Checkout.StartOnline | app/checkout/page.tsx:277-355 | the order request comes first, for the cart total in INR; the widget opens exactly when the reply has an id and the widget loads, for 100 times the total; a reply without an id shows its message or "Failed to create order" |
| Checkout.AfterPayment | app/checkout/page.tsx:216-275 | verification is requested first; the shipment follows exactly when the reply is an object, as prepaid with collectable 0 under the gateway order id; the cart is emptied only after the shipment request succeeds |
| Checkout.PayOnDelivery | app/checkout/page.tsx:357-435 | the order request comes first; an object reply leads to the mail, then the COD shipment for the cart total under the order id or "cod-order", then emptying the cart; a null reply shows "Failed to place order" |
| Checkout.OrderAmountIsCartTotal | app/checkout/page.tsx:328-371 | both paths send the cart total as the order amount, without shipping |
| Checkout.CodOrdering | app/checkout/page.tsx:386-423 | the mail is requested before the shipment and before the cart is emptied; a failed mail request stops the shipment |
| Flows.OrderReplyBody | app/api/order/route.ts:42-57 | the create-order answer has an id exactly on success and an error otherwise |
| Flows.VerifyReplyBody | app/api/payment/route.ts:22-46 | every verify answer is a JSON object; it has an error exactly when verification did not succeed |
| Flows.RouteRequest | app/checkout/page.tsx:362-371 | the route sees a missing field exactly when the form's first name, email or phone is empty or the amount is 0 |
| Flows.CodOrder | app/checkout/page.tsx:362-371 | the cash-on-delivery body carries the cart total, the form, the items, currency "INR", method "cod" and status "pending" |
| Flows.EveryVerdictShips | app/checkout/page.tsx:216-260 | whatever the verify route answers, the page requests the prepaid shipment and, if that request succeeds, empties the cart |
| Flows.PageBodySignedAsSent | app/checkout/page.tsx:219-224 | the page sends all four verification fields, so the route checks the widget's own ids and signature and completes the record under the widget's order id |
| Flows.ForgedSignatureShips | app/checkout/page.tsx:220-260 | a payment whose signature fails is answered 400 with the record untouched and no mail, yet the page ships it as prepaid and empties the cart |
| Flows.RefusedOnlineOrder | app/checkout/page.tsx:338-344 | a refused online order shows "Failed to create order", whatever the route's error, and the widget never opens |
| Flows.RefusedCodOrderStillShips | app/checkout/page.tsx:374-423 | a cash-on-delivery order the route refuses stores nothing, yet is mailed and shipped under "cod-order" and the cart is emptied |
| Flows.ZeroTotalCodOrder | app/api/order/route.ts:14-24 | a zero-value cash-on-delivery order is a 400 with no gateway call and no record, yet ships under "cod-order" |
| Flows.AcceptedCodOrderIsPendingPayment | app/api/order/route.ts:32-40 | an accepted cash-on-delivery order leaves a pending payment record under the gateway id, and ships under that id |
| Invoice.Render | lib/invoice.ts:18-50 | the page starts with the fixed header up to the order id |
| Invoice.RenderReadsBack | lib/invoice.ts:18-50 | for values without markup, reading the page gives, in order: the order id, the date, the customer, the address paragraph exactly when the address is non-empty, the payment paragraph exactly when the method is non-empty, one row per item with name, quantity and price, then the total |
| Invoice.RowsRead | lib/invoice.ts:35-45 | the rows read back are one per item, in input order |
| Invoice.RowViews | lib/invoice.ts:35-45 | each row shows the item's name, its quantity and its price as decimal text |
| Invoice.Shown | lib/invoice.ts:24-25 | an optional paragraph is shown exactly for a non-empty value |
| Invoice.RowViewsInjective | lib/invoice.ts:35-45 | different item lists give different rows |
| Invoice.RenderInjective | lib/invoice.ts:1-51 | for values without markup, equal pages come from the same order id, date, customer, shown paragraphs, items and total |
| Invoice.TotalIsNotRecomputed | lib/invoice.ts:48 | the total shown is the one passed in, whatever the items add up to |
| Invoice.ValuesAreNotEscaped | lib/invoice.ts:20-23 | the raw order id and customer name occur in the page as given |
| Webhook.ItemsOf | app/api/nimbus/webhook.ts:17-19 | any items array sent is kept, even an empty one; without one the single ("Product", 1, 0) line is used |
| Webhook.InvoiceFor | app/api/nimbus/webhook.ts:11-35 | the invoice gets the fallback order id, "Customer" for a missing name, the items or the default, and the sent total when truthy, else the sum of price times quantity |
| Webhook.FieldFallbacks | app/api/nimbus/webhook.ts:11-13 | order id, tracking number and email are each the first truthy of their two fields, else "" |
| Webhook.Post | app/api/nimbus/webhook.ts:5-52 | a mail is attempted exactly when order id, tracking number and email are all non-empty, carrying the rendered invoice; the answer is 400 exactly for an unparsable body or a failed mail |
| Webhook.IncompleteIsAcknowledged | app/api/nimbus/webhook.ts:26-48 | an incomplete payload is answered with received and no mail |
| Webhook.MailedInvoiceTotals | app/api/nimbus/webhook.ts:14-35 | the mailed invoice shows the sent total when truthy, else the item sum; without items it shows the one placeholder row and total 0 |
| Webhook.MailFailureIs400 | app/api/nimbus/webhook.ts:36-51 | a complete payload is answered 400 when its mail fails and 200 when it goes out |
| Shop.FilteredProducts | app/shop/page.tsx:16-31 | a product is listed exactly when it matches the search, the category selection and the inclusive price range together, each as often as in the catalog; order is kept |
| Shop.FilterComposes | app/shop/page.tsx:16-31 | filtering by the search and then by category and price gives the same list |
| Shop.EmptyQueryMatchesAll | app/shop/page.tsx:17-21 | the empty query matches every product |
| Shop.InitialListsAll | app/shop/page.tsx:10-31 | with the initial filters (empty query, no category, prices 0 to 3000) every product priced in that range is listed, in order |
| Shop.CatalogWithinInitialRange | lib/data.ts:3-48 | every catalog product lies in the initial price range, so the shop first shows the whole catalog |
| Shop.ListPriceDecides | app/shop/page.tsx:27-28 | the discount never decides whether a product is shown |
| Shop.SearchIgnoresCase | app/shop/page.tsx:17-21 | a query and its lower-cased form list the same products |
| Js.ToLower | app/shop/page.tsx:17-21 | lower-casing keeps the length and maps each character on its own |
| Js.LowerIdempotent | app/shop/page.tsx:17-21 | lower-casing twice is lower-casing once |
| Js.Trim | app/api/profile/route.ts:96-103 | the trimmed text has no white space at either end and is no longer than the input; text without white space at its ends is unchanged |
| Js.TrimIsInfixOfSpace | app/api/profile/route.ts:96-103 | the trimmed text is an infix with only white space before and after it, and it is empty only for all-white-space text |
| Js.Filter | app/shop/page.tsx:16 | the kept elements are exactly those satisfying the predicate, in order, each kept element as often as in the input |
| Js.IntToStringInjective | lib/invoice.ts:35-48 | distinct numbers render as distinct text |
| Js.NatToStringRoundTrip | lib/invoice.ts:35-48 | the decimal text of a number reads back as that number |
| Js.JoinContainsParts | app/checkout/page.tsx:250-252 | every part occurs in the joined text |
| ProfileRoute.FindByEmail | app/api/profile/route.ts:18 | finds the first user with exactly that email, and finds none exactly when no user has it |
| ProfileRoute.ProfileOf | app/api/profile/route.ts:25-35 | name, email and each address field are the stored value when non-empty, else "" |
| ProfileRoute.Get | app/api/profile/route.ts:8-45 | 401 exactly without a session email; with one, 500 exactly when the database is down, 404 exactly when no user has that email, and that user's profile exactly when one does |
| ProfileRoute.ScanCharacters | app/api/profile/route.ts:66 | an address the pattern accepts holds only word characters, dots, hyphens and one at sign, and ends in a word character |
| ProfileRoute.LowerKeepsScan | app/api/profile/route.ts:66-97 | lower-casing never changes the pattern's verdict |
| ProfileRoute.NormalisedEmail | app/api/profile/route.ts:66-97 | for an accepted address, trimming after lower-casing removes nothing, and the pattern still accepts the result |
| ProfileRoute.PatternAccepts | app/api/profile/route.ts:66 | the pattern accepts a dotted local part and a repeated two-letter tail |
| ProfileRoute.RejectsDoubledDot | app/api/profile/route.ts:66 | the pattern refuses two separators in a row in the local part |
| ProfileRoute.RejectsDomainWithoutDot | app/api/profile/route.ts:66 | the pattern refuses a domain with no dot |
| ProfileRoute.RejectsLongTail | app/api/profile/route.ts:66 | the pattern refuses a last label of four characters |
| ProfileRoute.RejectsHyphenTail | app/api/profile/route.ts:66 | the pattern refuses a last label that follows a hyphen |
| ProfileRoute.StoredAddressOf | app/api/profile/route.ts:98-104 | every stored address field is the sent one trimmed, or "" |
| ProfileRoute.Put | app/api/profile/route.ts:47-155 | 401 exactly without a session email; 400 for an empty name or email, and the pattern's 400 exactly when they are present and the pattern fails; 500 exactly for an unparsable body or, after the checks, a failed connection; 409 from the other-user check exactly when the email differs from the session's and another user owns its lower-cased form; 404 exactly when the checks pass and the session's user is missing; 409 from the index exactly when another user holds the normalised email; otherwise success, where only the session's user changes, to the trimmed name, the trimmed lower-cased email and the normalised address |
| ProfileRoute.Update | app/api/profile/route.ts:74-130 | after the checks: the other-user conflict, then 404 for a missing session user, then the unique index's 409, otherwise the session's user alone is rewritten and the profile returned is read from it |
| ProfileRoute.UpdatedProfile | app/api/profile/route.ts:92-128 | the profile read from the written record has the lower-cased email, which still matches the pattern, the trimmed name, and each address field trimmed or "" |
| ProfileRoute.PutThenGet | app/api/profile/route.ts:92-130 | after a successful update, `GET` under the new email returns what `PUT` answered |
| ProfileRoute.StoredFieldsAreNormalised | app/api/profile/route.ts:92-105 | the stored email is the sent one lower-cased and still matches the pattern; the name is trimmed; each address field is trimmed or "" |
| ProfileRoute.SameEmailSkipsOtherUserCheck | app/api/profile/route.ts:77-148 | resubmitting one's own email while another user owns its lower-cased form skips the 409 check and hits the unique index, a 409 with the other message |
| ProfilePage.BeforeDot | app/profile/page.tsx:65 | the text before the first dot is a dot-free prefix, and all of a dot-free text |
| ProfilePage.HandleInputChange | app/profile/page.tsx:61-79 | a name starting with "address." writes the address field named by the next segment and nothing else; "name" and "email" write only that field; other names leave the address |
| ProfilePage.AddressFieldRoundTrip | app/profile/page.tsx:64-72 | writing an address field and reading it back gives the value; other address fields and everything outside the address stay |
| ProfilePage.NestedNameWritesFirstSegment | app/profile/page.tsx:65 | "address.k.rest" writes field k, as "address.k" does |
| ProfilePage.DistinctAddressEditsCommute | app/profile/page.tsx:64-72 | edits to two different address fields give the same form in either order |
| ProfilePage.SpreadText | app/profile/page.tsx:69 | spreading a text gives the key of each character index, in decimal, mapped to that character, and no other key |
| ProfilePage.SpreadStep | app/profile/page.tsx:69 | one more character adds exactly its own entry and disturbs none of the earlier ones |
| ProfilePage.HandleSubmit | app/profile/page.tsx:81-115 | a throw shows the generic error; a refusal shows the server's error or "Failed to update profile"; success ends editing, and the session refreshes exactly when the saved name differs from the session's |
| ProfilePage.RefreshFailureAfterSave | app/profile/page.tsx:98-111 | a failed refresh after a good save shows the generic error although editing has ended |
| ProfilePage.NoSessionAlwaysRefreshes | app/profile/page.tsx:101-104 | without a session name every successful save refreshes |
| ProfileFlow.ReplyOf | app/profile/page.tsx:88-98 | the page sees `response.ok` exactly for the successful update |
| ProfileFlow.ErrorOf | app/api/profile/route.ts:47-155 | every refusal carries an `error` field, the route's own message for 400 and 409, and the profile does not |
| ProfileFlow.SubmitReportsWhatTheRouteDid | app/profile/page.tsx:81-115 | the route stored the profile exactly when the page ends editing with its error cleared or a session refresh attempted; on a refusal the collection is unchanged, editing continues and the route's message, or the page's fallback, is shown |
| Register.PasswordProblem | app/register/page.tsx:36-48 | no problem exactly when the two passwords match and have 6+ characters; a mismatch is reported as such, a short matching pair as too short |
| Register.HandleSubmit | app/register/page.tsx:31-81 | a request is sent exactly when the password checks pass, with only name, email and password; a refusal shows the server's error or "Registration failed"; a throw shows the generic error; success only on an OK reply |
| Register.MismatchReportedFirst | app/register/page.tsx:36-48 | a mismatched pair that is also too short is reported as a mismatch |
| Carousel.JsRem | components/ui/carousel.tsx:44-50 | JavaScript's remainder agrees with the mathematical one for a non-negative dividend and positive divisor |
| Carousel.DotTargets | components/ui/carousel.tsx:142-149 | the dots offer exactly the indexes 0 to n-1 |
| Carousel.Draw | components/ui/carousel.tsx:54-149 | nothing is drawn exactly when there are no slides; arrows exactly for more than one slide; the dots all name existing slides |
| Carousel.GoToSlide | components/ui/carousel.tsx:37-40 | the index is set as given and autoplay stops |
| Carousel.Prev | components/ui/carousel.tsx:42-47 | the index stays in range, steps back one and wraps from 0 to the last slide; autoplay stops |
| Carousel.Next | components/ui/carousel.tsx:49-52 | the index stays in range, steps forward one and wraps from the last slide to 0; autoplay stops |
| Carousel.Tick | components/ui/carousel.tsx:27-35 | the timer moves the slide only while autoplay is on and there is more than one slide, one step forward with wrap-around |
| Carousel.PrevNextInverse | components/ui/carousel.tsx:42-52 | previous undoes next and next undoes previous |
| Carousel.ButtonsStopAutoplay | components/ui/carousel.tsx:37-52 | after any button, no number of timer ticks moves the slide |
| Carousel.TicksWithoutAutoplay | components/ui/carousel.tsx:27-35 | without autoplay, ticks change nothing |
| Carousel.AutoplayCycles | components/ui/carousel.tsx:27-35 | left alone, n ticks move the slide n places round the ring |
| Carousel.DotsStayInRange | components/ui/carousel.tsx:142-149 | every dot leads to an existing slide |
| Carousel.DesktopPrev | components/ui/pc-carousel.tsx:46-51 | the index stays among the three slides, autoplay stops, hover is kept |
| Carousel.DesktopNext | components/ui/pc-carousel.tsx:53-56 | the index stays among the three slides, autoplay stops, hover is kept |
| Carousel.DesktopTicksIdle | components/ui/pc-carousel.tsx:31-39 | while hovered or without autoplay, no number of timer firings changes the state |
| Carousel.DesktopButtonsStopAutoplay | components/ui/pc-carousel.tsx:41-56 | after a dot, previous or next, no number of timer firings moves the slide, hovered or not; a dot's slide is the one chosen |
| Carousel.HoverPausesAutoplay | components/ui/pc-carousel.tsx:31-63 | while the pointer is over the carousel the timer changes nothing; after it leaves, a carousel still on autoplay steps forward one slide |
| Carousel.DesktopTick | components/ui/pc-carousel.tsx:31-39 | the timer moves the slide only while autoplay is on and the pointer is elsewhere, one step forward modulo 3 |
| Carousel.DesktopPrevIsTwoForward | components/ui/pc-carousel.tsx:6-56 | with three fixed slides, previous is two steps forward and next is one |
| Carousel.DesktopMatchesGeneral | components/ui/pc-carousel.tsx:31-56 | without the pointer over it, the desktop carousel steps as the general one over three slides |

## Left out

- I/O of every kind:
  - database connections and queries, `fetch`, mail delivery, toasts, routing and `localStorage`;
  - they appear only as parameters and as the effect lists the handlers return.
- Cryptography: HMAC-SHA256 (RFC 2104 over SHA-256 of FIPS 180-4) is an uninterpreted function parameter.
- Email checks from outside the project:
  - the zod `email()` check is a predicate parameter, `isEmail`;
  - the profile API's regular expression is modelled in full, as an automaton.
- Floating point:
  - the discount `quantity * price * (1 - d/100)` is exact integer arithmetic floored once, so JavaScript's double rounding at exact boundaries is not reproduced;
  - the parcel weight 0.1 is a `real`.
- Unicode:
  - `toLowerCase` and `trim` act on ASCII letters and ECMAScript white space only;
  - lengths count code points, not UTF-16 units.
- Timing and concurrency:
  - the carousel intervals (5.5 s and 6 s), the admin save's 500 ms delay and the register redirect delay are left out;
  - the races between overlapping requests are left out;
  - a carousel tick is one firing of the interval.
- Loading and busy flags, the coupon stub, Facebook pixel tracking and all styling are left out.
- `getPaymentByTransactionId` is left out: it queries a field the payment schema does not have.
- The send-COD-confirmation and create-shipment routes are context, not core. Only the requests the checkout sends to them are modelled.
- `sendOrderConfirmationMail`:
  - the webhook imports it, but `lib/mail.ts` does not define it;
  - the mail is a parameter that succeeds or throws.
- The user model's validators are not part of this model:
  - the profile `PUT`'s Mongoose ValidationError path (400 with joined messages) is not reachable here;
  - the unique index on the user email is assumed.
- Payment status is a three-value enum. `findOneAndUpdate` does not run validators, so a non-enum status string would be stored; the model cannot express that.
- Mongo time stamps other than the product's `createdAt` are left out. `createdAt` is a parameter of `POST`.
- JSON values of unexpected types are left out. A field the model marks optional is either absent or of the type the handler reads (e.g. a numeric `price`, string names). A field the model types as a plain value is one the handler always receives.
- The carrier's responses are left out: the checkout page never reads the shipment route's answer.
- `Webhook.InvoiceFor`: the webhook passes `data.items` to the invoice whatever its shape. The model takes items of the declared shape.
- `JsonText.Quote`: lone surrogates cannot occur, because Dafny characters are Unicode scalar values. The `\u` escape for them is therefore not modelled.
- `ProfilePage.HandleInputChange`:
  - an input named "address" replaces the address object with text;
  - a later nested edit spreads that text into one key per character index, as object spread does;
  - the other inputs of the form are kept in a map.
- `Carousel.Prev`:
  - the `% 0` of an empty carousel is never evaluated, because nothing is drawn and no button exists;
  - so the model requires at least one slide and a non-negative index.
- `Carousel.Next`: requires at least one slide and a non-negative index, for the same reason as `Carousel.Prev`.
- `ProductsRoute.Post`: the text of the error `request.json()` throws on a malformed body belongs to the JavaScript runtime. It is the parameter `parseError`.
- `Inventory.Message`: the duplicate-key text is shortened. The driver's message also names the database (`<db>.products`) and ends with the offending key, `dup key: { sku: "…" }`. Both depend on deployment configuration and driver formatting. So where the `ProductsRoute.Post` and `ProductsRoute.UnitsInvariantIs500` rows say the 500 carries the save error's message, that text is the shortened one for a duplicate SKU.
- `PaymentRoute.Post`: a verified body with an absent order id or payment id leaves the store unchanged. The mail still starts and the answer is still success. The text "undefined" stands in the signed text, so this happens only when the signature is the digest of such text. How Mongoose treats an `undefined` filter or update value (dropped or sent as null) depends on its version and options, and it is not modelled.

=== FILE: admin.dfy ===
/** The stock manager page: password login, the per-product stock edit,
    the search and low-stock filters, the units total and logout. */
module Admin {
  import opened Js
  import opened Catalog

  /** The password the page compares against. */
  const AdminPassword: string := "admin123"

  /** Products at or below this many available units count as low stock. */
  const LowStockThreshold: int := 10

  datatype AdminState = AdminState(
    isAuthenticated: bool,
    password: string,
    error: string,
    products: seq<Product>,
    editingProductId: Option<string>,
    availableUnits: int,
    searchTerm: string)

  const Initial := AdminState(false, "", "", [], None, 0, "")

  /** `handleLogin`: only the exact password authenticates, and then the
      fixture's products are loaded. */
  function HandleLogin(s: AdminState): (r: AdminState)
    ensures r.isAuthenticated <==> s.isAuthenticated || s.password == AdminPassword
    ensures s.password == AdminPassword ==> r.products == FeaturedProducts && r.error == ""
    ensures s.password == AdminPassword ==>
      r.password == s.password && r.searchTerm == s.searchTerm &&
      r.editingProductId == s.editingProductId && r.availableUnits == s.availableUnits
    ensures s.password != AdminPassword ==> r == s.(error := "Invalid password")
  {
    if s.password == AdminPassword then s.(isAuthenticated := true, error := "", products := FeaturedProducts)
    else s.(error := "Invalid password")
  }

  /** `handleEdit`: starts editing a product with its current stock. */
  function HandleEdit(s: AdminState, p: Product): (r: AdminState)
    ensures r.editingProductId == Some(p.id) && r.availableUnits == p.availableUnits
    ensures r.error == ""
    ensures r.products == s.products && r.isAuthenticated == s.isAuthenticated
    ensures r.password == s.password && r.searchTerm == s.searchTerm
  {
    s.(editingProductId := Some(p.id), availableUnits := p.availableUnits, error := "")
  }

  function SetAvailable(products: seq<Product>, id: Option<string>, units: int): (r: seq<Product>)
    ensures |r| == |products|
    ensures forall k :: 0 <= k < |products| ==>
      r[k] == (if id == Some(products[k].id) then products[k].(availableUnits := units) else products[k])
  {
    if products == [] then []
    else
      var head := if id == Some(products[0].id) then products[0].(availableUnits := units) else products[0];
      [head] + SetAvailable(products[1..], id, units)
  }

  /** `handleSave`: a negative count only sets the error; otherwise the
      edited product's `availableUnits` changes, nothing else does, and
      editing ends. With no product being edited no product matches. */
  function HandleSave(s: AdminState): (r: AdminState)
    ensures s.availableUnits < 0 ==> r == s.(error := "Available units cannot be negative")
    ensures s.availableUnits >= 0 ==>
      r.editingProductId.None? && r.error == "" &&
      r.isAuthenticated == s.isAuthenticated && r.password == s.password &&
      r.searchTerm == s.searchTerm && r.availableUnits == s.availableUnits &&
      |r.products| == |s.products| &&
      forall k :: 0 <= k < |s.products| ==>
        (r.products[k].availableUnits == (if s.editingProductId == Some(s.products[k].id) then s.availableUnits else s.products[k].availableUnits)) &&
        r.products[k] == s.products[k].(availableUnits := r.products[k].availableUnits)
  {
    if s.availableUnits < 0 then s.(error := "Available units cannot be negative")
    else s.(products := SetAvailable(s.products, s.editingProductId, s.availableUnits), editingProductId := None, error := "")
  }

  /** The search predicate: the lowercased term occurs in the lowercased
      name or category. */
  predicate MatchesSearch(p: Product, term: string) {
    Contains(ToLower(p.name), ToLower(term)) || Contains(ToLower(p.category), ToLower(term))
  }

  /** `filteredProducts`: the matching products, in order. */
  function FilteredProducts(products: seq<Product>, term: string): (r: seq<Product>)
    ensures forall p :: p in r <==> p in products && MatchesSearch(p, term)
    ensures IsSubsequence(r, products)
    ensures forall p :: multiset(r)[p] == if MatchesSearch(p, term) then multiset(products)[p] else 0
  {
    Filter(products, (p: Product) => MatchesSearch(p, term))
  }

  /** The empty search term occurs in every name, so it hides nothing. */
  lemma {:induction false} EmptySearchKeepsAll(products: seq<Product>)
    ensures FilteredProducts(products, "") == products
  {
    forall k | 0 <= k < |products| ensures MatchesSearch(products[k], "") {
      ContainsEmpty(ToLower(products[k].name));
    }
  }

  /** `lowStockProducts`: exactly those with at most 10 available units. */
  function LowStockProducts(products: seq<Product>): (r: seq<Product>)
    ensures forall p :: p in r <==> p in products && p.availableUnits <= LowStockThreshold
    ensures IsSubsequence(r, products)
    ensures forall p :: multiset(r)[p] == if p.availableUnits <= LowStockThreshold then multiset(products)[p] else 0
  {
    Filter(products, (p: Product) => p.availableUnits <= LowStockThreshold)
  }

  /** The "Total Available Units" card. */
  function TotalAvailableUnits(products: seq<Product>): int {
    if products == [] then 0 else products[0].availableUnits + TotalAvailableUnits(products[1..])
  }

  /** A save changes the displayed total by exactly the edited product's
      change, when ids are distinct and the edited product is listed. */
  lemma {:induction false} SaveChangesTotalByDelta(products: seq<Product>, k: int, units: int)
    requires 0 <= k < |products|
    requires forall i, j :: 0 <= i < j < |products| ==> products[i].id != products[j].id
    ensures TotalAvailableUnits(SetAvailable(products, Some(products[k].id), units))
         == TotalAvailableUnits(products) - products[k].availableUnits + units
    decreases |products|
  {
    var id := products[k].id;
    var rest := products[1..];
    var head := if id == products[0].id then products[0].(availableUnits := units) else products[0];
    assert products == [products[0]] + rest;
    TotalCons(products[0], rest);
    TotalCons(head, SetAvailable(rest, Some(id), units));
    if k == 0 {
      IdAbsentFromTail(products);
      SetAvailableAbsent(rest, id, units);
    } else {
      assert rest[k - 1] == products[k];
      DistinctTail(products);
      SaveChangesTotalByDelta(rest, k - 1, units);
    }
  }

  lemma TotalCons(p: Product, rest: seq<Product>)
    ensures TotalAvailableUnits([p] + rest) == p.availableUnits + TotalAvailableUnits(rest)
  {
    assert ([p] + rest)[1..] == rest;
  }

  /** With distinct ids, the head's id does not recur in the tail. */
  lemma IdAbsentFromTail(products: seq<Product>)
    requires |products| > 0
    requires forall i, j :: 0 <= i < j < |products| ==> products[i].id != products[j].id
    ensures forall i :: 0 <= i < |products[1..]| ==> products[1..][i].id != products[0].id
  {
    forall i | 0 <= i < |products[1..]| ensures products[1..][i].id != products[0].id {
      assert products[1..][i] == products[i + 1];
    }
  }

  /** The tail of a list with distinct ids has distinct ids. */
  lemma DistinctTail(products: seq<Product>)
    requires |products| > 0
    requires forall i, j :: 0 <= i < j < |products| ==> products[i].id != products[j].id
    ensures forall i, j :: 0 <= i < j < |products[1..]| ==> products[1..][i].id != products[1..][j].id
  {
    forall i, j | 0 <= i < j < |products[1..]| ensures products[1..][i].id != products[1..][j].id {
      assert products[1..][i] == products[i + 1] && products[1..][j] == products[j + 1];
    }
  }

  /** Saving an id nobody has changes nothing. */
  lemma SetAvailableAbsent(products: seq<Product>, id: string, units: int)
    requires forall i :: 0 <= i < |products| ==> products[i].id != id
    ensures SetAvailable(products, Some(id), units) == products
  {
  }

  /** Logout clears authentication, password, products, editing id and
      error; the search term and the edit field are kept. */
  function Logout(s: AdminState): (r: AdminState)
    ensures !r.isAuthenticated && r.password == "" && r.products == [] && r.editingProductId.None? && r.error == ""
    ensures r.searchTerm == s.searchTerm && r.availableUnits == s.availableUnits
  {
    s.(isAuthenticated := false, password := "", products := [], editingProductId := None, error := "")
  }

  /** Logging out forgets a login: the page is as if it never happened. */
  lemma LoginThenLogout(s: AdminState)
    ensures Logout(HandleLogin(s)) == Logout(s)
  {
  }

  /** Editing a product and saving without touching the count leaves the
      products as they were, when its id is its own. */
  lemma EditThenSaveKeepsProducts(s: AdminState, i: int)
    requires 0 <= i < |s.products| && s.products[i].availableUnits >= 0
    requires forall j :: 0 <= j < |s.products| && s.products[j].id == s.products[i].id ==> j == i
    ensures HandleSave(HandleEdit(s, s.products[i])).products == s.products
    ensures HandleSave(HandleEdit(s, s.products[i])).editingProductId.None?
  {
    var r := HandleSave(HandleEdit(s, s.products[i]));
    forall k | 0 <= k < |s.products| ensures r.products[k] == s.products[k] {
      if k == i {
        assert r.products[k] == s.products[k].(availableUnits := s.products[i].availableUnits);
      }
    }
  }

  /** After logging in, the fixture's out-of-stock product is the one
      low-stock item. */
  lemma LoginShowsOneLowStockItem(s: AdminState)
    requires s.password == AdminPassword
    ensures LowStockProducts(HandleLogin(s).products) == [FeaturedProducts[1]]
  {
    var ps := FeaturedProducts;
    assert ps == [ps[0]] + [ps[1]];
  }
}

=== FILE: carousel.dfy ===
/** The two slide carousels: an index into the slides moved by the
    previous and next buttons, the dots and an autoplay timer. Any button
    switches autoplay off for good; the desktop carousel also pauses
    while the pointer is over it. Timer periods are left out: a tick is
    one firing of the interval. */
module Carousel {
  import opened Js

  /** JavaScript's `%`: the remainder takes the sign of the dividend. */
  function JsRem(a: int, n: int): (r: int)
    requires n != 0
    ensures a >= 0 && n > 0 ==> r == a % n
  {
    if a >= 0 then a % (if n > 0 then n else -n)
    else -((-a) % (if n > 0 then n else -n))
  }

  datatype CarouselState = CarouselState(current: int, autoplay: bool)

  const Initial := CarouselState(0, true)

  /** The indexes the dots offer, one per slide. */
  function DotTargets(count: nat): (r: seq<int>)
    ensures |r| == count && forall k :: 0 <= k < count ==> r[k] == k
  {
    seq(count, k => k)
  }

  /** What the component draws: the current slide, and the arrows and
      dots, which only exist for more than one slide. */
  datatype Frame = Frame(current: int, arrows: bool, dots: seq<int>)

  /** Nothing is drawn without slides. */
  function Draw(s: CarouselState, count: nat): (r: Option<Frame>)
    ensures r.None? <==> count == 0
    ensures r.Some? ==> r.value.current == s.current && (r.value.arrows <==> count > 1)
    ensures r.Some? ==> (r.value.dots == [] <==> count == 1)
    ensures r.Some? && count > 1 ==> forall k :: 0 <= k < |r.value.dots| ==> 0 <= r.value.dots[k] < count
  {
    if count == 0 then None
    else if count > 1 then Some(Frame(s.current, true, DotTargets(count)))
    else Some(Frame(s.current, false, []))
  }

  /** `goToSlide`. */
  function GoToSlide(s: CarouselState, index: int): (r: CarouselState)
    ensures r.current == index && !r.autoplay
  {
    CarouselState(index, false)
  }

  /** `goToPrevSlide`. */
  function Prev(s: CarouselState, count: int): (r: CarouselState)
    requires count > 0 && s.current >= 0
    ensures 0 <= r.current < count && !r.autoplay
    ensures s.current < count ==> r.current == (if s.current == 0 then count - 1 else s.current - 1)
  {
    CarouselState(JsRem(s.current - 1 + count, count), false)
  }

  /** `goToNextSlide`. */
  function Next(s: CarouselState, count: int): (r: CarouselState)
    requires count > 0 && s.current >= 0
    ensures 0 <= r.current < count && !r.autoplay
    ensures s.current < count ==> r.current == (if s.current == count - 1 then 0 else s.current + 1)
  {
    CarouselState(JsRem(s.current + 1, count), false)
  }

  /** One firing of the autoplay interval, which only runs while autoplay
      is on and there is more than one slide. */
  function Tick(s: CarouselState, count: int): (r: CarouselState)
    requires s.current >= 0
    ensures r.autoplay == s.autoplay
    ensures !(s.autoplay && count > 1) ==> r == s
    ensures s.autoplay && count > 1 && s.current < count ==>
      r.current == (if s.current == count - 1 then 0 else s.current + 1)
  {
    if s.autoplay && count > 1 then s.(current := JsRem(s.current + 1, count)) else s
  }

  /** Previous undoes next and next undoes previous. */
  lemma PrevNextInverse(s: CarouselState, count: int)
    requires 0 <= s.current < count
    ensures Prev(Next(s, count), count).current == s.current
    ensures Next(Prev(s, count), count).current == s.current
  {
  }

  /** After any button the timer never moves the slide again. */
  lemma ButtonsStopAutoplay(s: CarouselState, count: int, index: int, ticks: nat)
    requires count > 0 && 0 <= s.current && 0 <= index
    ensures Ticks(Next(s, count), count, ticks) == Next(s, count)
    ensures Ticks(Prev(s, count), count, ticks) == Prev(s, count)
    ensures Ticks(GoToSlide(s, index), count, ticks) == GoToSlide(s, index)
  {
    TicksWithoutAutoplay(Next(s, count), count, ticks);
    TicksWithoutAutoplay(Prev(s, count), count, ticks);
    TicksWithoutAutoplay(GoToSlide(s, index), count, ticks);
  }

  function Ticks(s: CarouselState, count: int, n: nat): (r: CarouselState)
    requires s.current >= 0
    ensures r.current >= 0
    decreases n
  {
    if n == 0 then s
    else
      var t := Tick(s, count);
      assert t.current >= 0;
      Ticks(t, count, n - 1)
  }

  lemma {:induction false} TicksWithoutAutoplay(s: CarouselState, count: int, n: nat)
    requires s.current >= 0 && !s.autoplay
    ensures Ticks(s, count, n) == s
    decreases n
  {
    if n > 0 {
      TicksWithoutAutoplay(s, count, n - 1);
    }
  }

  /** Left alone, autoplay walks the slides in order: after `n` ticks
      the index has moved `n` places round the ring. */
  lemma {:induction false} AutoplayCycles(s: CarouselState, count: int, n: nat)
    requires s.autoplay && count > 1 && 0 <= s.current < count
    ensures Ticks(s, count, n).current == (s.current + n) % count
    ensures Ticks(s, count, n).autoplay
    decreases n
  {
    if n > 0 {
      var t := Tick(s, count);
      assert t.current == (s.current + 1) % count;
      AutoplayCycles(t, count, n - 1);
      ModAddOne(s.current, n - 1, count);
    }
  }

  lemma ModAddOne(a: int, m: nat, count: int)
    requires count > 1 && 0 <= a < count
    ensures ((a + 1) % count + m) % count == (a + m + 1) % count
  {
    if a + 1 == count {
      ModShift(m, count);
    } else {
      assert (a + 1) % count == a + 1;
    }
  }

  lemma ModShift(m: nat, count: int)
    requires count > 0
    ensures (m + count) % count == m % count
  {
    ModUnique(m + count, count, m / count + 1, m % count);
  }

  /** The remainder is the only one in range. */
  lemma ModUnique(x: int, count: int, q: int, r: int)
    requires count > 0 && 0 <= r < count && x == q * count + r
    ensures x % count == r
  {
    var d := q - x / count;
    assert d * count == x % count - r;
  }

  /** Every dot leads to a slide that exists. */
  lemma DotsStayInRange(s: CarouselState, count: nat)
    ensures forall k :: 0 <= k < |DotTargets(count)| ==> 0 <= GoToSlide(s, DotTargets(count)[k]).current < count
  {
  }

  // ---------------------------------------------------------------------
  // The desktop carousel: three fixed slides and a hover pause.

  datatype Slide = Video(url: string) | Picture(url: string)

  const DesktopSlides: seq<Slide> := [
    Video("/videos/Upper_Sliding_1.mp4"),
    Video("/videos/Upper_Sliding_2.mp4"),
    Picture("/images/Upper_Sliding_3.png")
  ]

  datatype DesktopState = DesktopState(current: int, autoplay: bool, hovered: bool)

  const DesktopInitial := DesktopState(0, true, false)

  function DesktopGoToSlide(s: DesktopState, index: int): (r: DesktopState)
    ensures r == s.(current := index, autoplay := false)
  {
    s.(current := index, autoplay := false)
  }

  function DesktopPrev(s: DesktopState): (r: DesktopState)
    requires s.current >= 0
    ensures 0 <= r.current < |DesktopSlides| && !r.autoplay && r.hovered == s.hovered
  {
    s.(current := JsRem(s.current - 1 + |DesktopSlides|, |DesktopSlides|), autoplay := false)
  }

  function DesktopNext(s: DesktopState): (r: DesktopState)
    requires s.current >= 0
    ensures 0 <= r.current < |DesktopSlides| && !r.autoplay && r.hovered == s.hovered
  {
    s.(current := JsRem(s.current + 1, |DesktopSlides|), autoplay := false)
  }

  /** The pointer entering or leaving the carousel. */
  function SetHovered(s: DesktopState, hovered: bool): (r: DesktopState)
    ensures r == s.(hovered := hovered)
  {
    s.(hovered := hovered)
  }

  /** One firing of the interval, which only runs while autoplay is on,
      there is more than one slide and the pointer is elsewhere. */
  function DesktopTick(s: DesktopState): (r: DesktopState)
    requires s.current >= 0
    ensures s.hovered || !s.autoplay ==> r == s
    ensures s.autoplay && !s.hovered ==> r == s.(current := (s.current + 1) % 3)
  {
    if s.autoplay && |DesktopSlides| > 1 && !s.hovered then
      s.(current := JsRem(s.current + 1, |DesktopSlides|))
    else s
  }

  function DesktopTicks(s: DesktopState, n: nat): (r: DesktopState)
    requires s.current >= 0
    ensures r.current >= 0 && r.autoplay == s.autoplay && r.hovered == s.hovered
    decreases n
  {
    if n == 0 then s else DesktopTicks(DesktopTick(s), n - 1)
  }

  /** A state the timer cannot move stays put however often it fires. */
  lemma {:induction false} DesktopTicksIdle(s: DesktopState, n: nat)
    requires s.current >= 0 && (s.hovered || !s.autoplay)
    ensures DesktopTicks(s, n) == s
    decreases n
  {
    if n > 0 {
      DesktopTicksIdle(s, n - 1);
    }
  }

  /** After a dot or an arrow the timer never moves the slide again,
      whether or not the pointer is over the carousel. */
  lemma DesktopButtonsStopAutoplay(s: DesktopState, index: int, n: nat)
    requires s.current >= 0 && index >= 0
    ensures DesktopTicks(DesktopGoToSlide(s, index), n).current == index
    ensures DesktopTicks(DesktopGoToSlide(s, index), n) == DesktopGoToSlide(s, index)
    ensures DesktopTicks(DesktopNext(s), n) == DesktopNext(s)
    ensures DesktopTicks(DesktopPrev(s), n) == DesktopPrev(s)
  {
    DesktopTicksIdle(DesktopGoToSlide(s, index), n);
    DesktopTicksIdle(DesktopNext(s), n);
    DesktopTicksIdle(DesktopPrev(s), n);
  }

  /** While the pointer is over the carousel the timer does nothing; once
      it leaves, a carousel still on autoplay steps forward again. */
  lemma HoverPausesAutoplay(s: DesktopState, n: nat)
    requires s.current >= 0
    ensures DesktopTicks(SetHovered(s, true), n) == SetHovered(s, true)
    ensures s.autoplay ==> DesktopTick(SetHovered(s, false)).current == (s.current + 1) % 3
    ensures !s.autoplay ==> DesktopTicks(SetHovered(s, false), n) == SetHovered(s, false)
  {
    DesktopTicksIdle(SetHovered(s, true), n);
    if !s.autoplay {
      DesktopTicksIdle(SetHovered(s, false), n);
    }
  }

  /** With three slides, previous is two steps forward. */
  lemma DesktopPrevIsTwoForward(s: DesktopState)
    requires s.current >= 0
    ensures DesktopPrev(s).current == (s.current + 2) % 3
    ensures DesktopNext(s).current == (s.current + 1) % 3
  {
  }

  /** The desktop carousel behaves as the general one over its three
      slides whenever the pointer is elsewhere. */
  lemma DesktopMatchesGeneral(s: DesktopState)
    requires s.current >= 0 && !s.hovered
    ensures DesktopTick(s).current == Tick(CarouselState(s.current, s.autoplay), 3).current
    ensures DesktopNext(s).current == Next(CarouselState(s.current, s.autoplay), 3).current
    ensures DesktopPrev(s).current == Prev(CarouselState(s.current, s.autoplay), 3).current
  {
  }
}

=== FILE: cart.dfy ===
/** The shopping cart: an ordered sequence of line items, changed by
    add (merge or append), remove, quantity update and clear, with the
    derived item count and discounted total price. */
module Cart {
  import opened Js
  import Catalog

  datatype CartItem = CartItem(
    id: string,
    name: string,
    price: int,
    discountPercentage: int,
    quantity: int,
    image: string,
    availableUnits: int)

  type Items = seq<CartItem>

  predicate HasId(items: Items, id: string) {
    exists k :: 0 <= k < |items| && items[k].id == id
  }

  /** No two line items share an id. */
  predicate DistinctIds(items: Items) {
    forall i, j :: 0 <= i < j < |items| ==> items[i].id != items[j].id
  }

  /** `addItem` refuses an id the catalog lacks or lists with no stock. */
  predicate OutOfStock(catalog: seq<Catalog.Product>, id: string) {
    match Catalog.FindById(catalog, id)
    case None => true
    case Some(p) => p.availableUnits == 0
  }

  /** Adds `extra` to the quantity of every entry with id `id`. */
  function MergeQuantity(items: Items, id: string, extra: int): (r: Items)
    ensures |r| == |items|
    ensures forall k :: 0 <= k < |items| ==>
      r[k] == (if items[k].id == id then items[k].(quantity := items[k].quantity + extra) else items[k])
  {
    if items == [] then []
    else
      var head := if items[0].id == id then items[0].(quantity := items[0].quantity + extra) else items[0];
      [head] + MergeQuantity(items[1..], id, extra)
  }

  /** `addItem`: refused when out of stock; merged into an existing entry
      with the same id; otherwise appended. The merged quantity is never
      compared with the catalog's stock. */
  function AddItem(catalog: seq<Catalog.Product>, items: Items, item: CartItem): (r: Items)
    ensures OutOfStock(catalog, item.id) ==> r == items
    ensures !OutOfStock(catalog, item.id) && HasId(items, item.id) ==>
      |r| == |items| &&
      forall k :: 0 <= k < |items| ==>
        r[k] == (if items[k].id == item.id then items[k].(quantity := items[k].quantity + item.quantity) else items[k])
    ensures !OutOfStock(catalog, item.id) && !HasId(items, item.id) ==> r == items + [item]
  {
    if OutOfStock(catalog, item.id) then items
    else if HasId(items, item.id) then MergeQuantity(items, item.id, item.quantity)
    else items + [item]
  }

  /** `removeItem`: keeps, in order, exactly the entries with another id. */
  function RemoveItem(items: Items, id: string): (r: Items)
    ensures !HasId(r, id)
    ensures forall x :: x in r <==> x in items && x.id != id
    ensures IsSubsequence(r, items)
    ensures !HasId(items, id) ==> r == items
    ensures forall x :: multiset(r)[x] == if x.id != id then multiset(items)[x] else 0
  {
    var r := Filter(items, (x: CartItem) => x.id != id);
    assert forall k :: 0 <= k < |r| ==> r[k] in r;
    r
  }

  /** Sets the quantity of every entry with id `id`. */
  function SetQuantity(items: Items, id: string, quantity: int): (r: Items)
    ensures |r| == |items|
    ensures forall k :: 0 <= k < |items| ==>
      r[k] == (if items[k].id == id then items[k].(quantity := quantity) else items[k])
  {
    if items == [] then []
    else
      var head := if items[0].id == id then items[0].(quantity := quantity) else items[0];
      [head] + SetQuantity(items[1..], id, quantity)
  }

  /** `updateQuantity`: a quantity below 1 is ignored; otherwise only the
      entries with that id change, and only in their quantity. */
  function UpdateQuantity(items: Items, id: string, quantity: int): (r: Items)
    ensures quantity < 1 ==> r == items
    ensures quantity >= 1 ==>
      |r| == |items| &&
      forall k :: 0 <= k < |items| ==>
        r[k].id == items[k].id &&
        r[k] == (if items[k].id == id then items[k].(quantity := quantity) else items[k])
  {
    if quantity < 1 then items else SetQuantity(items, id, quantity)
  }

  /** `clearCart`: nothing left to count or pay. */
  function ClearCart(items: Items): (r: Items)
    ensures TotalItems(r) == 0 && TotalPrice(r) == 0
    ensures forall id :: !HasId(r, id)
  {
    []
  }

  /** `totalItems`: the sum of the quantities. */
  function TotalItems(items: Items): int {
    if items == [] then 0 else items[0].quantity + TotalItems(items[1..])
  }

  /** One entry's contribution to `totalPrice`:
      floor(quantity * price * (1 - discount/100)), in exact arithmetic. */
  function LineTotal(item: CartItem): int {
    (item.quantity * item.price * (100 - item.discountPercentage)) / 100
  }

  /** `totalPrice`: the sum of the discounted line totals. */
  function TotalPrice(items: Items): int {
    if items == [] then 0 else LineTotal(items[0]) + TotalPrice(items[1..])
  }

  // ---------------------------------------------------------------------
  // Properties

  lemma {:induction false} TotalItemsAppend(a: Items, b: Items)
    ensures TotalItems(a + b) == TotalItems(a) + TotalItems(b)
    decreases |a|
  {
    if a != [] {
      TotalItemsAppend(a[1..], b);
      assert (a + b)[0] == a[0];
      assert (a + b)[1..] == a[1..] + b;
    } else {
      assert a + b == b;
    }
  }

  lemma {:induction false} TotalPriceAppend(a: Items, b: Items)
    ensures TotalPrice(a + b) == TotalPrice(a) + TotalPrice(b)
    decreases |a|
  {
    if a != [] {
      TotalPriceAppend(a[1..], b);
      assert (a + b)[0] == a[0];
      assert (a + b)[1..] == a[1..] + b;
    } else {
      assert a + b == b;
    }
  }

  lemma {:induction false} MergeAbsent(items: Items, id: string, extra: int)
    requires !HasId(items, id)
    ensures MergeQuantity(items, id, extra) == items
  {
    var r := MergeQuantity(items, id, extra);
    assert forall k :: 0 <= k < |items| ==> r[k] == items[k];
  }

  /** Merging into the one entry with that id raises the item count by
      exactly the added quantity. */
  lemma {:induction false} MergeTotalItems(items: Items, id: string, extra: int)
    requires DistinctIds(items) && HasId(items, id)
    ensures TotalItems(MergeQuantity(items, id, extra)) == TotalItems(items) + extra
    decreases |items|
  {
    var r := MergeQuantity(items, id, extra);
    assert r[1..] == MergeQuantity(items[1..], id, extra);
    if items[0].id == id {
      assert !HasId(items[1..], id) by {
        forall k | 0 <= k < |items[1..]| ensures items[1..][k].id != id {
          assert items[1..][k] == items[k + 1];
        }
      }
      MergeAbsent(items[1..], id, extra);
    } else {
      var k :| 0 <= k < |items| && items[k].id == id;
      assert items[1..][k - 1].id == id;
      MergeTotalItems(items[1..], id, extra);
    }
  }

  /** Adding keeps line-item ids pairwise distinct. */
  lemma AddItemKeepsIdsDistinct(catalog: seq<Catalog.Product>, items: Items, item: CartItem)
    requires DistinctIds(items)
    ensures DistinctIds(AddItem(catalog, items, item))
  {
    var r := AddItem(catalog, items, item);
    if !OutOfStock(catalog, item.id) && !HasId(items, item.id) {
      forall i, j | 0 <= i < j < |r| ensures r[i].id != r[j].id {
        if j == |items| {
          assert r[i] == items[i];
        }
      }
    }
  }

  /** An accepted add raises the item count by the added quantity,
      whether it merged or appended; a refused one changes nothing. */
  lemma AddItemTotalItems(catalog: seq<Catalog.Product>, items: Items, item: CartItem)
    requires DistinctIds(items)
    ensures !OutOfStock(catalog, item.id) ==>
      TotalItems(AddItem(catalog, items, item)) == TotalItems(items) + item.quantity
    ensures OutOfStock(catalog, item.id) ==>
      TotalItems(AddItem(catalog, items, item)) == TotalItems(items)
  {
    if !OutOfStock(catalog, item.id) {
      if HasId(items, item.id) {
        MergeTotalItems(items, item.id, item.quantity);
      } else {
        TotalItemsAppend(items, [item]);
      }
    }
  }

  /** Removing, updating and clearing never create duplicate ids. */
  lemma EditsKeepIdsDistinct(items: Items, id: string, quantity: int)
    requires DistinctIds(items)
    ensures DistinctIds(UpdateQuantity(items, id, quantity))
    ensures DistinctIds(ClearCart(items))
  {
  }

  /** With non-negative quantities the item count is non-negative, and it
      is zero exactly for a cart whose entries all have quantity 0. */
  lemma {:induction false} TotalItemsNonNegative(items: Items)
    requires forall k :: 0 <= k < |items| ==> items[k].quantity >= 0
    ensures TotalItems(items) >= 0
    ensures TotalItems(items) == 0 <==> forall k :: 0 <= k < |items| ==> items[k].quantity == 0
    decreases |items|
  {
    if items != [] {
      TotalItemsNonNegative(items[1..]);
      assert forall k :: 1 <= k < |items| ==> items[1..][k - 1] == items[k];
    }
  }

  /** The fixture's second product has no stock: adding it is refused. */
  lemma OutOfStockFixtureRefused(items: Items, item: CartItem)
    requires item.id == "prod2"
    ensures AddItem(Catalog.FeaturedProducts, items, item) == items
  {
    assert Catalog.FeaturedProducts[1].id == "prod2";
  }

  /** No stock cap: 15 units of the first fixture product plus 10 more
      gives 25, above its 20 available units. */
  lemma AddIgnoresAvailableUnits()
    ensures var before := [CartItem("prod1", "Premium Quality Shilajit", 1998, 55, 15, "/images/1.png", 20)];
            var after := AddItem(Catalog.FeaturedProducts, before, before[0].(quantity := 10));
            |after| == 1 && after[0].quantity == 25 && after[0].quantity > Catalog.FeaturedProducts[0].availableUnits
  {
    var before := [CartItem("prod1", "Premium Quality Shilajit", 1998, 55, 15, "/images/1.png", 20)];
    assert Catalog.FeaturedProducts[0].id == "prod1";
    assert before[0].id == "prod1";
    assert HasId(before, "prod1");
  }
}

=== FILE: cart_page.dfy ===
/** The cart page: the quantity buttons' guard, the shipping rule (free
    from 999 rupees), the grand total, the per-row unit price, and the
    choice between the empty state and the item table. */
module CartPage {
  import opened Cart

  /** The order value from which shipping is free. */
  const FreeShippingThreshold: int := 999

  /** The flat shipping charge below the threshold. */
  const ShippingCharge: int := 100

  /** Shipping is free exactly when the discounted total reaches 999. */
  function ShippingCost(totalPrice: int): (r: int)
    ensures r == 0 <==> totalPrice >= FreeShippingThreshold
    ensures r == 0 || r == ShippingCharge
  {
    if totalPrice >= FreeShippingThreshold then 0 else ShippingCharge
  }

  /** `finalTotal`: the cart total plus shipping, so never less than the
      cart total and at most 100 above it. */
  function FinalTotal(totalPrice: int): (r: int)
    ensures totalPrice <= r <= totalPrice + ShippingCharge
    ensures totalPrice >= FreeShippingThreshold ==> r == totalPrice
  {
    totalPrice + ShippingCost(totalPrice)
  }

  /** The grand total is not monotone in the cart total: a larger cart
      costs less to check out exactly when it crosses the threshold from
      below by less than the shipping charge. One rupee more at 998 is the
      smallest case. */
  lemma FinalTotalNotMonotone(t: int, t': int)
    requires t <= t'
    ensures FinalTotal(t) > FinalTotal(t') <==>
            t < FreeShippingThreshold <= t' && t' < t + ShippingCharge
    ensures FinalTotal(998) > FinalTotal(999)
  {
  }

  /** `handleQuantityChange`: a request below 1 never reaches the cart;
      otherwise it is exactly `updateQuantity`. */
  function HandleQuantityChange(items: Items, id: string, newQuantity: int): (r: Items)
    ensures newQuantity < 1 ==> r == items
    ensures r == UpdateQuantity(items, id, newQuantity)
  {
    if newQuantity < 1 then items else UpdateQuantity(items, id, newQuantity)
  }

  /** The unit price shown in a row: floor(price * (1 - discount/100)),
      which is the line total the cart would charge for one unit. */
  function UnitPrice(item: CartItem): (r: int)
    ensures r == LineTotal(item.(quantity := 1))
    ensures 0 <= item.discountPercentage <= 100 && item.price >= 0 ==> 0 <= r <= item.price
  {
    (item.price * (100 - item.discountPercentage)) / 100
  }

  datatype Row = Row(id: string, name: string, unitPrice: int, quantity: int)

  /** What the page shows: the empty state, or one row per line item with
      the order summary. */
  datatype View =
    | EmptyState
    | Table(rows: seq<Row>, subtotal: int, shipping: int, total: int)

  function Rows(items: Items): (r: seq<Row>)
    ensures |r| == |items|
    ensures forall k :: 0 <= k < |items| ==>
      r[k] == Row(items[k].id, items[k].name, UnitPrice(items[k]), items[k].quantity)
  {
    if items == [] then [] else [Row(items[0].id, items[0].name, UnitPrice(items[0]), items[0].quantity)] + Rows(items[1..])
  }

  /** The page renders the empty state exactly for an empty cart; otherwise
      a row per entry, in cart order, and a summary whose total is the
      cart total plus shipping. */
  function Render(items: Items): (r: View)
    ensures r.EmptyState? <==> |items| == 0
    ensures r.Table? ==>
      |r.rows| == |items| &&
      (forall k :: 0 <= k < |items| ==> r.rows[k].id == items[k].id && r.rows[k].quantity == items[k].quantity) &&
      r.subtotal == TotalPrice(items) &&
      r.total == r.subtotal + r.shipping &&
      r.total == FinalTotal(TotalPrice(items))
  {
    if |items| == 0 then EmptyState
    else
      var subtotal := TotalPrice(items);
      Table(Rows(items), subtotal, ShippingCost(subtotal), FinalTotal(subtotal))
  }
}

=== FILE: catalog.dfy ===
/** The shared record types of the storefront and its catalog fixture:
    the product, category, order and payment-info shapes, and the two
    hard-coded products every page reads. */
module Catalog {
  import opened Js

  /** A catalog product. `rating` is a decimal such as 4.7. */
  datatype Product = Product(
    id: string,
    name: string,
    price: int,
    discountPercentage: int,
    shortDescription: string,
    fullDescription: string,
    images: seq<string>,
    category: string,
    tags: seq<string>,
    reviewCount: int,
    rating: real,
    availableUnits: int,
    featured: bool)

  datatype Category = Category(id: string, name: string, slug: string, description: string, image: string)

  datatype OrderStatus = Pending | Processing | Shipped | Delivered | Cancelled

  datatype Address = Address(
    firstName: string,
    lastName: string,
    addressLine1: string,
    addressLine2: Option<string>,
    city: string,
    state: string,
    postalCode: string,
    country: string,
    phone: string)

  datatype PaymentMethod = Razorpay | CashOnDelivery

  datatype PaymentInfoStatus = InfoPending | Successful | InfoFailed

  datatype PaymentInfo = PaymentInfo(paymentMethod: PaymentMethod, status: PaymentInfoStatus, transactionId: Option<string>)

  datatype OrderItem = OrderItem(productId: string, name: string, price: int, quantity: int, image: string)

  datatype Order = Order(
    id: string,
    userId: string,
    items: seq<OrderItem>,
    status: OrderStatus,
    total: int,
    createdAt: string,
    shippingAddress: Address,
    paymentInfo: PaymentInfo)

  /** The featured products fixture. */
  const FeaturedProducts: seq<Product> := [
    Product(
      "prod1",
      "Premium Quality Shilajit",
      1998,
      55,
      "Shilajit is a natural substance that is found in the Himalayas. It is a dark, tar-like substance that is found in the rocks of the Himalayas. It is a natural substance that is found in the Himalayas. It is a natural substance that is found in the Himalayas.",
      "Shilajit is rich in nutrients such as mineral salts, amino acids, and other organic components including benzoic acid, hippuric acid, fatty acids (myristic acid, stearic acid, oleic acid, petroselinic acid, linoleic acid, lauric acid, saturated fatty acids), ichthyridine, salicylic acid, resins, triterpenes, sterols, aromatic carboxylic acids, 3,4-benzocoumarins, amino groups acids, phenolic lipids, latex, albumin, sterols, tea polyphenols, phenolic lipids, dibenzo-alpha-pyrones (DBP), and dibenzo-α-pyrone chromoproteins (DCPs).",
      ["/images/1.png", "/images/2.png", "/images/3.png", "/images/4.png",
       "/images/5.png", "/images/6.png", "/images/7.png", "/images/8.png"],
      "cat2",
      ["Shilajit", "mineral salts", "organic components"],
      89,
      4.7,
      20,
      true),
    Product(
      "prod2",
      "Shaastrayog Narsingh Prash Testobooster",
      1998,
      35,
      "Improves Overall Health",
      "Narsingh Prash is a classical Ayurvedic recipe designed to enhance both overall and sexual health. Its unique blend of natural ingredients offers a multitude of benefits: Improves Overall Health Narsingh prash supports holistic well-being by enhancing bodily functions and boosting immunity.Rejuvenates Cells and Tissues.",
      ["/images/16.png"],
      "cat1",
      ["Narsingh Prash", "Ayurvedic", "sexual health"],
      124,
      4.8,
      0,
      true)
  ]

  /** The shop lists exactly the featured products. */
  const AllProducts: seq<Product> := FeaturedProducts

  /** `products.find(p => p.id === id)`: the first product with that id. */
  function FindById(products: seq<Product>, id: string): (r: Option<Product>)
    ensures r.Some? <==> exists k :: 0 <= k < |products| && products[k].id == id
    ensures r.Some? ==> r.value in products && r.value.id == id
    ensures r.Some? ==> exists k :: 0 <= k < |products| && products[k] == r.value &&
                                    forall j :: 0 <= j < k ==> products[j].id != id
  {
    if products == [] then None
    else if products[0].id == id then Some(products[0])
    else FindById(products[1..], id)
  }
}

=== FILE: checkout.dfy ===
/** The checkout page: the form's validation schema, the choice between
    online payment and cash on delivery, and the requests each path sends,
    in order, with the replies it gets as inputs. */
module Checkout {
  import opened Js
  import opened Cart
  import opened Nimbus

  datatype FormValues = FormValues(
    firstName: string,
    lastName: string,
    email: string,
    phone: string,
    address: string,
    city: string,
    state: string,
    postalCode: string,
    paymentMethod: string)

  // ---------------------------------------------------------------------
  // Validation

  /** The pattern `^\d+$`: one or more ASCII digits and nothing else. */
  predicate DigitRun(s: string)
    decreases |s|
  {
    |s| >= 1 && IsDigit(s[0]) && (|s| == 1 || DigitRun(s[1..]))
  }

  lemma {:induction false} DigitRunIff(s: string)
    ensures DigitRun(s) <==> |s| >= 1 && forall i :: 0 <= i < |s| ==> IsDigit(s[i])
    decreases |s|
  {
    if |s| > 1 {
      DigitRunIff(s[1..]);
      assert forall i :: 1 <= i < |s| ==> s[1..][i - 1] == s[i];
    }
  }

  datatype FormIssue = FormIssue(field: string, message: string)

  /** One check of the schema: whether it failed, and what it reports. */
  datatype Check = Check(failed: bool, issue: FormIssue)

  /** The issues of the failed checks, in order. */
  function Failures(checks: seq<Check>): (r: seq<FormIssue>)
    ensures r == [] <==> forall k :: 0 <= k < |checks| ==> !checks[k].failed
  {
    if checks == [] then []
    else (if checks[0].failed then [checks[0].issue] else []) + Failures(checks[1..])
  }

  /** The schema's checks in field order; a field with two checks reports
      both when both fail. `isEmail` is the schema's email check, which is
      not modelled. */
  function SchemaChecks(f: FormValues, isEmail: string -> bool): seq<Check> {
    [Check(|f.firstName| < 2, FormIssue("firstName", "First name must be at least 2 characters")),
     Check(|f.lastName| < 2, FormIssue("lastName", "Last name must be at least 2 characters")),
     Check(!isEmail(f.email), FormIssue("email", "Please enter a valid email address")),
     Check(|f.phone| < 10, FormIssue("phone", "Phone number must be at least 10 digits")),
     Check(!DigitRun(f.phone), FormIssue("phone", "Phone number must contain only digits")),
     Check(|f.address| < 5, FormIssue("address", "Address must be at least 5 characters")),
     Check(|f.city| < 2, FormIssue("city", "City name must be at least 2 characters")),
     Check(|f.state| < 2, FormIssue("state", "State name must be at least 2 characters")),
     Check(|f.postalCode| < 6, FormIssue("postalCode", "Postal code must be at least 6 digits")),
     Check(!DigitRun(f.postalCode), FormIssue("postalCode", "Postal code must contain only digits")),
     Check(f.paymentMethod != "razorpay" && f.paymentMethod != "cod",
           FormIssue("paymentMethod", "Invalid enum value. Expected 'razorpay' | 'cod', received '" + f.paymentMethod + "'"))]
  }

  /** Every failed check of the schema, in schema order. */
  function FormIssues(f: FormValues, isEmail: string -> bool): (r: seq<FormIssue>)
    ensures r == [] <==>
      |f.firstName| >= 2 && |f.lastName| >= 2 && isEmail(f.email) &&
      |f.phone| >= 10 && DigitRun(f.phone) &&
      |f.address| >= 5 && |f.city| >= 2 && |f.state| >= 2 &&
      |f.postalCode| >= 6 && DigitRun(f.postalCode) &&
      (f.paymentMethod == "razorpay" || f.paymentMethod == "cod")
  {
    var checks := SchemaChecks(f, isEmail);
    assert (forall k :: 0 <= k < |checks| ==> !checks[k].failed) <==>
      !checks[0].failed && !checks[1].failed && !checks[2].failed && !checks[3].failed &&
      !checks[4].failed && !checks[5].failed && !checks[6].failed && !checks[7].failed &&
      !checks[8].failed && !checks[9].failed && !checks[10].failed;
    Failures(checks)
  }

  predicate ValidForm(f: FormValues, isEmail: string -> bool) {
    FormIssues(f, isEmail) == []
  }

  /** A valid form's phone and postal code are all digits. */
  lemma ValidFormDigits(f: FormValues, isEmail: string -> bool)
    requires ValidForm(f, isEmail)
    ensures forall i :: 0 <= i < |f.phone| ==> IsDigit(f.phone[i])
    ensures forall i :: 0 <= i < |f.postalCode| ==> IsDigit(f.postalCode[i])
  {
    DigitRunIff(f.phone);
    DigitRunIff(f.postalCode);
  }

  // ---------------------------------------------------------------------
  // Requests and their replies

  /** The body of the create-order request. */
  datatype OrderData = OrderData(
    amount: int,
    currency: string,
    customerInfo: FormValues,
    items: Items,
    paymentMethod: Option<string>,
    status: Option<string>)

  /** A parsed JSON reply: an object with the fields the page reads, or
      `null`. Every object is truthy. */
  datatype ReplyBody =
    | ObjectBody(id: Option<string>, message: Option<string>, error: Option<string>)
    | NullBody

  /** The options the payment widget opens with. */
  datatype WidgetOptions = WidgetOptions(
    key: string, amount: int, currency: string, name: string, description: string, orderId: string,
    prefillName: string, prefillEmail: string, prefillContact: string)

  /** What the widget hands back after a payment. */
  datatype GatewayPayment = GatewayPayment(orderId: string, paymentId: string, signature: string)

  /** The body of the verify-payment request. */
  datatype VerificationData = VerificationData(orderId: string, paymentId: string, signature: string, email: string)

  /** The body of the cash-on-delivery confirmation request. */
  datatype CodMail = CodMail(email: string, orderId: string, customerName: string, items: Items, total: int, paymentMethod: string)

  /** What the page does, in order. */
  datatype Effect =
    | RequestOrder(order: OrderData)
    | OpenWidget(options: WidgetOptions)
    | RequestVerification(verification: VerificationData)
    | RequestCodMail(mail: CodMail)
    | RequestShipment(shipment: ShipmentRequest)
    | EmptyCart
    | GoToOrderSuccess

  /** The effects of one handler and the error text it leaves shown. */
  datatype Outcome = Outcome(effects: seq<Effect>, error: string)

  const CreateOrderFailed := "Failed to create order"
  const PlaceOrderFailed := "Failed to place order"
  const WidgetFailed := "Failed to initialize payment. Please try again."
  const VerificationFailed := "Payment verification failed. Please contact support."
  const ProcessingFailed := "Error processing payment. Please try again."
  /** The TypeError V8 raises for `null.id`. */
  const NullIdError := "Cannot read properties of null (reading 'id')"

  function FullName(f: FormValues): string {
    f.firstName + " " + f.lastName
  }

  function ItemNames(items: Items): (r: seq<string>)
    ensures |r| == |items| && forall k :: 0 <= k < |items| ==> r[k] == items[k].name
  {
    if items == [] then [] else [items[0].name] + ItemNames(items[1..])
  }

  /** The shipment request both paths build: the form's address, the
      item names joined by ", ", the summed quantity, and a fixed parcel
      of 15 x 10 x 10 cm weighing 0.1 kg. */
  function Shipment(f: FormValues, items: Items, orderNumber: string, mode: PaymentMode, collectable: int): (s: ShipmentRequest)
    ensures s.customerName == FullName(f) && s.customerPincode == f.postalCode && s.customerPhone == f.phone
    ensures s.customerAddress == f.address && s.customerCity == f.city && s.customerState == f.state
    ensures s.orderNumber == orderNumber && s.productName == Join(ItemNames(items), ", ")
    ensures s.quantity == TotalItems(items)
    ensures s.length == 15 && s.breadth == 10 && s.height == 10 && s.weight == 0.1
    ensures s.paymentMode == mode && s.collectableAmount == collectable
  {
    ShipmentRequest(FullName(f), f.address, f.city, f.state, f.postalCode, f.phone, orderNumber,
                    Join(ItemNames(items), ", "), TotalItems(items), 15, 10, 10, 0.1, mode, collectable)
  }

  /** Every item's name appears in the shipment's product name, and the
      quantity counts every unit. */
  lemma ShipmentCoversItems(f: FormValues, items: Items, orderNumber: string, mode: PaymentMode, collectable: int)
    requires forall k :: 0 <= k < |items| ==> items[k].quantity >= 0
    ensures var s := Shipment(f, items, orderNumber, mode, collectable);
            (forall k :: 0 <= k < |items| ==> Contains(s.productName, items[k].name)) &&
            (forall k :: 0 <= k < |items| ==> s.quantity >= items[k].quantity) &&
            s.quantity >= 0
  {
    var names := ItemNames(items);
    JoinContainsParts(names, ", ");
    TotalItemsNonNegative(items);
    forall k | 0 <= k < |items| ensures TotalItems(items) >= items[k].quantity {
      QuantityWithinTotal(items, k);
    }
  }

  lemma {:induction false} QuantityWithinTotal(items: Items, k: int)
    requires 0 <= k < |items|
    requires forall i :: 0 <= i < |items| ==> items[i].quantity >= 0
    ensures TotalItems(items) >= items[k].quantity
    decreases |items|
  {
    TotalItemsNonNegative(items[1..]);
    if k > 0 {
      assert items[1..][k - 1] == items[k];
      QuantityWithinTotal(items[1..], k - 1);
    }
  }

  // ---------------------------------------------------------------------
  // Online payment

  /** `handleRazorpayPayment` up to opening the widget. `orderReply` is the
      create-order request's parsed reply; `widgetOk` says whether the
      widget script can be constructed. */
  function StartOnline(f: FormValues, items: Items, totalPrice: int, keyId: Option<string>,
                       orderReply: Reply<ReplyBody>, widgetOk: bool): (r: Outcome)
    ensures |r.effects| >= 1 && r.effects[0] == RequestOrder(OrderData(totalPrice, "INR", f, items, None, None))
    ensures |r.effects| == 2 <==> orderReply.Replied? && orderReply.body.ObjectBody? && TruthyStr(orderReply.body.id) && widgetOk
    ensures |r.effects| == 2 ==>
      r.effects[1].OpenWidget? && r.effects[1].options.amount == totalPrice * 100 &&
      r.effects[1].options.orderId == orderReply.body.id.value && r.error == ""
    ensures orderReply.Replied? && orderReply.body.ObjectBody? && !TruthyStr(orderReply.body.id) ==>
      r.error == OrStr(orderReply.body.message, CreateOrderFailed)
  {
    var request := RequestOrder(OrderData(totalPrice, "INR", f, items, None, None));
    match orderReply
    case Threw(m) => Outcome([request], m)
    case Replied(NullBody) => Outcome([request], NullIdError)
    case Replied(ObjectBody(id, message, _)) =>
      if !TruthyStr(id) then Outcome([request], OrStr(message, CreateOrderFailed))
      else if !widgetOk then Outcome([request], WidgetFailed)
      else
        var options := WidgetOptions(OrStr(keyId, ""), totalPrice * 100, "INR", "Shaastra Yog", "Order Payment", id.value,
                                     FullName(f), f.email, f.phone);
        Outcome([request, OpenWidget(options)], "")
  }

  /** `handlePaymentSuccess`: verify, then ship, clear the cart and leave.
      Any object the verification request returns counts as verified. */
  function AfterPayment(f: FormValues, items: Items, pay: GatewayPayment,
                        verifyReply: Reply<ReplyBody>, shipmentReply: Reply<()>): (r: Outcome)
    ensures |r.effects| >= 1 && r.effects[0] == RequestVerification(VerificationData(pay.orderId, pay.paymentId, pay.signature, f.email))
    ensures (exists k :: 0 <= k < |r.effects| && r.effects[k].RequestShipment?) <==>
      verifyReply.Replied? && verifyReply.body.ObjectBody?
    ensures (exists k :: 0 <= k < |r.effects| && r.effects[k].RequestShipment?) ==>
      r.effects[1] == RequestShipment(Shipment(f, items, pay.orderId, Prepaid, 0))
    ensures EmptyCart in r.effects <==> verifyReply.Replied? && verifyReply.body.ObjectBody? && shipmentReply.Replied?
    ensures verifyReply == Replied(NullBody) ==> r.error == VerificationFailed
    ensures verifyReply.Threw? ==> r.error == ProcessingFailed
  {
    var verify := RequestVerification(VerificationData(pay.orderId, pay.paymentId, pay.signature, f.email));
    match verifyReply
    case Threw(_) => Outcome([verify], ProcessingFailed)
    case Replied(NullBody) => Outcome([verify], VerificationFailed)
    case Replied(ObjectBody(_, _, _)) =>
      var ship := RequestShipment(Shipment(f, items, pay.orderId, Prepaid, 0));
      var r := if shipmentReply.Threw? then Outcome([verify, ship], ProcessingFailed)
               else Outcome([verify, ship, EmptyCart, GoToOrderSuccess], "");
      assert r.effects[1].RequestShipment?;
      r
  }

  // ---------------------------------------------------------------------
  // Cash on delivery

  /** `handleCODPayment`: create the order, then request the mail, then
      the shipment, then clear the cart and leave. Any object reply counts
      as an order; without an id the order number is "cod-order". */
  function PayOnDelivery(f: FormValues, items: Items, totalPrice: int, orderReply: Reply<ReplyBody>,
                         mailReply: Reply<()>, shipmentReply: Reply<()>): (r: Outcome)
    ensures |r.effects| >= 1 && r.effects[0] == RequestOrder(OrderData(totalPrice, "INR", f, items, Some("cod"), Some("pending")))
    ensures orderReply == Replied(NullBody) ==> r == Outcome([r.effects[0]], PlaceOrderFailed)
    ensures orderReply.Threw? ==> r == Outcome([r.effects[0]], orderReply.message)
    ensures (orderReply.Replied? && orderReply.body.ObjectBody? && mailReply.Replied? && shipmentReply.Replied?) ==>
      var number := OrStr(orderReply.body.id, "cod-order");
      r.error == "" &&
      r.effects == [r.effects[0],
                    RequestCodMail(CodMail(f.email, number, FullName(f), items, totalPrice, "Cash on Delivery")),
                    RequestShipment(Shipment(f, items, number, Cod, totalPrice)),
                    EmptyCart, GoToOrderSuccess]
    ensures EmptyCart in r.effects <==>
      orderReply.Replied? && orderReply.body.ObjectBody? && mailReply.Replied? && shipmentReply.Replied?
  {
    var request := RequestOrder(OrderData(totalPrice, "INR", f, items, Some("cod"), Some("pending")));
    match orderReply
    case Threw(m) => Outcome([request], m)
    case Replied(NullBody) => Outcome([request], PlaceOrderFailed)
    case Replied(ObjectBody(id, _, _)) =>
      var number := OrStr(id, "cod-order");
      var mail := RequestCodMail(CodMail(f.email, number, FullName(f), items, totalPrice, "Cash on Delivery"));
      if mailReply.Threw? then Outcome([request, mail], mailReply.message)
      else
        var ship := RequestShipment(Shipment(f, items, number, Cod, totalPrice));
        if shipmentReply.Threw? then Outcome([request, mail, ship], shipmentReply.message)
        else Outcome([request, mail, ship, EmptyCart, GoToOrderSuccess], "")
  }

  // ---------------------------------------------------------------------
  // Submission

  datatype Path = Online | OnDelivery

  /** `onSubmit`, reached only with a valid form: "razorpay" goes online,
      every other value to cash on delivery. */
  function Dispatch(f: FormValues, isEmail: string -> bool): (r: Option<Path>)
    ensures r.None? <==> !ValidForm(f, isEmail)
    ensures r == Some(Online) <==> ValidForm(f, isEmail) && f.paymentMethod == "razorpay"
    ensures r == Some(OnDelivery) <==> ValidForm(f, isEmail) && f.paymentMethod == "cod"
  {
    if !ValidForm(f, isEmail) then None
    else if f.paymentMethod == "razorpay" then Some(Online)
    else Some(OnDelivery)
  }

  /** Neither path adds the cart page's shipping charge: the order amount
      is the cart total. */
  lemma OrderAmountIsCartTotal(f: FormValues, items: Items, keyId: Option<string>, orderReply: Reply<ReplyBody>,
                               widgetOk: bool, mailReply: Reply<()>, shipmentReply: Reply<()>)
    ensures StartOnline(f, items, TotalPrice(items), keyId, orderReply, widgetOk).effects[0].order.amount == TotalPrice(items)
    ensures PayOnDelivery(f, items, TotalPrice(items), orderReply, mailReply, shipmentReply).effects[0].order.amount == TotalPrice(items)
  {
  }

  /** The cash-on-delivery requests go out in the order mail, shipment,
      cart clearing; a failed mail request stops the shipment. */
  lemma CodOrdering(f: FormValues, items: Items, totalPrice: int, orderReply: Reply<ReplyBody>,
                    mailReply: Reply<()>, shipmentReply: Reply<()>)
    ensures var e := PayOnDelivery(f, items, totalPrice, orderReply, mailReply, shipmentReply).effects;
            forall i, j :: 0 <= i < |e| && 0 <= j < |e| && e[i].RequestCodMail? && (e[j].RequestShipment? || e[j] == EmptyCart) ==> i < j
    ensures mailReply.Threw? ==>
      var e := PayOnDelivery(f, items, totalPrice, orderReply, mailReply, shipmentReply).effects;
      forall k :: 0 <= k < |e| ==> !e[k].RequestShipment?
  {
  }
}

=== FILE: flows.dfy ===
/** The checkout page talking to its two payment routes: the JSON each
    route answers with, as the page reads it, and what the page then does.
    The page parses every answer without looking at the status code, so
    every route answer is an object and counts as a success. */
module Flows {
  import opened Js
  import opened Payments
  import opened Cart
  import opened Nimbus
  import opened Checkout
  import OrderRoute
  import PaymentRoute

  /** The create-order route's answer as JSON: `{id, …}` on success,
      `{error}` otherwise. */
  function OrderReplyBody(r: OrderRoute.OrderResponse): (b: ReplyBody)
    ensures b.ObjectBody? && b.message.None?
    ensures b.id.Some? <==> r.OrderCreated?
    ensures r.OrderCreated? ==> b.id == Some(r.id)
    ensures b.error.Some? <==> !r.OrderCreated?
  {
    match r
    case OrderCreated(id, _, _, _, _, _, _) => ObjectBody(Some(id), None, None)
    case OrderBadRequest(e) => ObjectBody(None, None, Some(e))
    case OrderServerError(e) => ObjectBody(None, None, Some(e))
  }

  /** The verify-payment route's answer as JSON: `{success, message}` or
      `{error}`. */
  function VerifyReplyBody(r: PaymentRoute.VerifyResponse): (b: ReplyBody)
    ensures b.ObjectBody? && b.id.None?
    ensures b.error.Some? <==> !r.Verified?
    ensures b.message.Some? <==> r.Verified?
    ensures b.error.Some? ==> b.error.value == PaymentRoute.Message(r)
  {
    if r.Verified? then ObjectBody(None, Some(PaymentRoute.Message(r)), None)
    else ObjectBody(None, None, Some(PaymentRoute.Message(r)))
  }

  /** The fields of the page's order body that the route reads. */
  function RouteRequest(d: OrderData): (q: OrderRoute.OrderRequest)
    ensures q.customerInfo.Some?
    ensures OrderRoute.MissingField(q.customerInfo.value, q.amount) <==>
      d.customerInfo.firstName == "" || d.customerInfo.email == "" || d.customerInfo.phone == "" || d.amount == 0
  {
    var c := d.customerInfo;
    OrderRoute.OrderRequest(Some(d.amount), Some(OrderRoute.CustomerInfo(Some(c.firstName), Some(c.email), Some(c.phone))))
  }

  /** The verify route's reading of the page's verification body: the page
      always sends all four fields. */
  function VerifyRequestOf(d: VerificationData): PaymentRoute.VerifyRequest {
    PaymentRoute.VerifyRequest(Some(d.orderId), Some(d.paymentId), Some(d.signature), Some(d.email))
  }

  /** What the page sends is checked as sent: no field reaches the route
      as `undefined`, so the verdict is `verifyPayment` on the widget's
      own ids and signature, and a verified body completes the record
      under the widget's order id. */
  lemma PageBodySignedAsSent(store: PaymentStore, d: VerificationData, hmac: (string, string) -> string, secret: string)
    ensures PaymentRoute.SignatureValid(hmac, VerifyRequestOf(d), secret) <==>
            VerifyPayment(hmac, d.orderId, d.paymentId, d.signature, secret)
    ensures PaymentRoute.Completion(store, VerifyRequestOf(d)) ==
            UpdatePaymentStatus(store, d.orderId, d.paymentId, Completed).1
  {
  }

  /** Whatever the verify route decides, the page goes on to request the
      shipment. */
  lemma EveryVerdictShips(f: FormValues, items: Items, pay: GatewayPayment, verdict: PaymentRoute.VerifyResponse,
                          shipmentReply: Reply<()>)
    ensures var r := AfterPayment(f, items, pay, Replied(VerifyReplyBody(verdict)), shipmentReply);
            |r.effects| >= 2 && r.effects[1] == RequestShipment(Shipment(f, items, pay.orderId, Prepaid, 0))
    ensures shipmentReply.Replied? ==>
      EmptyCart in AfterPayment(f, items, pay, Replied(VerifyReplyBody(verdict)), shipmentReply).effects
  {
    var r := AfterPayment(f, items, pay, Replied(VerifyReplyBody(verdict)), shipmentReply);
    assert exists k :: 0 <= k < |r.effects| && r.effects[k].RequestShipment?;
  }

  /** A payment whose signature does not check: the route answers 400 and
      leaves the record as it was, yet the page ships the goods as prepaid
      and empties the cart. */
  lemma ForgedSignatureShips(store: PaymentStore, pay: GatewayPayment, hmac: (string, string) -> string,
                             secret: string, dbUp: bool, mailOk: bool, f: FormValues, items: Items,
                             shipmentReply: Reply<()>)
    requires !VerifyPayment(hmac, pay.orderId, pay.paymentId, pay.signature, secret)
    requires shipmentReply.Replied?
    ensures var b := VerifyRequestOf(VerificationData(pay.orderId, pay.paymentId, pay.signature, f.email));
            var v := PaymentRoute.Post(store, Some(b), hmac, Some(secret), dbUp, mailOk);
            var r := AfterPayment(f, items, pay, Replied(VerifyReplyBody(v.response)), shipmentReply);
            PaymentRoute.Status(v.response) == 400 && v.store == store && v.mail.None? &&
            r.effects[0] == RequestVerification(VerificationData(pay.orderId, pay.paymentId, pay.signature, f.email)) &&
            r.effects[1] == RequestShipment(Shipment(f, items, pay.orderId, Prepaid, 0)) &&
            EmptyCart in r.effects && r.error == ""
  {
    var b := VerifyRequestOf(VerificationData(pay.orderId, pay.paymentId, pay.signature, f.email));
    var v := PaymentRoute.Post(store, Some(b), hmac, Some(secret), dbUp, mailOk);
    EveryVerdictShips(f, items, pay, v.response, shipmentReply);
  }

  /** A refused online order shows the page's own text, whatever the
      route's error said, and the widget never opens. */
  lemma RefusedOnlineOrder(f: FormValues, items: Items, totalPrice: int, keyId: Option<string>,
                           answer: OrderRoute.OrderResponse, widgetOk: bool)
    requires !answer.OrderCreated?
    ensures var r := StartOnline(f, items, totalPrice, keyId, Replied(OrderReplyBody(answer)), widgetOk);
            |r.effects| == 1 && r.error == CreateOrderFailed
  {
  }

  /** A cash-on-delivery order goes through the same create-order route:
      if the route refuses it, the page still mails, ships under the
      number "cod-order" and empties the cart. */
  lemma RefusedCodOrderStillShips(store: PaymentStore, f: FormValues, items: Items, totalPrice: int,
                                  gateway: OrderRoute.GatewayOptions -> Option<OrderRoute.GatewayOrder>,
                                  keyId: Option<string>, dbUp: bool, mailReply: Reply<()>, shipmentReply: Reply<()>)
    requires mailReply.Replied? && shipmentReply.Replied?
    requires !OrderRoute.Post(store, Some(RouteRequest(CodOrder(f, items, totalPrice))), gateway, keyId, dbUp).response.OrderCreated?
    ensures var o := OrderRoute.Post(store, Some(RouteRequest(CodOrder(f, items, totalPrice))), gateway, keyId, dbUp);
            var r := PayOnDelivery(f, items, totalPrice, Replied(OrderReplyBody(o.response)), mailReply, shipmentReply);
            o.store == store && r.effects[0] == RequestOrder(CodOrder(f, items, totalPrice)) &&
            r.effects[2] == RequestShipment(Shipment(f, items, "cod-order", Cod, totalPrice)) &&
            EmptyCart in r.effects && r.error == ""
  {
  }

  /** An empty-valued cart is one such order: the amount 0 is a missing
      field to the route, so nothing is stored, but the goods ship. */
  lemma ZeroTotalCodOrder(store: PaymentStore, f: FormValues, items: Items,
                          gateway: OrderRoute.GatewayOptions -> Option<OrderRoute.GatewayOrder>,
                          keyId: Option<string>, dbUp: bool, mailReply: Reply<()>, shipmentReply: Reply<()>)
    requires mailReply.Replied? && shipmentReply.Replied?
    ensures var o := OrderRoute.Post(store, Some(RouteRequest(CodOrder(f, items, 0))), gateway, keyId, dbUp);
            var r := PayOnDelivery(f, items, 0, Replied(OrderReplyBody(o.response)), mailReply, shipmentReply);
            OrderRoute.Status(o.response) == 400 && o.store == store && o.gatewayCalls == [] &&
            r.effects[2] == RequestShipment(Shipment(f, items, "cod-order", Cod, 0)) && EmptyCart in r.effects
  {
    var o := OrderRoute.Post(store, Some(RouteRequest(CodOrder(f, items, 0))), gateway, keyId, dbUp);
    assert OrderRoute.MissingField(RouteRequest(CodOrder(f, items, 0)).customerInfo.value, Some(0));
    RefusedCodOrderStillShips(store, f, items, 0, gateway, keyId, dbUp, mailReply, shipmentReply);
  }

  /** The body the cash-on-delivery path posts. */
  function CodOrder(f: FormValues, items: Items, totalPrice: int): (d: OrderData)
    ensures d.amount == totalPrice && d.currency == "INR" && d.customerInfo == f && d.items == items
    ensures d.paymentMethod == Some("cod") && d.status == Some("pending")
  {
    OrderData(totalPrice, "INR", f, items, Some("cod"), Some("pending"))
  }

  /** An accepted cash-on-delivery order leaves a pending online-payment
      record at the gateway's id, and the shipment carries that id. */
  lemma AcceptedCodOrderIsPendingPayment(store: PaymentStore, f: FormValues, items: Items, totalPrice: int,
                                         gateway: OrderRoute.GatewayOptions -> Option<OrderRoute.GatewayOrder>,
                                         keyId: Option<string>, mailReply: Reply<()>, shipmentReply: Reply<()>)
    requires WellKeyed(store)
    requires mailReply.Replied? && shipmentReply.Replied?
    requires OrderRoute.Post(store, Some(RouteRequest(CodOrder(f, items, totalPrice))), gateway, keyId, true).response.OrderCreated?
    ensures var o := OrderRoute.Post(store, Some(RouteRequest(CodOrder(f, items, totalPrice))), gateway, keyId, true);
            var r := PayOnDelivery(f, items, totalPrice, Replied(OrderReplyBody(o.response)), mailReply, shipmentReply);
            var p := GetPaymentByOrderId(o.store, o.response.id);
            p.Some? && p.value.status == Pending &&
            r.effects[2] == RequestShipment(Shipment(f, items, o.response.id, Cod, totalPrice))
  {
    OrderRoute.CreatedRecordIsPending(store, Some(RouteRequest(CodOrder(f, items, totalPrice))), gateway, keyId, true);
  }
}

=== FILE: inventory.dfy ===
/** The inventory record of the product collection: schema bounds and
    defaults, the derived `soldUnits`, the pre-save units invariant, the
    unique SKU index, and `updateQuantities`. */
module Inventory {
  import opened Js

  /** A stored product. `createdAt` is the creation time stamp, an
      instant chosen by the database. */
  datatype StockProduct = StockProduct(
    name: string,
    description: Option<string>,
    price: int,
    availableUnits: int,
    reservedUnits: int,
    totalUnits: int,
    category: Option<string>,
    sku: Option<string>,
    imageUrl: Option<string>,
    isActive: bool,
    createdAt: int)

  /** The collection, in insertion order. */
  type Store = seq<StockProduct>

  /** A failed schema validator. */
  datatype FieldError =
    | NameRequired
    | NegativePrice
    | NegativeAvailable
    | NegativeReserved
    | NegativeTotal

  /** Why a save is rejected. */
  datatype SaveError =
    | Invalid(errors: seq<FieldError>)
    | UnitsExceedTotal
    | DuplicateSku

  /** The path and message of a failed validator. */
  function FieldMessage(e: FieldError): string {
    match e
    case NameRequired => "name: Product name is required"
    case NegativePrice => "price: Price cannot be negative"
    case NegativeAvailable => "availableUnits: Available units cannot be negative"
    case NegativeReserved => "reservedUnits: Reserved units cannot be negative"
    case NegativeTotal => "totalUnits: Total units cannot be negative"
  }

  function FieldMessages(errs: seq<FieldError>): seq<string> {
    if errs == [] then [] else [FieldMessage(errs[0])] + FieldMessages(errs[1..])
  }

  /** The `message` of the error a rejected save throws. The duplicate-key
      text is a shortened form of the database driver's. */
  function Message(e: SaveError): string {
    match e
    case Invalid(errs) => "Product validation failed: " + Join(FieldMessages(errs), ", ")
    case UnitsExceedTotal => "Available units + Reserved units cannot exceed total units"
    case DuplicateSku => "E11000 duplicate key error collection: products index: sku_1"
  }

  datatype Saved = SavedOk(product: StockProduct) | SaveFailed(error: SaveError)

  /** The `soldUnits` virtual. */
  function SoldUnits(p: StockProduct): int {
    p.totalUnits - p.availableUnits - p.reservedUnits
  }

  function TrimOpt(s: Option<string>): Option<string> {
    if s.Some? then Some(Trim(s.value)) else None
  }

  /** The schema's `trim: true` setters, applied on assignment. */
  function Normalize(p: StockProduct): StockProduct {
    p.(name := Trim(p.name), description := TrimOpt(p.description), category := TrimOpt(p.category),
       sku := TrimOpt(p.sku), imageUrl := TrimOpt(p.imageUrl))
  }

  /** The schema validators, in field order: a required non-empty name and
      the minimum 0 on the price and the three unit counts. */
  function SchemaErrors(p: StockProduct): (r: seq<FieldError>)
    ensures r == [] <==>
      p.name != "" && p.price >= 0 && p.availableUnits >= 0 && p.reservedUnits >= 0 && p.totalUnits >= 0
  {
    (if p.name == "" then [NameRequired] else [])
    + (if p.price < 0 then [NegativePrice] else [])
    + (if p.availableUnits < 0 then [NegativeAvailable] else [])
    + (if p.reservedUnits < 0 then [NegativeReserved] else [])
    + (if p.totalUnits < 0 then [NegativeTotal] else [])
  }

  /** Everything a saved product satisfies. */
  predicate Saveable(p: StockProduct) {
    SchemaErrors(p) == [] && p.availableUnits + p.reservedUnits <= p.totalUnits
  }

  /** The pre-save check on the record alone: schema validation first,
      then the units invariant. */
  function Validate(p: StockProduct): (r: Saved)
    ensures r.SavedOk? <==> Saveable(p)
    ensures r.SavedOk? ==> r.product == p
    ensures SchemaErrors(p) != [] ==> r == SaveFailed(Invalid(SchemaErrors(p)))
    ensures SchemaErrors(p) == [] && p.availableUnits + p.reservedUnits > p.totalUnits ==>
      r == SaveFailed(UnitsExceedTotal)
  {
    var errs := SchemaErrors(p);
    if errs != [] then SaveFailed(Invalid(errs))
    else if p.availableUnits + p.reservedUnits > p.totalUnits then SaveFailed(UnitsExceedTotal)
    else SavedOk(p)
  }

  /** The unique index on `sku`: a missing SKU is indexed as null, so it
      collides with another missing SKU. */
  predicate SkuTaken(store: Store, sku: Option<string>) {
    exists k :: 0 <= k < |store| && store[k].sku == sku
  }

  /** No two stored products share an index key. */
  predicate UniqueSkus(store: Store) {
    forall i, j :: 0 <= i < j < |store| ==> store[i].sku != store[j].sku
  }

  /** The collection invariant: every record saveable, SKUs unique. */
  predicate Valid(store: Store) {
    UniqueSkus(store) && forall k :: 0 <= k < |store| ==> Saveable(store[k])
  }

  /** `save()` of a new document: record checks, then the unique index. */
  function Insert(store: Store, p: StockProduct): (r: (Saved, Store))
    ensures r.0.SavedOk? <==> Saveable(p) && !SkuTaken(store, p.sku)
    ensures r.0.SavedOk? ==> r.0.product == p && r.1 == store + [p]
    ensures r.0.SaveFailed? ==> r.1 == store
  {
    match Validate(p)
    case SaveFailed(e) => (SaveFailed(e), store)
    case SavedOk(_) =>
      if SkuTaken(store, p.sku) then (SaveFailed(DuplicateSku), store)
      else (SavedOk(p), store + [p])
  }

  /** Inserting keeps the collection invariant. */
  lemma InsertKeepsValid(store: Store, p: StockProduct)
    requires Valid(store)
    ensures Valid(Insert(store, p).1)
  {
    var r := Insert(store, p);
    if r.0.SavedOk? {
      var s := r.1;
      forall i, j | 0 <= i < j < |s| ensures s[i].sku != s[j].sku {
        if j == |store| {
          assert s[i] == store[i];
        }
      }
    }
  }

  /** Every saved product has 0 <= soldUnits <= totalUnits. */
  lemma SoldUnitsBounds(p: StockProduct)
    requires Saveable(p)
    ensures 0 <= SoldUnits(p) <= p.totalUnits
  {
  }

  /** The same bound across a valid collection. */
  lemma {:induction false} StoreSoldUnitsBounds(store: Store)
    requires Valid(store)
    ensures forall k :: 0 <= k < |store| ==> 0 <= SoldUnits(store[k]) <= store[k].totalUnits
  {
    forall k | 0 <= k < |store| ensures 0 <= SoldUnits(store[k]) <= store[k].totalUnits {
      SoldUnitsBounds(store[k]);
    }
  }

  /** `updateQuantities`: throws before assigning when available plus
      reserved exceeds total; otherwise sets exactly the three counts and
      saves, which re-runs the schema validators. The record keeps its SKU,
      so the unique index cannot object. */
  function UpdateQuantities(p: StockProduct, available: int, reserved: int, total: int): (r: Saved)
    ensures available + reserved > total ==> r == SaveFailed(UnitsExceedTotal)
    ensures r.SavedOk? <==> Saveable(p.(availableUnits := available, reservedUnits := reserved, totalUnits := total))
    ensures r.SavedOk? ==>
      r.product == p.(availableUnits := available, reservedUnits := reserved, totalUnits := total) &&
      SoldUnits(r.product) == total - available - reserved
  {
    if available + reserved > total then SaveFailed(UnitsExceedTotal)
    else Validate(p.(availableUnits := available, reservedUnits := reserved, totalUnits := total))
  }

  /** A rejected update leaves the stored record as it was; an accepted
      one keeps the collection invariant. */
  lemma UpdateQuantitiesKeepsValid(store: Store, k: int, available: int, reserved: int, total: int)
    requires Valid(store) && 0 <= k < |store|
    ensures var r := UpdateQuantities(store[k], available, reserved, total);
            r.SavedOk? ==> Valid(store[k := r.product])
  {
    var r := UpdateQuantities(store[k], available, reserved, total);
    if r.SavedOk? {
      var s := store[k := r.product];
      assert forall i :: 0 <= i < |s| ==> s[i].sku == store[i].sku;
    }
  }
}

=== FILE: invoice.dfy ===
/** `generateInvoiceHtml`: the order confirmation's HTML, a fixed template
    with the order's values interpolated as they are. A reader for the
    rendered text recovers every value that holds no `<`, which shows the
    template puts each of them in its own place, in order, and loses
    nothing. */
module Invoice {
  import opened Js

  /** One line of the invoice table. */
  datatype LineItem = LineItem(name: string, quantity: int, price: int)

  /** The function's argument object; the last two fields are optional. */
  datatype InvoiceData = InvoiceData(
    orderId: string,
    customerName: string,
    items: seq<LineItem>,
    total: int,
    date: string,
    shippingAddress: Option<string>,
    paymentMethod: Option<string>)

  // ---------------------------------------------------------------------
  // The template, piece by piece, as the literal text between the
  // interpolations.

  const ParagraphStart := "<p>"
  const ParagraphEnd := "</p>"
  const CellEnd := "</td>"
  const Newline := "\n      "
  const Open := "\n    <div style=\"font-family: Arial, sans-serif; border:1px solid #eee; padding:20px;\">\n      <h2>Invoice</h2>\n      <p><strong>Order ID:</strong> "
  const DateLabel := ParagraphEnd + Newline + ParagraphStart + "<strong>Date:</strong> "
  const CustomerLabel := ParagraphEnd + Newline + ParagraphStart + "<strong>Customer:</strong> "
  const CustomerEnd := ParagraphEnd + Newline
  const ShippingLabel := ParagraphStart + "<strong>Shipping Address:</strong> "
  const PaymentLabel := ParagraphStart + "<strong>Payment Method:</strong> "
  const TableHead := Newline + "<table style=\"width:100%; border-collapse: collapse; margin-top: 20px;\">\n        <thead>\n          <tr>\n            <th style=\"border-bottom:1px solid #ccc; text-align:left;\">Item</th>\n            <th style=\"border-bottom:1px solid #ccc; text-align:right;\">Qty</th>\n            <th style=\"border-bottom:1px solid #ccc; text-align:right;\">Price</th>\n          </tr>\n        </thead>\n        <tbody>\n          "
  const RowOpen := "\n            " + "<tr>\n              <td>"
  const QuantityCell := CellEnd + "\n              <td style=\"text-align:right;\">"
  const PriceCell := CellEnd + "\n              <td style=\"text-align:right;\">\U{20B9}"
  const RowClose := CellEnd + "\n            </tr>\n          "
  const TableFoot := "\n        " + "</tbody>" + "\n      </table>\n      <h3 style=\"text-align:right; margin-top:20px;\">Total: \U{20B9}"
  const Close := "</h3>" + "\n    </div>\n  "

  // ---------------------------------------------------------------------
  // Rendering. Each function renders its part followed by `rest`, so the
  // whole page is one right-nested concatenation in template order.

  /** `${v ? `<p>…${v}</p>` : ""}`: the paragraph only for a truthy value. */
  function ParagraphThen(heading: string, v: Option<string>, rest: string): string {
    if TruthyStr(v) then heading + (v.value + (ParagraphEnd + rest)) else rest
  }

  /** One table row: name, quantity and rupee price, in that order. */
  function RowThen(i: LineItem, rest: string): string {
    RowOpen + (i.name + (QuantityCell + (IntToString(i.quantity) + (PriceCell + (IntToString(i.price) + (RowClose + rest))))))
  }

  /** `items.map(row).join("")`. */
  function RowsThen(items: seq<LineItem>, rest: string): string
    decreases |items|
  {
    if items == [] then rest else RowThen(items[0], RowsThen(items[1..], rest))
  }

  function Render(d: InvoiceData): (html: string)
    ensures StartsWith(html, Open)
  {
    Open + (d.orderId + (DateLabel + (d.date + (CustomerLabel + (d.customerName + (CustomerEnd +
      ParagraphThen(ShippingLabel, d.shippingAddress, Newline +
        ParagraphThen(PaymentLabel, d.paymentMethod, TableHead +
          RowsThen(d.items, TableFoot + (IntToString(d.total) + Close))))))))))
  }

  // ---------------------------------------------------------------------
  // Reading the page back.

  /** What a reader of the page sees: the texts in each slot. */
  datatype RowView = RowView(name: string, quantity: string, price: string)

  datatype InvoiceView = InvoiceView(
    orderId: string,
    date: string,
    customerName: string,
    shippingAddress: Option<string>,
    paymentMethod: Option<string>,
    rows: seq<RowView>,
    total: string)

  /** Consumes the literal `lit` at the front of `t`. */
  function Expect(t: string, lit: string): (r: Option<string>)
    ensures r.Some? <==> StartsWith(t, lit)
    ensures r.Some? ==> t == lit + r.value
  {
    if StartsWith(t, lit) then Some(t[|lit|..]) else None
  }

  /** Splits `t` before its first `<`. */
  function TakeText(t: string): (r: (string, string))
    ensures t == r.0 + r.1
    ensures '<' !in r.0
    ensures r.1 == [] || r.1[0] == '<'
    decreases |t|
  {
    if t == [] || t[0] == '<' then ([], t)
    else
      var (a, b) := TakeText(t[1..]);
      ([t[0]] + a, b)
  }

  /** A value and the markup `next` that closes it. */
  function Field(t: string, next: string): (r: Option<(string, string)>)
    ensures r.Some? ==> t == r.value.0 + (next + r.value.1) && '<' !in r.value.0
  {
    var (v, rest) := TakeText(t);
    match Expect(rest, next)
    case None => None
    case Some(r) => Some((v, r))
  }

  /** An optional paragraph: present exactly when the text starts with
      its heading. */
  function ReadParagraph(heading: string, t: string): Option<(Option<string>, string)> {
    if StartsWith(t, heading) then
      match Field(t[|heading|..], ParagraphEnd)
      case None => None
      case Some((v, r)) => Some((Some(v), r))
    else Some((None, t))
  }

  function ReadRow(t: string): (r: Option<(RowView, string)>)
    ensures r.Some? ==> |r.value.1| < |t|
  {
    match Expect(t, RowOpen)
    case None => None
    case Some(t1) =>
      match Field(t1, QuantityCell)
      case None => None
      case Some((name, t2)) =>
        match Field(t2, PriceCell)
        case None => None
        case Some((quantity, t3)) =>
          match Field(t3, RowClose)
          case None => None
          case Some((price, t4)) => Some((RowView(name, quantity, price), t4))
  }

  /** Rows for as long as a row starts. */
  function ReadRows(t: string): Option<(seq<RowView>, string)>
    decreases |t|
  {
    if StartsWith(t, RowOpen) then
      match ReadRow(t)
      case None => None
      case Some((row, t1)) =>
        match ReadRows(t1)
        case None => None
        case Some((rows, t2)) => Some(([row] + rows, t2))
    else Some(([], t))
  }

  /** The table foot and the total, which must end the page. */
  function ReadTotal(t: string): Option<string> {
    match Expect(t, TableFoot)
    case None => None
    case Some(t1) =>
      match Field(t1, Close)
      case None => None
      case Some((total, t2)) => if t2 == [] then Some(total) else None
  }

  /** Rows, then the foot with the total. */
  function ReadTable(t: string): Option<(seq<RowView>, string)> {
    match ReadRows(t)
    case None => None
    case Some((rows, t1)) =>
      match ReadTotal(t1)
      case None => None
      case Some(total) => Some((rows, total))
  }

  /** The payment paragraph and the table. */
  function ReadFromPayment(t: string): Option<(Option<string>, seq<RowView>, string)> {
    match ReadParagraph(PaymentLabel, t)
    case None => None
    case Some((payment, t1)) =>
      match Expect(t1, TableHead)
      case None => None
      case Some(t2) =>
        match ReadTable(t2)
        case None => None
        case Some((rows, total)) => Some((payment, rows, total))
  }

  /** Everything after the customer line. */
  function ReadBody(t: string): Option<(Option<string>, Option<string>, seq<RowView>, string)> {
    match ReadParagraph(ShippingLabel, t)
    case None => None
    case Some((shipping, t1)) =>
      match Expect(t1, Newline)
      case None => None
      case Some(t2) =>
        match ReadFromPayment(t2)
        case None => None
        case Some((payment, rows, total)) => Some((shipping, payment, rows, total))
  }

  function ReadInvoice(html: string): Option<InvoiceView> {
    match Expect(html, Open)
    case None => None
    case Some(t1) =>
      match Field(t1, DateLabel)
      case None => None
      case Some((orderId, t2)) =>
        match Field(t2, CustomerLabel)
        case None => None
        case Some((date, t3)) =>
          match Field(t3, CustomerEnd)
          case None => None
          case Some((customer, t4)) =>
            match ReadBody(t4)
            case None => None
            case Some((shipping, payment, rows, total)) =>
              Some(InvoiceView(orderId, date, customer, shipping, payment, rows, total))
  }

  // ---------------------------------------------------------------------
  // What the reader recovers.

  /** The optional paragraph a value produces. */
  function Shown(v: Option<string>): (r: Option<string>)
    ensures r.Some? <==> TruthyStr(v)
  {
    if TruthyStr(v) then Some(v.value) else None
  }

  function RowViews(items: seq<LineItem>): (r: seq<RowView>)
    ensures |r| == |items|
    ensures forall k :: 0 <= k < |items| ==>
      r[k] == RowView(items[k].name, IntToString(items[k].quantity), IntToString(items[k].price))
    decreases |items|
  {
    if items == [] then []
    else [RowView(items[0].name, IntToString(items[0].quantity), IntToString(items[0].price))] + RowViews(items[1..])
  }

  function ViewOf(d: InvoiceData): InvoiceView {
    InvoiceView(d.orderId, d.date, d.customerName, Shown(d.shippingAddress), Shown(d.paymentMethod),
                RowViews(d.items), IntToString(d.total))
  }

  /** No interpolated text holds markup. */
  predicate Plain(d: InvoiceData) {
    && '<' !in d.orderId && '<' !in d.date && '<' !in d.customerName
    && (d.shippingAddress.Some? ==> '<' !in d.shippingAddress.value)
    && (d.paymentMethod.Some? ==> '<' !in d.paymentMethod.value)
    && forall k :: 0 <= k < |d.items| ==> '<' !in d.items[k].name
  }

  lemma NumberIsPlain(i: int)
    ensures '<' !in IntToString(i)
  {
    IntToStringChars(i);
  }

  lemma {:induction false} TakeTextStopsAtMarkup(x: string, w: string)
    requires '<' !in x && w != [] && w[0] == '<'
    ensures TakeText(x + w) == (x, w)
    decreases |x|
  {
    if x == [] {
      assert x + w == w;
    } else {
      assert (x + w)[1..] == x[1..] + w;
      TakeTextStopsAtMarkup(x[1..], w);
      assert [x[0]] + x[1..] == x;
    }
  }

  lemma ExpectLiteral(lit: string, w: string)
    ensures Expect(lit + w, lit) == Some(w)
  {
    assert (lit + w)[..|lit|] == lit;
    assert (lit + w)[|lit|..] == w;
  }

  lemma FieldReads(x: string, next: string, w: string)
    requires '<' !in x && next != [] && next[0] == '<'
    ensures Field(x + (next + w), next) == Some((x, w))
  {
    TakeTextStopsAtMarkup(x, next + w);
    ExpectLiteral(next, w);
  }

  lemma ParagraphReads(heading: string, v: Option<string>, w: string)
    requires v.Some? ==> '<' !in v.value
    requires heading != [] && w != [] && w[0] != heading[0]
    ensures ReadParagraph(heading, ParagraphThen(heading, v, w)) == Some((Shown(v), w))
  {
    if TruthyStr(v) {
      var t := ParagraphThen(heading, v, w);
      assert t[|heading|..] == v.value + (ParagraphEnd + w);
      FieldReads(v.value, ParagraphEnd, w);
    } else {
      assert !StartsWith(w, heading) by { assert w[0] != heading[0]; }
    }
  }

  lemma RowReads(i: LineItem, w: string)
    requires '<' !in i.name
    ensures ReadRow(RowThen(i, w)) ==
      Some((RowView(i.name, IntToString(i.quantity), IntToString(i.price)), w))
  {
    var q := IntToString(i.quantity);
    var p := IntToString(i.price);
    NumberIsPlain(i.quantity);
    NumberIsPlain(i.price);
    ExpectLiteral(RowOpen, i.name + (QuantityCell + (q + (PriceCell + (p + (RowClose + w))))));
    assert QuantityCell[0] == '<';
    assert PriceCell[0] == '<';
    assert RowClose[0] == '<';
    FieldReads(i.name, QuantityCell, q + (PriceCell + (p + (RowClose + w))));
    FieldReads(q, PriceCell, p + (RowClose + w));
    FieldReads(p, RowClose, w);
  }

  /** Every row is read back, one per item and in order, and the reader
      stops where the rows end. */
  lemma {:induction false} RowsRead(items: seq<LineItem>, w: string)
    requires forall k :: 0 <= k < |items| ==> '<' !in items[k].name
    requires !StartsWith(w, RowOpen)
    ensures ReadRows(RowsThen(items, w)) == Some((RowViews(items), w))
    decreases |items|
  {
    if items != [] {
      var rest := RowsThen(items[1..], w);
      RowReads(items[0], rest);
      RowsRead(items[1..], w);
      assert StartsWith(RowThen(items[0], rest), RowOpen);
    }
  }

  lemma TotalReads(total: int)
    ensures ReadTotal(TableFoot + (IntToString(total) + Close)) == Some(IntToString(total))
  {
    NumberIsPlain(total);
    ExpectLiteral(TableFoot, IntToString(total) + Close);
    FieldReads(IntToString(total), Close, []);
    assert Close + [] == Close;
  }

  lemma TableReads(items: seq<LineItem>, total: int)
    requires forall k :: 0 <= k < |items| ==> '<' !in items[k].name
    ensures ReadTable(RowsThen(items, TableFoot + (IntToString(total) + Close)))
            == Some((RowViews(items), IntToString(total)))
  {
    var foot := TableFoot + (IntToString(total) + Close);
    FootIsNotRow(IntToString(total) + Close);
    RowsRead(items, foot);
    TotalReads(total);
  }

  lemma FootIsNotRow(x: string)
    ensures !StartsWith(TableFoot + x, RowOpen)
  {
    assert (TableFoot + x)[9] != RowOpen[9];
  }

  lemma FromPaymentReads(d: InvoiceData)
    requires Plain(d)
    ensures ReadFromPayment(ParagraphThen(PaymentLabel, d.paymentMethod, TableHead +
              RowsThen(d.items, TableFoot + (IntToString(d.total) + Close))))
            == Some((Shown(d.paymentMethod), RowViews(d.items), IntToString(d.total)))
  {
    var table := RowsThen(d.items, TableFoot + (IntToString(d.total) + Close));
    assert (TableHead + table)[0] == TableHead[0];
    ParagraphReads(PaymentLabel, d.paymentMethod, TableHead + table);
    ExpectLiteral(TableHead, table);
    TableReads(d.items, d.total);
  }

  lemma BodyReads(d: InvoiceData)
    requires Plain(d)
    ensures ReadBody(ParagraphThen(ShippingLabel, d.shippingAddress, Newline +
              ParagraphThen(PaymentLabel, d.paymentMethod, TableHead +
                RowsThen(d.items, TableFoot + (IntToString(d.total) + Close)))))
            == Some((Shown(d.shippingAddress), Shown(d.paymentMethod), RowViews(d.items), IntToString(d.total)))
  {
    var fromPayment := ParagraphThen(PaymentLabel, d.paymentMethod, TableHead +
                         RowsThen(d.items, TableFoot + (IntToString(d.total) + Close)));
    assert (Newline + fromPayment)[0] == '\n';
    ParagraphReads(ShippingLabel, d.shippingAddress, Newline + fromPayment);
    ExpectLiteral(Newline, fromPayment);
    FromPaymentReads(d);
  }

  /** The page, read back, gives the order id, date and customer in that
      order, each optional paragraph exactly when its value is non-empty,
      one row per item in input order, and the supplied total. */
  lemma RenderReadsBack(d: InvoiceData)
    requires Plain(d)
    ensures ReadInvoice(Render(d)) == Some(ViewOf(d))
  {
    var body := ParagraphThen(ShippingLabel, d.shippingAddress, Newline +
                  ParagraphThen(PaymentLabel, d.paymentMethod, TableHead +
                    RowsThen(d.items, TableFoot + (IntToString(d.total) + Close))));
    ExpectLiteral(Open, d.orderId + (DateLabel + (d.date + (CustomerLabel + (d.customerName + (CustomerEnd + body))))));
    FieldReads(d.orderId, DateLabel, d.date + (CustomerLabel + (d.customerName + (CustomerEnd + body))));
    FieldReads(d.date, CustomerLabel, d.customerName + (CustomerEnd + body));
    FieldReads(d.customerName, CustomerEnd, body);
    BodyReads(d);
  }

  lemma {:induction false} RowViewsInjective(a: seq<LineItem>, b: seq<LineItem>)
    requires RowViews(a) == RowViews(b)
    ensures a == b
    decreases |a|
  {
    if a != [] {
      assert RowViews(a)[0] == RowViews(b)[0];
      IntToStringInjective(a[0].quantity, b[0].quantity);
      IntToStringInjective(a[0].price, b[0].price);
      assert RowViews(a[1..]) == RowViews(a)[1..];
      assert RowViews(b[1..]) == RowViews(b)[1..];
      RowViewsInjective(a[1..], b[1..]);
      assert a == [a[0]] + a[1..];
      assert b == [b[0]] + b[1..];
    }
  }

  /** Rendering is deterministic and, for markup-free values, loses
      nothing: equal pages come from equal orders, items and totals. */
  lemma RenderInjective(d1: InvoiceData, d2: InvoiceData)
    requires Plain(d1) && Plain(d2) && Render(d1) == Render(d2)
    ensures d1.orderId == d2.orderId && d1.date == d2.date && d1.customerName == d2.customerName
    ensures Shown(d1.shippingAddress) == Shown(d2.shippingAddress)
    ensures Shown(d1.paymentMethod) == Shown(d2.paymentMethod)
    ensures d1.items == d2.items && d1.total == d2.total
  {
    RenderReadsBack(d1);
    RenderReadsBack(d2);
    RowViewsInjective(d1.items, d2.items);
    IntToStringInjective(d1.total, d2.total);
  }

  /** The total line shows the value passed in, whatever the items add up
      to. */
  lemma TotalIsNotRecomputed(d: InvoiceData, items: seq<LineItem>)
    requires Plain(d) && forall k :: 0 <= k < |items| ==> '<' !in items[k].name
    ensures ReadInvoice(Render(d.(items := items))).Some?
    ensures ReadInvoice(Render(d.(items := items))).value.total == IntToString(d.total)
  {
    RenderReadsBack(d.(items := items));
  }

  /** Values go in unescaped: the raw order id and customer name, markup
      and all, occur in the page. */
  lemma ValuesAreNotEscaped(d: InvoiceData)
    ensures Contains(Render(d), d.orderId)
    ensures Contains(Render(d), d.customerName)
  {
    var afterName := CustomerEnd +
      ParagraphThen(ShippingLabel, d.shippingAddress, Newline +
        ParagraphThen(PaymentLabel, d.paymentMethod, TableHead +
          RowsThen(d.items, TableFoot + (IntToString(d.total) + Close))));
    var fromName := d.customerName + afterName;
    var afterId := DateLabel + (d.date + (CustomerLabel + fromName));
    ContainsAtStart(d.orderId, afterId);
    ContainsPrepend(Open, d.orderId + afterId, d.orderId);
    ContainsAtStart(d.customerName, afterName);
    ContainsPrepend(CustomerLabel, fromName, d.customerName);
    ContainsPrepend(d.date, CustomerLabel + fromName, d.customerName);
    ContainsPrepend(DateLabel, d.date + (CustomerLabel + fromName), d.customerName);
    ContainsPrepend(d.orderId, afterId, d.customerName);
    ContainsPrepend(Open, d.orderId + afterId, d.customerName);
  }
}

=== FILE: js.dfy ===
/** JavaScript value semantics that the storefront's handlers rely on:
    optional JSON fields, truthiness, the string methods they call
    (`toLowerCase`, `includes`, `trim`, `startsWith`, `join`), number
    formatting, and `Array.prototype.filter`. */
module Js {

  /** A JSON field that may be absent (`undefined`). */
  datatype Option<+T> = None | Some(value: T)

  /** The outcome of an awaited call that may throw: either it resolves
      with a value or it rejects with an error message. */
  datatype Reply<+T> = Replied(body: T) | Threw(message: string)

  /** `!!s` for a string-valued field: present and non-empty. */
  predicate TruthyStr(o: Option<string>) {
    o.Some? && o.value != ""
  }

  /** `!!n` for a number-valued field: present and non-zero. */
  predicate TruthyNum(o: Option<int>) {
    o.Some? && o.value != 0
  }

  /** `a || b` for an optional string `a` and a string fallback `b`. */
  function OrStr(a: Option<string>, b: string): string {
    if TruthyStr(a) then a.value else b
  }

  /** `a || 0` for an optional number. */
  function OrZero(a: Option<int>): (r: int)
    ensures TruthyNum(a) ==> r == a.value
    ensures !TruthyNum(a) ==> r == 0
  {
    if TruthyNum(a) then a.value else 0
  }

  /** How `${x}` renders a possibly undefined string. */
  function Interp(a: Option<string>): string {
    if a.Some? then a.value else "undefined"
  }

  // ---------------------------------------------------------------------
  // Strings

  predicate StartsWith<T(==)>(s: seq<T>, prefix: seq<T>) {
    |prefix| <= |s| && s[..|prefix|] == prefix
  }

  /** `s.includes(sub)`: `sub` occurs at some position of `s`. */
  predicate Contains<T(==)>(s: seq<T>, sub: seq<T>)
    decreases |s|
  {
    StartsWith(s, sub) || (|s| > 0 && Contains(s[1..], sub))
  }

  lemma ContainsEmpty<T>(s: seq<T>)
    ensures Contains(s, [])
  {
    assert StartsWith(s, []);
  }

  /** A sequence occurs in any concatenation that has it as a middle part. */
  lemma {:induction false} ContainsMiddle<T>(a: seq<T>, b: seq<T>, c: seq<T>)
    ensures Contains(a + b + c, b)
    decreases |a|
  {
    if a == [] {
      assert a + b + c == b + c;
      assert (b + c)[..|b|] == b;
    } else {
      ContainsMiddle(a[1..], b, c);
      assert (a + b + c)[1..] == a[1..] + b + c;
    }
  }

  /** JavaScript's `toLowerCase` on the ASCII range. */
  function LowerChar(c: char): char {
    if 'A' <= c <= 'Z' then (c as int + 32) as char else c
  }

  function ToLower(s: string): (r: string)
    ensures |r| == |s|
    ensures forall i :: 0 <= i < |s| ==> r[i] == LowerChar(s[i])
  {
    if s == [] then [] else [LowerChar(s[0])] + ToLower(s[1..])
  }

  lemma LowerIdempotent(s: string)
    ensures ToLower(ToLower(s)) == ToLower(s)
  {
    assert forall i :: 0 <= i < |s| ==> LowerChar(LowerChar(s[i])) == LowerChar(s[i]);
  }

  /** The characters `String.prototype.trim` removes: ECMAScript's
      WhiteSpace and LineTerminator productions. */
  predicate IsSpace(c: char) {
    || c == ' ' || c == '\t' || c == '\n' || c == '\r'
    || c == '\U{000B}' || c == '\U{000C}' || c == '\U{00A0}' || c == '\U{1680}'
    || ('\U{2000}' <= c <= '\U{200A}')
    || c == '\U{2028}' || c == '\U{2029}' || c == '\U{202F}' || c == '\U{205F}'
    || c == '\U{3000}' || c == '\U{FEFF}'
  }

  function TrimStart(s: string): (r: string)
    ensures |r| <= |s| && r == s[|s| - |r|..]
    ensures r == [] || !IsSpace(r[0])
    ensures forall i :: 0 <= i < |s| - |r| ==> IsSpace(s[i])
  {
    if s != [] && IsSpace(s[0]) then TrimStart(s[1..]) else s
  }

  function TrimEnd(s: string): (r: string)
    ensures |r| <= |s| && r == s[..|r|]
    ensures r == [] || !IsSpace(r[|r| - 1])
    ensures forall i :: |r| <= i < |s| ==> IsSpace(s[i])
  {
    if s != [] && IsSpace(s[|s| - 1]) then TrimEnd(s[..|s| - 1]) else s
  }

  /** `s.trim()`: the longest infix without white space at either end. */
  function Trim(s: string): (r: string)
    ensures |r| <= |s|
    ensures r == [] || (!IsSpace(r[0]) && !IsSpace(r[|r| - 1]))
    ensures (s == [] || (!IsSpace(s[0]) && !IsSpace(s[|s| - 1]))) ==> r == s
  {
    var t := TrimStart(s);
    var r := TrimEnd(t);
    StripShape(s, t, r, IsSpace);
    r
  }

  /** `trim` removes white space and nothing else: the result is the infix
      left after a white-space prefix and a white-space suffix, and it is
      empty only for text that is all white space. */
  lemma TrimIsInfixOfSpace(s: string)
    ensures exists i :: StripsSpaceAt(s, Trim(s), i)
    ensures Trim(s) == [] ==> forall k :: 0 <= k < |s| ==> IsSpace(s[k])
  {
    var t := TrimStart(s);
    StripShape(s, t, Trim(s), IsSpace);
    assert StripsSpaceAt(s, Trim(s), |s| - |t|);
  }

  /** Dropping a `p`-prefix from `s` to get `t`, and then a `p`-suffix from
      `t` to get `r`, leaves an infix of `s` with only `p`-characters
      around it; when both dropped parts end at a non-`p` character, `r`
      has none at either end, and when `s` has none there, nothing was
      dropped. */
  lemma StripShape(s: string, t: string, r: string, p: char -> bool)
    requires |t| <= |s| && t == s[|s| - |t|..] && (t == [] || !p(t[0]))
    requires |r| <= |t| && r == t[..|r|] && (r == [] || !p(r[|r| - 1]))
    requires forall k :: 0 <= k < |s| - |t| ==> p(s[k])
    requires forall k :: |r| <= k < |t| ==> p(t[k])
    ensures r == s[|s| - |t|..|s| - |t| + |r|]
    ensures forall k :: |s| - |t| + |r| <= k < |s| ==> p(s[k])
    ensures r == [] ==> forall k :: 0 <= k < |s| ==> p(s[k])
    ensures r == [] || (!p(r[0]) && !p(r[|r| - 1]))
    ensures (s == [] || (!p(s[0]) && !p(s[|s| - 1]))) ==> r == s
  {
    var i := |s| - |t|;
    if r != [] {
      assert r[0] == t[0];
    }
    forall k | i + |r| <= k < |s|
      ensures p(s[k])
    {
      assert s[k] == t[k - i];
    }
    if s != [] && !p(s[0]) && !p(s[|s| - 1]) {
      assert i == 0;
      assert t == s;
      assert |r| == |t|;
    }
  }

  /** `r` is the infix of `s` at `i`, and everything around it is white
      space. */
  predicate StripsSpaceAt(s: string, r: string, i: int) {
    && 0 <= i <= |s| - |r| && r == s[i..i + |r|]
    && (forall k :: 0 <= k < i ==> IsSpace(s[k]))
    && (forall k :: i + |r| <= k < |s| ==> IsSpace(s[k]))
  }

  /** `parts.join(sep)`. */
  function Join(parts: seq<string>, sep: string): string {
    if |parts| == 0 then ""
    else if |parts| == 1 then parts[0]
    else parts[0] + sep + Join(parts[1..], sep)
  }

  lemma ContainsAtStart<T>(s: seq<T>, w: seq<T>)
    ensures Contains(s + w, s)
  {
    assert (s + w)[..|s|] == s;
  }

  /** Text found in `s` is still found after something is put before it. */
  lemma {:induction false} ContainsPrepend<T>(a: seq<T>, s: seq<T>, sub: seq<T>)
    requires Contains(s, sub)
    ensures Contains(a + s, sub)
    decreases |a|
  {
    if a == [] {
      assert a + s == s;
    } else {
      ContainsPrepend(a[1..], s, sub);
      assert (a + s)[1..] == a[1..] + s;
    }
  }

  /** Every part occurs in the joined text. */
  lemma {:induction false} JoinContainsParts(parts: seq<string>, sep: string)
    ensures forall k :: 0 <= k < |parts| ==> Contains(Join(parts, sep), parts[k])
    decreases |parts|
  {
    if |parts| == 1 {
      ContainsMiddle([], parts[0], []);
      assert [] + parts[0] + [] == parts[0];
    } else if |parts| > 1 {
      var rest := Join(parts[1..], sep);
      JoinContainsParts(parts[1..], sep);
      ContainsMiddle([], parts[0], sep + rest);
      assert [] + parts[0] + (sep + rest) == Join(parts, sep);
      forall k | 1 <= k < |parts| ensures Contains(Join(parts, sep), parts[k]) {
        assert parts[1..][k - 1] == parts[k];
        ContainsPrepend(parts[0] + sep, rest, parts[k]);
        assert (parts[0] + sep) + rest == Join(parts, sep);
      }
    }
  }

  // ---------------------------------------------------------------------
  // Numbers rendered as text (`${n}`, `String(n)` for integral values)

  predicate IsDigit(c: char) {
    '0' <= c <= '9'
  }

  function DigitChar(d: int): (c: char)
    requires 0 <= d < 10
    ensures IsDigit(c)
  {
    ('0' as int + d) as char
  }

  /** Decimal text of a natural number, most significant digit first. */
  function NatToString(n: nat): (r: string)
    ensures |r| >= 1
    ensures forall i :: 0 <= i < |r| ==> IsDigit(r[i])
    decreases n
  {
    if n < 10 then [DigitChar(n)] else NatToString(n / 10) + [DigitChar(n % 10)]
  }

  /** JavaScript's rendering of an integral number. */
  function IntToString(i: int): string {
    if i < 0 then "-" + NatToString(-i) else NatToString(i)
  }

  /** The value of a string of decimal digits. */
  function DigitsValue(s: string): nat
    requires forall i :: 0 <= i < |s| ==> IsDigit(s[i])
  {
    if s == [] then 0
    else
      assert IsDigit(s[|s| - 1]);
      DigitsValue(s[..|s| - 1]) * 10 + (s[|s| - 1] as int - '0' as int)
  }

  /** Reading back the decimal text gives the number: the rendering loses
      nothing, so distinct numbers render differently. */
  lemma {:induction false} NatToStringRoundTrip(n: nat)
    ensures DigitsValue(NatToString(n)) == n
    decreases n
  {
    if n >= 10 {
      var s := NatToString(n);
      NatToStringRoundTrip(n / 10);
      assert s[..|s| - 1] == NatToString(n / 10);
    }
  }

  /** Every character of a rendered integer is a digit or the sign. */
  lemma IntToStringChars(i: int)
    ensures forall k :: 0 <= k < |IntToString(i)| ==> IsDigit(IntToString(i)[k]) || IntToString(i)[k] == '-'
  {
  }

  /** A rendering starts with the sign exactly when the number is negative. */
  lemma SignOfRendering(i: int)
    ensures |IntToString(i)| >= 1
    ensures IntToString(i)[0] == '-' <==> i < 0
  {
    assert IsDigit(NatToString(if i < 0 then -i else i)[0]);
  }

  /** Distinct integers render differently. */
  lemma {:induction false} IntToStringInjective(a: int, b: int)
    requires IntToString(a) == IntToString(b)
    ensures a == b
  {
    if a < 0 && b < 0 {
      assert NatToString(-a) == IntToString(a)[1..];
      assert NatToString(-b) == IntToString(b)[1..];
      NatToStringRoundTrip(-a);
      NatToStringRoundTrip(-b);
    } else if a >= 0 && b >= 0 {
      NatToStringRoundTrip(a);
      NatToStringRoundTrip(b);
    } else {
      SignOfRendering(a);
      SignOfRendering(b);
      assert false;
    }
  }

  // ---------------------------------------------------------------------
  // Arrays

  /** Equal sequences with a common prefix agree after it. */
  lemma PrefixCancel<T>(p: seq<T>, x: seq<T>, y: seq<T>)
    requires p + x == p + y
    ensures x == y
  {
    assert x == (p + x)[|p|..];
    assert y == (p + y)[|p|..];
  }

  /** `a` can be obtained from `b` by deleting elements: order is kept. */
  predicate IsSubsequence<T(==)>(a: seq<T>, b: seq<T>)
    decreases |b|
  {
    |a| == 0 ||
    (|b| > 0 &&
     ((a[0] == b[0] && IsSubsequence(a[1..], b[1..])) || IsSubsequence(a, b[1..])))
  }

  /** `s.filter(keep)`. */
  function Filter<T(==,!new)>(s: seq<T>, keep: T -> bool): (r: seq<T>)
    ensures |r| <= |s|
    ensures forall x :: x in r <==> x in s && keep(x)
    ensures IsSubsequence(r, s)
    ensures (forall k :: 0 <= k < |s| ==> keep(s[k])) ==> r == s
    ensures forall x :: multiset(r)[x] == if keep(x) then multiset(s)[x] else 0
  {
    if s == [] then []
    else
      assert s == [s[0]] + s[1..];
      if keep(s[0]) then [s[0]] + Filter(s[1..], keep)
      else Filter(s[1..], keep)
  }
}

=== FILE: json_text.dfy ===
/** `JSON.stringify` of a string, as section 25.5.2.3 (QuoteJSONString) of
    ECMA-262 writes it, and a reader for the quoted form that shows the
    writing loses nothing. Characters here are Unicode scalar values, so
    the lone-surrogate escape cannot arise. */
module JsonText {
  import opened Js

  /** Lower-case hexadecimal digit, as the `\u` escapes use. */
  function HexDigit(d: int): (c: char)
    requires 0 <= d < 16
  {
    if d < 10 then ('0' as int + d) as char else ('a' as int + d - 10) as char
  }

  predicate IsHexDigit(c: char) {
    '0' <= c <= '9' || 'a' <= c <= 'f' || 'A' <= c <= 'F'
  }

  function HexValue(c: char): (v: int)
    requires IsHexDigit(c)
    ensures 0 <= v < 16
  {
    if '0' <= c <= '9' then c as int - '0' as int
    else if 'a' <= c <= 'f' then c as int - 'a' as int + 10
    else c as int - 'A' as int + 10
  }

  lemma HexRoundTrip(d: int)
    requires 0 <= d < 16
    ensures IsHexDigit(HexDigit(d)) && HexValue(HexDigit(d)) == d
  {
  }

  /** The escape a single character gets: the short forms for quote,
      backslash, backspace, form feed, line feed, carriage return and tab;
      `\u00xx` for the other control characters; otherwise itself. */
  function EscapeChar(c: char): (r: string)
    ensures |r| >= 1
  {
    if c == '"' then "\\\""
    else if c == '\\' then "\\\\"
    else if c == 8 as char then "\\b"
    else if c == 12 as char then "\\f"
    else if c == '\n' then "\\n"
    else if c == '\r' then "\\r"
    else if c == '\t' then "\\t"
    else if c < ' ' then "\\u00" + [HexDigit(c as int / 16), HexDigit(c as int % 16)]
    else [c]
  }

  function EscapeAll(s: string): (r: string)
    ensures |r| >= |s|
  {
    if s == [] then [] else EscapeChar(s[0]) + EscapeAll(s[1..])
  }

  /** `JSON.stringify(s)` for a string `s`. */
  function Quote(s: string): (r: string)
    ensures |r| >= |s| + 2 && r[0] == '"' && r[|r| - 1] == '"'
  {
    "\"" + EscapeAll(s) + "\""
  }

  /** The four hex digits of a `\u` escape. */
  function Hex4(h: string): int
    requires |h| == 4 && forall i :: 0 <= i < 4 ==> IsHexDigit(h[i])
  {
    HexValue(h[0]) * 4096 + HexValue(h[1]) * 256 + HexValue(h[2]) * 16 + HexValue(h[3])
  }

  /** Prepends a decoded character to a successful read. */
  function Cons(c: char, r: Option<(string, string)>): Option<(string, string)> {
    match r
    case None => None
    case Some((s, rest)) => Some(([c] + s, rest))
  }

  /** Reads the body of a JSON string literal whose opening quote has been
      consumed: the decoded text and what follows the closing quote, or
      None when the text is not a well-formed literal. */
  function ReadQuoted(t: string): (r: Option<(string, string)>)
    decreases |t|
  {
    if t == [] then None
    else if t[0] == '"' then Some(([], t[1..]))
    else if t[0] == '\\' then
      if |t| < 2 then None
      else if t[1] == '"' then Cons('"', ReadQuoted(t[2..]))
      else if t[1] == '\\' then Cons('\\', ReadQuoted(t[2..]))
      else if t[1] == '/' then Cons('/', ReadQuoted(t[2..]))
      else if t[1] == 'b' then Cons(8 as char, ReadQuoted(t[2..]))
      else if t[1] == 'f' then Cons(12 as char, ReadQuoted(t[2..]))
      else if t[1] == 'n' then Cons('\n', ReadQuoted(t[2..]))
      else if t[1] == 'r' then Cons('\r', ReadQuoted(t[2..]))
      else if t[1] == 't' then Cons('\t', ReadQuoted(t[2..]))
      else if t[1] == 'u' && |t| >= 6 && (forall i :: 2 <= i < 6 ==> IsHexDigit(t[i])) then
        var v := Hex4(t[2..6]);
        if 0xD800 <= v < 0xE000 then None else Cons(v as char, ReadQuoted(t[6..]))
      else None
    else if t[0] < ' ' then None
    else Cons(t[0], ReadQuoted(t[1..]))
  }

  /** Reading one escaped character yields that character. */
  lemma ReadEscapeChar(c: char, u: string)
    ensures ReadQuoted(EscapeChar(c) + u) == Cons(c, ReadQuoted(u))
  {
    var t := EscapeChar(c) + u;
    if c == '"' || c == '\\' || c == 8 as char || c == 12 as char || c == '\n' || c == '\r' || c == '\t' {
      assert t[2..] == u;
    } else if c < ' ' {
      var hi := c as int / 16;
      var lo := c as int % 16;
      HexRoundTrip(hi);
      HexRoundTrip(lo);
      assert t[2..6] == ['0', '0', HexDigit(hi), HexDigit(lo)];
      assert Hex4(t[2..6]) == c as int;
      assert t[6..] == u;
    } else {
      assert t[1..] == u;
    }
  }

  /** The reader undoes the escaping and stops at the closing quote, so
      whatever follows is handed back untouched. */
  lemma {:induction false} ReadQuotedRoundTrip(s: string, rest: string)
    ensures ReadQuoted(EscapeAll(s) + "\"" + rest) == Some((s, rest))
    decreases |s|
  {
    if s == [] {
      assert EscapeAll(s) + "\"" + rest == "\"" + rest;
    } else {
      var u := EscapeAll(s[1..]) + "\"" + rest;
      assert EscapeAll(s) + "\"" + rest == EscapeChar(s[0]) + u;
      ReadEscapeChar(s[0], u);
      ReadQuotedRoundTrip(s[1..], rest);
      assert [s[0]] + s[1..] == s;
    }
  }

  /** A quoted string reads back as itself, whatever follows it. */
  lemma QuoteReadsBack(s: string, rest: string)
    ensures Quote(s)[0] == '"'
    ensures ReadQuoted(Quote(s)[1..] + rest) == Some((s, rest))
  {
    assert Quote(s)[1..] + rest == EscapeAll(s) + "\"" + rest;
    ReadQuotedRoundTrip(s, rest);
  }

  /** Quoting is injective, even with text after it: the literal ends
      where the reader says it does. */
  lemma QuotedPrefixInjective(s1: string, r1: string, s2: string, r2: string)
    requires EscapeAll(s1) + "\"" + r1 == EscapeAll(s2) + "\"" + r2
    ensures s1 == s2 && r1 == r2
  {
    ReadQuotedRoundTrip(s1, r1);
    ReadQuotedRoundTrip(s2, r2);
  }
}

=== FILE: nimbus.dfy ===
/** The shipping carrier's request and response shapes. */
module Nimbus {

  datatype PaymentMode = Prepaid | Cod

  /** The `payment_mode` text the carrier expects. */
  function PaymentModeName(m: PaymentMode): string {
    match m
    case Prepaid => "Prepaid"
    case Cod => "COD"
  }

  /** A shipment to create: where it goes, what it holds, its parcel
      size (centimetres and kilograms) and what the courier collects. */
  datatype ShipmentRequest = ShipmentRequest(
    customerName: string,
    customerAddress: string,
    customerCity: string,
    customerState: string,
    customerPincode: string,
    customerPhone: string,
    orderNumber: string,
    productName: string,
    quantity: int,
    length: int,
    breadth: int,
    height: int,
    weight: real,
    paymentMode: PaymentMode,
    collectableAmount: int)
}

=== FILE: order_route.dfy ===
/** The create-order API: validate the customer fields and the amount,
    ask the payment gateway for an order in paise, then save a pending
    payment record under the gateway's order id. */
module OrderRoute {
  import opened Js
  import opened Payments

  /** The customer fields the route reads; the checkout sends more. */
  datatype CustomerInfo = CustomerInfo(firstName: Option<string>, email: Option<string>, phone: Option<string>)

  /** The JSON body. `customerInfo` is None when the key is absent. */
  datatype OrderRequest = OrderRequest(amount: Option<int>, customerInfo: Option<CustomerInfo>)

  /** What the route asks the gateway for. */
  datatype GatewayOptions = GatewayOptions(amount: int, currency: string, paymentCapture: int)

  /** The gateway's answer. */
  datatype GatewayOrder = GatewayOrder(id: string, amount: int, currency: string)

  datatype OrderResponse =
    | OrderCreated(id: string, currency: string, amount: int, name: string, phone: string,
                   email: string, key: Option<string>)                 // 200
    | OrderBadRequest(error: string)                                   // 400
    | OrderServerError(error: string)                                  // 500

  /** The response, the payment collection afterwards, and the requests
      sent to the gateway (an order created there stays created). */
  datatype OrderOutcome = OrderOutcome(response: OrderResponse, store: PaymentStore, gatewayCalls: seq<GatewayOptions>)

  function Status(r: OrderResponse): int {
    match r
    case OrderCreated(_, _, _, _, _, _, _) => 200
    case OrderBadRequest(_) => 400
    case OrderServerError(_) => 500
  }

  const MissingFieldsError := "Missing required fields"
  const CreateFailedError := "Failed to create order"

  /** `!firstName || !email || !phone || !amount`: an amount of 0 counts
      as missing. */
  predicate MissingField(c: CustomerInfo, amount: Option<int>) {
    !TruthyStr(c.firstName) || !TruthyStr(c.email) || !TruthyStr(c.phone) || !TruthyNum(amount)
  }

  /** The gateway request for a rupee amount: paise in INR, captured
      automatically. */
  function GatewayRequest(amount: int): (o: GatewayOptions)
    ensures o.amount == 100 * amount && o.currency == "INR" && o.paymentCapture == 1
  {
    GatewayOptions(amount * 100, "INR", 1)
  }

  /** `POST`. `body` is None when the request is not JSON; `gateway`
      answers None when the gateway call throws; `dbUp` is false when the
      database connection fails; `keyId` is the public key setting. */
  function Post(store: PaymentStore, body: Option<OrderRequest>, gateway: GatewayOptions -> Option<GatewayOrder>,
                keyId: Option<string>, dbUp: bool): (r: OrderOutcome)
    ensures !r.response.OrderCreated? ==> r.store == store
    ensures (body.None? || body.value.customerInfo.None?) ==> r == OrderOutcome(OrderServerError(CreateFailedError), store, [])
    ensures (body.Some? && body.value.customerInfo.Some? &&
             MissingField(body.value.customerInfo.value, body.value.amount)) ==>
      r == OrderOutcome(OrderBadRequest(MissingFieldsError), store, [])
    ensures (body.Some? && body.value.customerInfo.Some? &&
             !MissingField(body.value.customerInfo.value, body.value.amount)) ==>
      r.gatewayCalls == [GatewayRequest(body.value.amount.value)]
    ensures (body.Some? && body.value.customerInfo.Some? &&
             !MissingField(body.value.customerInfo.value, body.value.amount) && !r.response.OrderCreated?) ==>
      r.response == OrderServerError(CreateFailedError)
    ensures r.response.OrderBadRequest? <==>
      body.Some? && body.value.customerInfo.Some? && MissingField(body.value.customerInfo.value, body.value.amount)
    ensures r.response.OrderCreated? ==>
      body.Some? && body.value.customerInfo.Some? && !MissingField(body.value.customerInfo.value, body.value.amount) &&
      gateway(GatewayRequest(body.value.amount.value)).Some? &&
      var c := body.value.customerInfo.value;
      var o := gateway(GatewayRequest(body.value.amount.value)).value;
      dbUp && o.id !in store &&
      r.response == OrderCreated(o.id, o.currency, o.amount, c.firstName.value, c.phone.value, c.email.value, keyId) &&
      r.store == store[o.id := PaymentRecord(o.id, None, o.amount, Pending, c.firstName.value, c.phone.value, None)]
  {
    if body.None? || body.value.customerInfo.None? then OrderOutcome(OrderServerError(CreateFailedError), store, [])
    else
      var c := body.value.customerInfo.value;
      var amount := body.value.amount;
      if MissingField(c, amount) then OrderOutcome(OrderBadRequest(MissingFieldsError), store, [])
      else
        var options := GatewayRequest(amount.value);
        match gateway(options)
        case None => OrderOutcome(OrderServerError(CreateFailedError), store, [options])
        case Some(o) =>
          if !dbUp then OrderOutcome(OrderServerError(CreateFailedError), store, [options])
          else
            match SavePayment(store, NewPayment(o.id, o.amount, c.firstName.value, c.phone.value, None))
            case (SaveErr(_), _) => OrderOutcome(OrderServerError(CreateFailedError), store, [options])
            case (SaveOk(_), store') =>
              OrderOutcome(OrderCreated(o.id, o.currency, o.amount, c.firstName.value, c.phone.value, c.email.value, keyId),
                           store', [options])
  }

  /** The route's outcomes are exactly these: a created order needs a
      gateway order whose id is new and non-empty, a reachable database,
      and complete fields. */
  lemma CreatedIff(store: PaymentStore, body: Option<OrderRequest>, gateway: GatewayOptions -> Option<GatewayOrder>,
                   keyId: Option<string>, dbUp: bool)
    ensures Post(store, body, gateway, keyId, dbUp).response.OrderCreated? <==>
      body.Some? && body.value.customerInfo.Some? &&
      !MissingField(body.value.customerInfo.value, body.value.amount) &&
      gateway(GatewayRequest(body.value.amount.value)).Some? && dbUp &&
      gateway(GatewayRequest(body.value.amount.value)).value.id != "" &&
      gateway(GatewayRequest(body.value.amount.value)).value.id !in store
  {
  }

  /** The new record is what the payment lookup then finds: pending, in
      the gateway's amount, with no email although one was given. */
  lemma CreatedRecordIsPending(store: PaymentStore, body: Option<OrderRequest>, gateway: GatewayOptions -> Option<GatewayOrder>,
                               keyId: Option<string>, dbUp: bool)
    requires WellKeyed(store)
    ensures var r := Post(store, body, gateway, keyId, dbUp);
            WellKeyed(r.store) &&
            (r.response.OrderCreated? ==>
              var p := GetPaymentByOrderId(r.store, r.response.id);
              p.Some? && p.value.status == Pending && p.value.amount == r.response.amount &&
              p.value.customerEmail.None? && p.value.paymentId.None?)
  {
  }

  /** A failure after the gateway call leaves an order at the gateway with
      no payment record: the database being down is one way. */
  lemma DatabaseDownOrphansGatewayOrder(store: PaymentStore, b: OrderRequest, gateway: GatewayOptions -> Option<GatewayOrder>,
                                        keyId: Option<string>)
    requires b.customerInfo.Some? && !MissingField(b.customerInfo.value, b.amount)
    requires gateway(GatewayRequest(b.amount.value)).Some?
    ensures var r := Post(store, Some(b), gateway, keyId, false);
            Status(r.response) == 500 && |r.gatewayCalls| == 1 && r.store == store
  {
  }

  /** A gateway id that is already stored is a 500, not a 400. */
  lemma DuplicateOrderIdIs500(store: PaymentStore, b: OrderRequest, gateway: GatewayOptions -> Option<GatewayOrder>,
                              keyId: Option<string>)
    requires b.customerInfo.Some? && !MissingField(b.customerInfo.value, b.amount)
    requires gateway(GatewayRequest(b.amount.value)).Some?
    requires gateway(GatewayRequest(b.amount.value)).value.id in store
    ensures Post(store, Some(b), gateway, keyId, true).response == OrderServerError(CreateFailedError)
  {
  }

  /** A missing customer object throws on field access: 500, not 400,
      and the gateway is never asked. */
  lemma MissingCustomerIs500(store: PaymentStore, amount: Option<int>, gateway: GatewayOptions -> Option<GatewayOrder>,
                             keyId: Option<string>, dbUp: bool)
    ensures var r := Post(store, Some(OrderRequest(amount, None)), gateway, keyId, dbUp);
            Status(r.response) == 500 && r.gatewayCalls == []
  {
  }
}

=== FILE: payment_route.dfy ===
/** The verify-payment API: check the gateway's signature, mark the
    order's payment completed, start the confirmation mail without
    waiting for it, and answer success. */
module PaymentRoute {
  import opened Js
  import opened Payments

  /** The JSON body the checkout posts after payment. The route
      destructures it without checking, so any field may be absent. */
  datatype VerifyRequest = VerifyRequest(orderId: Option<string>, paymentId: Option<string>,
                                         signature: Option<string>, email: Option<string>)

  /** The confirmation mail the route starts. */
  datatype PaymentMail = PaymentMail(transactionId: Option<string>, email: Option<string>)

  /** `verifyPayment` called with the body's fields: an absent id enters
      the signed text as "undefined", and an absent signature never equals
      the hex digest. */
  predicate SignatureValid(hmac: (string, string) -> string, b: VerifyRequest, secret: string) {
    b.signature.Some? && VerifyPayment(hmac, Interp(b.orderId), Interp(b.paymentId), b.signature.value, secret)
  }

  /** The store after `updatePaymentStatus(orderId, paymentId, "completed")`
      for a verified body. With an id absent the store is left as it was. */
  function Completion(store: PaymentStore, b: VerifyRequest): (r: PaymentStore)
    ensures b.orderId.Some? && b.paymentId.Some? ==>
      r == UpdatePaymentStatus(store, b.orderId.value, b.paymentId.value, Completed).1
    ensures b.orderId.None? || b.paymentId.None? ==> r == store
  {
    if b.orderId.Some? && b.paymentId.Some? then UpdatePaymentStatus(store, b.orderId.value, b.paymentId.value, Completed).1
    else store
  }

  datatype VerifyResponse =
    | Verified            // 200 { success: true, message }
    | InvalidSignature    // 400 { error: "Invalid signature" }
    | VerificationFailed  // 500 { error: "Verification failed" }

  function Status(r: VerifyResponse): int {
    match r
    case Verified => 200
    case InvalidSignature => 400
    case VerificationFailed => 500
  }

  function Message(r: VerifyResponse): string {
    match r
    case Verified => "Payment verified successfully"
    case InvalidSignature => "Invalid signature"
    case VerificationFailed => "Verification failed"
  }

  datatype VerifyOutcome = VerifyOutcome(response: VerifyResponse, store: PaymentStore, mail: Option<PaymentMail>)

  /** `POST`. `body` is None when the request is not JSON; `secret` is the
      gateway secret setting (the HMAC call throws without one); `dbUp` is
      false when the database connection fails; `mailOk` says whether the
      mail will be delivered, which the route never waits to learn. */
  function Post(store: PaymentStore, body: Option<VerifyRequest>, hmac: (string, string) -> string,
                secret: Option<string>, dbUp: bool, mailOk: bool): (r: VerifyOutcome)
    ensures !r.response.Verified? ==> r.store == store && r.mail.None?
    ensures r.response.Verified? <==>
      body.Some? && secret.Some? && dbUp && SignatureValid(hmac, body.value, secret.value)
    ensures r.response == InvalidSignature <==>
      body.Some? && secret.Some? && !SignatureValid(hmac, body.value, secret.value)
    ensures body.Some? && secret.Some? && body.value.signature.None? ==> r.response == InvalidSignature
    ensures r.response == VerificationFailed <==>
      body.None? || secret.None? || (SignatureValid(hmac, body.value, secret.value) && !dbUp)
    ensures r.response.Verified? ==>
      r.store == Completion(store, body.value) &&
      r.mail == Some(PaymentMail(body.value.paymentId, body.value.email))
  {
    if body.None? || secret.None? then VerifyOutcome(VerificationFailed, store, None)
    else
      var b := body.value;
      if !SignatureValid(hmac, b, secret.value) then
        VerifyOutcome(InvalidSignature, store, None)
      else if !dbUp then VerifyOutcome(VerificationFailed, store, None)
      else VerifyOutcome(Verified, Completion(store, b), Some(PaymentMail(b.paymentId, b.email)))
  }

  /** A body without a signature is refused 400, however its ids read,
      once the secret is set: no digest equals `undefined`. */
  lemma MissingSignatureIs400(store: PaymentStore, b: VerifyRequest, hmac: (string, string) -> string,
                              secret: string, dbUp: bool, mailOk: bool)
    requires b.signature.None?
    ensures var r := Post(store, Some(b), hmac, Some(secret), dbUp, mailOk);
            Status(r.response) == 400 && Message(r.response) == "Invalid signature" && r.store == store && r.mail.None?
  {
  }

  /** An absent id is signed as the text "undefined": a body without an
      order id verifies exactly when its signature is the digest of
      "undefined|" and the payment id, and then it changes no record. */
  lemma MissingOrderIdSignsUndefined(store: PaymentStore, b: VerifyRequest, hmac: (string, string) -> string,
                                     secret: string, mailOk: bool)
    requires b.orderId.None?
    ensures var r := Post(store, Some(b), hmac, Some(secret), true, mailOk);
            (r.response.Verified? <==> b.signature == Some(hmac(secret, "undefined|" + Interp(b.paymentId)))) &&
            r.store == store
  {
    assert SignedText(Interp(b.orderId), Interp(b.paymentId)) == "undefined|" + Interp(b.paymentId);
  }

  /** The mail's fate never reaches the response or the store. */
  lemma MailOutcomeIgnored(store: PaymentStore, body: Option<VerifyRequest>, hmac: (string, string) -> string,
                           secret: Option<string>, dbUp: bool)
    ensures Post(store, body, hmac, secret, dbUp, true) == Post(store, body, hmac, secret, dbUp, false)
  {
  }

  /** A verified payment is recorded as completed with its payment id
      when the order has a record; everything else is unchanged. */
  lemma VerifiedCompletesRecord(store: PaymentStore, b: VerifyRequest, hmac: (string, string) -> string,
                                secret: string, mailOk: bool)
    requires b.orderId.Some? && b.paymentId.Some?
    requires WellKeyed(store) && b.orderId.value in store
    requires SignatureValid(hmac, b, secret)
    ensures var r := Post(store, Some(b), hmac, Some(secret), true, mailOk);
            r.response.Verified? && WellKeyed(r.store) &&
            r.store[b.orderId.value].status == Completed && r.store[b.orderId.value].paymentId == b.paymentId &&
            forall k :: k in store && k != b.orderId.value ==> r.store[k] == store[k]
  {
  }

  /** The update's null result is ignored: a valid signature for an order
      nobody saved still answers success and sends the mail. */
  lemma SuccessWithoutRecord(store: PaymentStore, b: VerifyRequest, hmac: (string, string) -> string,
                             secret: string, mailOk: bool)
    requires b.orderId.Some? && b.orderId.value !in store
    requires SignatureValid(hmac, b, secret)
    ensures var r := Post(store, Some(b), hmac, Some(secret), true, mailOk);
            r.response.Verified? && r.store == store && r.mail.Some?
  {
  }

  /** A repeated verification of the same order overwrites the payment id
      and re-sends the mail; a failed record can become completed. */
  lemma ReverificationOverwrites(rec: PaymentRecord, b: VerifyRequest, hmac: (string, string) -> string, secret: string)
    requires b.orderId == Some(rec.orderId) && b.paymentId.Some? && rec.status == Failed
    requires SignatureValid(hmac, b, secret)
    ensures var r := Post(map[rec.orderId := rec], Some(b), hmac, Some(secret), true, true);
            r.store[rec.orderId].status == Completed && r.store[rec.orderId].paymentId == b.paymentId && r.mail.Some?
  {
  }
}

=== FILE: payments.dfy ===
/** The payment collection and its service: create a record as pending,
    overwrite the status of the record for an order, look a record up, and
    check a gateway signature. */
module Payments {
  import opened Js

  /** The `status` enum; a new record is `Pending`. */
  datatype PaymentStatus = Pending | Completed | Failed

  function StatusName(s: PaymentStatus): string {
    match s
    case Pending => "pending"
    case Completed => "completed"
    case Failed => "failed"
  }

  /** A stored payment. `amount` is in paise. */
  datatype PaymentRecord = PaymentRecord(
    orderId: string,
    paymentId: Option<string>,
    amount: int,
    status: PaymentStatus,
    customerName: string,
    customerPhone: string,
    customerEmail: Option<string>)

  /** The collection, keyed by the unique `orderId`. */
  type PaymentStore = map<string, PaymentRecord>

  /** Every record sits under its own order id. */
  predicate WellKeyed(store: PaymentStore) {
    forall k :: k in store ==> store[k].orderId == k
  }

  /** The fields `savePayment` receives. */
  datatype NewPayment = NewPayment(
    orderId: string,
    amount: int,
    customerName: string,
    customerPhone: string,
    customerEmail: Option<string>)

  datatype SaveError =
    | MissingFields(paths: seq<string>)    // the `required` validators that failed
    | DuplicateOrderId                      // the unique index on `orderId`

  datatype SaveResult = SaveOk(record: PaymentRecord) | SaveErr(error: SaveError)

  /** The required string fields that are empty, in schema order. The
      amount is a number here, so it is always present. */
  function MissingRequired(d: NewPayment): (r: seq<string>)
    ensures r == [] <==> d.orderId != "" && d.customerName != "" && d.customerPhone != ""
    ensures forall p :: p in r ==> p in ["orderId", "customerName", "customerPhone"]
  {
    (if d.orderId == "" then ["orderId"] else [])
    + (if d.customerName == "" then ["customerName"] else [])
    + (if d.customerPhone == "" then ["customerPhone"] else [])
  }

  /** `savePayment`: validation first, then the unique index; a saved
      record is pending and has no payment id yet. */
  function SavePayment(store: PaymentStore, d: NewPayment): (r: (SaveResult, PaymentStore))
    ensures r.0.SaveOk? <==> MissingRequired(d) == [] && d.orderId !in store
    ensures MissingRequired(d) != [] ==> r.0 == SaveErr(MissingFields(MissingRequired(d)))
    ensures MissingRequired(d) == [] && d.orderId in store ==> r.0 == SaveErr(DuplicateOrderId)
    ensures r.0.SaveOk? ==>
      r.0.record == PaymentRecord(d.orderId, None, d.amount, Pending, d.customerName, d.customerPhone, d.customerEmail) &&
      r.1 == store[d.orderId := r.0.record]
    ensures r.0.SaveErr? ==> r.1 == store
  {
    var missing := MissingRequired(d);
    if missing != [] then (SaveErr(MissingFields(missing)), store)
    else if d.orderId in store then (SaveErr(DuplicateOrderId), store)
    else
      var rec := PaymentRecord(d.orderId, None, d.amount, Pending, d.customerName, d.customerPhone, d.customerEmail);
      (SaveOk(rec), store[d.orderId := rec])
  }

  /** `updatePaymentStatus`: sets the payment id and the status of the
      record for `orderId`, whatever its current status, and returns the
      updated record; with no such record it returns null and changes
      nothing. */
  function UpdatePaymentStatus(store: PaymentStore, orderId: string, paymentId: string, status: PaymentStatus)
    : (r: (Option<PaymentRecord>, PaymentStore))
    ensures orderId !in store ==> r.0.None? && r.1 == store
    ensures orderId in store ==>
      r.0 == Some(store[orderId].(paymentId := Some(paymentId), status := status)) &&
      r.1 == store[orderId := r.0.value]
  {
    if orderId in store then
      var rec := store[orderId].(paymentId := Some(paymentId), status := status);
      (Some(rec), store[orderId := rec])
    else (None, store)
  }

  /** `getPaymentByOrderId`. */
  function GetPaymentByOrderId(store: PaymentStore, orderId: string): (r: Option<PaymentRecord>)
    ensures r.Some? <==> orderId in store
    ensures r.Some? ==> r.value == store[orderId]
  {
    if orderId in store then Some(store[orderId]) else None
  }

  /** Saving keeps every record under its own order id, and what was saved
      is what a lookup returns. */
  lemma SaveThenGet(store: PaymentStore, d: NewPayment)
    requires WellKeyed(store)
    ensures WellKeyed(SavePayment(store, d).1)
    ensures var (res, s) := SavePayment(store, d);
            res.SaveOk? ==> GetPaymentByOrderId(s, d.orderId) == Some(res.record) && res.record.status == Pending
  {
  }

  /** An update touches only the record it names, and only its payment id
      and status; the lookup sees the update. */
  lemma UpdateFrame(store: PaymentStore, orderId: string, paymentId: string, status: PaymentStatus)
    requires WellKeyed(store)
    ensures var (res, s) := UpdatePaymentStatus(store, orderId, paymentId, status);
            WellKeyed(s) && s.Keys == store.Keys &&
            (forall k :: k in store && k != orderId ==> s[k] == store[k]) &&
            GetPaymentByOrderId(s, orderId) == res &&
            (res.Some? ==>
              res.value.amount == store[orderId].amount &&
              res.value.customerName == store[orderId].customerName &&
              res.value.customerPhone == store[orderId].customerPhone &&
              res.value.customerEmail == store[orderId].customerEmail)
  {
  }

  /** Nothing guards the transition: a completed payment can be set back
      to pending, and a failed one to completed. */
  lemma StatusCanGoBackwards(rec: PaymentRecord, paymentId: string)
    requires rec.status == Completed
    ensures var s := map[rec.orderId := rec];
            var (res, s') := UpdatePaymentStatus(s, rec.orderId, paymentId, Pending);
            res.Some? && res.value.status == Pending && s'[rec.orderId].status == Pending
  {
  }

  /** An update never creates a record: the payment id of a failed lookup
      is simply dropped. */
  lemma UpdateNeverInserts(store: PaymentStore, orderId: string, paymentId: string, status: PaymentStatus)
    ensures UpdatePaymentStatus(store, orderId, paymentId, status).1.Keys == store.Keys
  {
  }

  /** The text the gateway signs: the order id, a bar, the payment id. */
  function SignedText(orderId: string, paymentId: string): (r: string)
    ensures |r| == |orderId| + 1 + |paymentId|
    ensures r[..|orderId|] == orderId && r[|orderId|] == '|' && r[|orderId| + 1..] == paymentId
  {
    orderId + "|" + paymentId
  }

  /** `verifyPayment`: the signature must equal the hex HMAC-SHA256 of
      the signed text under the secret. `hmac(key, text)` stands for that
      digest (RFC 2104 over SHA-256 of FIPS 180-4), which is not modelled. */
  function VerifyPayment(hmac: (string, string) -> string, orderId: string, paymentId: string,
                         signature: string, secret: string): (r: bool)
    ensures r ==> signature == hmac(secret, SignedText(orderId, paymentId))
    ensures signature == hmac(secret, SignedText(orderId, paymentId)) ==> r
  {
    hmac(secret, orderId + "|" + paymentId) == signature
  }

  /** The check depends on the two ids only through the signed text: ids
      that contain the bar can be regrouped without changing the verdict. */
  lemma {:induction false} VerifyIgnoresGrouping(hmac: (string, string) -> string, a: string, b: string, c: string,
                                                 signature: string, secret: string)
    ensures VerifyPayment(hmac, a + "|" + b, c, signature, secret) == VerifyPayment(hmac, a, b + "|" + c, signature, secret)
  {
    assert SignedText(a + "|" + b, c) == SignedText(a, b + "|" + c);
  }

  /** A signature made with the secret verifies; any other text does not,
      whichever record the store holds. */
  lemma OwnSignatureVerifies(hmac: (string, string) -> string, orderId: string, paymentId: string, secret: string)
    ensures VerifyPayment(hmac, orderId, paymentId, hmac(secret, SignedText(orderId, paymentId)), secret)
  {
  }
}

=== FILE: phonepe.dfy ===
/** The PhonePe payment routes of the Express back end: `/initiate`
    checks the fields, then the merchant settings, and signs the JSON of
    the payment data; `/callback` acknowledges without checking. */
module PhonePe {
  import opened Js
  import opened JsonText

  const SecretMissingError := "Merchant secret key is not defined"
  const MissingFieldsError := "Missing required fields"
  const CredentialsError := "Merchant credentials are not configured properly"

  /** `generateChecksum`: the hex HMAC-SHA256 of `data` under the secret,
      with `hmac(key, text)` standing for that digest; an unset or empty
      secret throws. */
  function GenerateChecksum(hmac: (string, string) -> string, data: string, secret: Option<string>): (r: Reply<string>)
    ensures r.Replied? <==> TruthyStr(secret)
    ensures r.Replied? ==> r.body == hmac(secret.value, data)
    ensures r.Threw? ==> r.message == SecretMissingError
  {
    if !TruthyStr(secret) then Threw(SecretMissingError) else Replied(hmac(secret.value, data))
  }

  /** The request body; any field may be absent. */
  datatype InitiateBody = InitiateBody(amount: Option<int>, orderId: Option<string>, customerPhone: Option<string>)

  /** The payment data that is signed and returned. */
  datatype PaymentData = PaymentData(merchantId: string, orderId: string, amount: int, customerPhone: string)

  datatype InitiateResponse =
    | Initiated(paymentData: PaymentData, checksum: string)   // 200
    | InitiateBadRequest(error: string)                       // 400
    | InitiateServerError(error: string)                      // 500

  /** `JSON.stringify(paymentData)`: keys in insertion order, no spaces.
      Each string member is written as its key, the opening quote, the
      escaped text, the closing quote and what follows. */
  function PaymentDataJson(d: PaymentData): (r: string)
    ensures |r| >= 2 && r[0] == '{' && r[|r| - 1] == '}'
  {
    "{\"merchantId\":\"" + (EscapeAll(d.merchantId) + "\"" + AfterMerchant(d))
  }

  function AfterMerchant(d: PaymentData): string {
    ",\"orderId\":\"" + (EscapeAll(d.orderId) + "\"" + AfterOrder(d))
  }

  function AfterOrder(d: PaymentData): string {
    ",\"amount\":" + (IntToString(d.amount) + AfterAmount(d))
  }

  function AfterAmount(d: PaymentData): (r: string)
    ensures |r| >= 1 && r[0] == ','
  {
    ",\"customerPhone\":\"" + (EscapeAll(d.customerPhone) + "\"" + "}")
  }

  /** `/initiate`. `merchantId` and `secret` are the two settings. */
  function Initiate(hmac: (string, string) -> string, body: InitiateBody,
                    merchantId: Option<string>, secret: Option<string>): (r: InitiateResponse)
    ensures (!TruthyNum(body.amount) || !TruthyStr(body.orderId) || !TruthyStr(body.customerPhone)) <==>
      r == InitiateBadRequest(MissingFieldsError)
    ensures r.InitiateServerError? <==>
      TruthyNum(body.amount) && TruthyStr(body.orderId) && TruthyStr(body.customerPhone) &&
      (!TruthyStr(merchantId) || !TruthyStr(secret))
    ensures r.InitiateServerError? ==> r.error == CredentialsError
    ensures r.Initiated? ==>
      r.paymentData == PaymentData(merchantId.value, body.orderId.value, body.amount.value, body.customerPhone.value) &&
      r.checksum == hmac(secret.value, PaymentDataJson(r.paymentData))
  {
    if !TruthyNum(body.amount) || !TruthyStr(body.orderId) || !TruthyStr(body.customerPhone) then
      InitiateBadRequest(MissingFieldsError)
    else if !TruthyStr(merchantId) || !TruthyStr(secret) then InitiateServerError(CredentialsError)
    else
      var d := PaymentData(merchantId.value, body.orderId.value, body.amount.value, body.customerPhone.value);
      match GenerateChecksum(hmac, PaymentDataJson(d), secret)
      case Threw(m) => InitiateServerError(m)
      case Replied(sum) => Initiated(d, sum)
  }

  /** The fields are checked before the settings: a bad request is a 400
      whatever the settings are. */
  lemma FieldsCheckedFirst(hmac: (string, string) -> string, body: InitiateBody,
                           m1: Option<string>, s1: Option<string>, m2: Option<string>, s2: Option<string>)
    requires !TruthyNum(body.amount) || !TruthyStr(body.orderId) || !TruthyStr(body.customerPhone)
    ensures Initiate(hmac, body, m1, s1) == Initiate(hmac, body, m2, s2)
  {
  }

  /** The checksum's own error cannot surface: the settings check has
      already ruled out a missing secret. */
  lemma ChecksumNeverThrows(hmac: (string, string) -> string, body: InitiateBody,
                            merchantId: Option<string>, secret: Option<string>)
    ensures Initiate(hmac, body, merchantId, secret) != InitiateServerError(SecretMissingError)
  {
  }

  /** The signed text determines the payment data: two payments with the
      same JSON are the same payment, so a checksum covers every field. */
  lemma PaymentDataJsonInjective(d1: PaymentData, d2: PaymentData)
    requires PaymentDataJson(d1) == PaymentDataJson(d2)
    ensures d1 == d2
  {
    PrefixCancel("{\"merchantId\":\"", EscapeAll(d1.merchantId) + "\"" + AfterMerchant(d1),
                 EscapeAll(d2.merchantId) + "\"" + AfterMerchant(d2));
    QuotedPrefixInjective(d1.merchantId, AfterMerchant(d1), d2.merchantId, AfterMerchant(d2));
    PrefixCancel(",\"orderId\":\"", EscapeAll(d1.orderId) + "\"" + AfterOrder(d1),
                 EscapeAll(d2.orderId) + "\"" + AfterOrder(d2));
    QuotedPrefixInjective(d1.orderId, AfterOrder(d1), d2.orderId, AfterOrder(d2));
    PrefixCancel(",\"amount\":", IntToString(d1.amount) + AfterAmount(d1), IntToString(d2.amount) + AfterAmount(d2));
    NumberThenComma(d1.amount, AfterAmount(d1), d2.amount, AfterAmount(d2));
    PrefixCancel(",\"customerPhone\":\"", EscapeAll(d1.customerPhone) + "\"" + "}",
                 EscapeAll(d2.customerPhone) + "\"" + "}");
    QuotedPrefixInjective(d1.customerPhone, "}", d2.customerPhone, "}");
  }

  /** A shorter rendering meets its comma where the longer one still has
      a digit or the sign. */
  lemma CommaAfter(a: int, r1: string, b: int, r2: string)
    requires |r1| >= 1 && r1[0] == ','
    requires |IntToString(a)| < |IntToString(b)|
    ensures (IntToString(a) + r1)[|IntToString(a)|] == ','
    ensures (IntToString(b) + r2)[|IntToString(a)|] != ','
  {
    IntToStringChars(b);
  }

  /** A rendered number ends at the first comma. */
  lemma NumberThenComma(a: int, r1: string, b: int, r2: string)
    requires |r1| >= 1 && |r2| >= 1 && r1[0] == ',' && r2[0] == ','
    requires IntToString(a) + r1 == IntToString(b) + r2
    ensures a == b && r1 == r2
  {
    var s1 := IntToString(a);
    var s2 := IntToString(b);
    IntToStringChars(a);
    IntToStringChars(b);
    if |s1| < |s2| {
      CommaAfter(a, r1, b, r2);
      assert false;
    } else if |s2| < |s1| {
      CommaAfter(b, r2, a, r1);
      assert false;
    }
    assert s1 == (s1 + r1)[..|s1|];
    assert s2 == (s2 + r2)[..|s2|];
    IntToStringInjective(a, b);
    assert r1 == (s1 + r1)[|s1|..];
    assert r2 == (s2 + r2)[|s2|..];
  }

  /** `/callback` answers the same whatever it receives. */
  function Callback(payload: string): (status: string)
    ensures status == "success"
  {
    "success"
  }
}

=== FILE: products_route.dfy ===
/** The products API: `GET` lists the active products newest first;
    `POST` validates a new product, checks its SKU against the active
    products, fills in defaults and saves it. */
module ProductsRoute {
  import opened Js
  import opened Inventory

  /** The fields `POST` reads from its JSON body; any may be absent. */
  datatype ProductBody = ProductBody(
    name: Option<string>,
    description: Option<string>,
    price: Option<int>,
    availableUnits: Option<int>,
    reservedUnits: Option<int>,
    totalUnits: Option<int>,
    category: Option<string>,
    sku: Option<string>,
    imageUrl: Option<string>)

  datatype PostResponse =
    | Created(product: StockProduct)             // 201
    | BadRequest(error: string)                  // 400
    | ServerError(error: string)                 // 500

  datatype GetResponse =
    | Listed(products: seq<StockProduct>)        // 200
    | FetchFailed                                // 500

  function PostStatus(r: PostResponse): int {
    match r
    case Created(_) => 201
    case BadRequest(_) => 400
    case ServerError(_) => 500
  }

  const RequiredFieldsError := "Name, price, and total units are required"
  const SkuExistsError := "Product with this SKU already exists"
  const ConnectError := "Failed to connect to database"
  const CreateFailedError := "Failed to create product"

  /** The catch block answers with `error.message || "Failed to create product"`. */
  function CaughtMessage(message: string): (m: string)
    ensures m != ""
    ensures message != "" ==> m == message
  {
    if message != "" then message else CreateFailedError
  }

  /** `!name || !price || totalUnits === undefined`: a zero price is
      rejected like a missing one. */
  predicate MissingRequired(b: ProductBody) {
    !TruthyStr(b.name) || !TruthyNum(b.price) || b.totalUnits.None?
  }

  /** The lookup `findOne({ sku, isActive: true })`. The schema's `trim`
      on `sku` applies to query filters too, so the SKU is compared
      trimmed, as it is stored. */
  predicate ActiveSkuExists(store: Store, sku: string) {
    exists k :: 0 <= k < |store| && store[k].sku == Some(Trim(sku)) && store[k].isActive
  }

  /** The document `POST` builds: unit counts default to 0 when absent or
      zero, the product is active, and the schema trims the strings. */
  function NewProduct(b: ProductBody, now: int): (p: StockProduct)
    requires !MissingRequired(b)
    ensures p.availableUnits == OrZero(b.availableUnits) && p.reservedUnits == OrZero(b.reservedUnits)
    ensures p.totalUnits == b.totalUnits.value && p.price == b.price.value
    ensures p.isActive && p.createdAt == now
    ensures p.name == Trim(b.name.value)
    ensures p.sku == TrimOpt(b.sku) && p.description == TrimOpt(b.description)
    ensures p.category == TrimOpt(b.category) && p.imageUrl == TrimOpt(b.imageUrl)
  {
    Normalize(StockProduct(b.name.value, b.description, b.price.value, OrZero(b.availableUnits),
                           OrZero(b.reservedUnits), b.totalUnits.value, b.category, b.sku, b.imageUrl, true, now))
  }

  /** `POST`. `body` is None when the request is not JSON, and then
      `parseError` is the message `request.json()` throws; `dbUp` is false
      when the database connection fails. */
  function Post(store: Store, body: Option<ProductBody>, parseError: string, now: int, dbUp: bool): (r: (PostResponse, Store))
    ensures !r.0.Created? ==> r.1 == store
    ensures !dbUp ==> r.0 == ServerError(ConnectError)
    ensures dbUp && body.None? ==> r.0 == ServerError(CaughtMessage(parseError))
    ensures r.0.BadRequest? <==>
      body.Some? && dbUp &&
      (MissingRequired(body.value) || (TruthyStr(body.value.sku) && ActiveSkuExists(store, body.value.sku.value)))
    ensures body.Some? && dbUp && MissingRequired(body.value) ==> r.0 == BadRequest(RequiredFieldsError)
    ensures (body.Some? && dbUp && !MissingRequired(body.value) &&
             TruthyStr(body.value.sku) && ActiveSkuExists(store, body.value.sku.value)) ==>
      r.0 == BadRequest(SkuExistsError)
    ensures r.0.Created? ==>
      body.Some? && dbUp && !MissingRequired(body.value) &&
      r.0.product == NewProduct(body.value, now) && r.1 == store + [r.0.product] && Saveable(r.0.product)
    ensures body.Some? && dbUp && !MissingRequired(body.value) && !r.0.BadRequest? ==>
      var p := NewProduct(body.value, now);
      (r.0.Created? <==> Saveable(p) && !SkuTaken(store, p.sku)) &&
      (!r.0.Created? ==> r.0 == ServerError(CaughtMessage(Message(Insert(store, p).0.error))))
  {
    if !dbUp then (ServerError(ConnectError), store)
    else if body.None? then (ServerError(CaughtMessage(parseError)), store)
    else
      var b := body.value;
      if MissingRequired(b) then (BadRequest(RequiredFieldsError), store)
      else if TruthyStr(b.sku) && ActiveSkuExists(store, b.sku.value) then (BadRequest(SkuExistsError), store)
      else
        var p := NewProduct(b, now);
        match Insert(store, p)
        case (SavedOk(saved), store') => (Created(saved), store')
        case (SaveFailed(e), _) => (ServerError(CaughtMessage(Message(e))), store)
  }

  /** `POST` keeps the collection invariant. */
  lemma PostKeepsValid(store: Store, body: Option<ProductBody>, parseError: string, now: int, dbUp: bool)
    requires Valid(store)
    ensures Valid(Post(store, body, parseError, now, dbUp).1)
  {
    if dbUp && body.Some? && !MissingRequired(body.value) {
      InsertKeepsValid(store, NewProduct(body.value, now));
    }
  }

  /** The route's own `connectDB` rethrows any connection failure with one
      fixed message, which the catch then answers as a 500; the body is
      never read. */
  lemma ConnectFailureIs500(store: Store, body: Option<ProductBody>, parseError: string, now: int)
    ensures Post(store, body, parseError, now, false) == (ServerError("Failed to connect to database"), store)
  {
  }

  /** A price of 0 is refused as missing even though the schema allows it. */
  lemma ZeroPriceRejected(store: Store, b: ProductBody, now: int)
    requires b.price == Some(0)
    ensures Post(store, Some(b), "", now, true).0 == BadRequest(RequiredFieldsError)
  {
  }

  /** Units that break the invariant get through the route's checks and
      are refused by the save, as a 500 and not a 400. */
  lemma UnitsInvariantIs500(store: Store, b: ProductBody, now: int)
    requires !MissingRequired(b) && !TruthyStr(b.sku)
    requires OrZero(b.availableUnits) >= 0 && OrZero(b.reservedUnits) >= 0 && b.price.value > 0
    requires Trim(b.name.value) != ""
    requires OrZero(b.availableUnits) + OrZero(b.reservedUnits) > b.totalUnits.value >= 0
    ensures Post(store, Some(b), "", now, true).0 == ServerError(Message(UnitsExceedTotal))
  {
  }

  /** The route looks only at active products, the index at all of them:
      reusing an inactive product's SKU passes the route and fails the
      save with a 500. */
  lemma InactiveSkuIs500(store: Store, b: ProductBody, now: int, k: int)
    requires !MissingRequired(b) && b.sku.Some? && b.sku.value != ""
    requires 0 <= k < |store| && store[k].sku == Some(Trim(b.sku.value)) && !store[k].isActive
    requires forall j :: 0 <= j < |store| && store[j].sku == Some(Trim(b.sku.value)) ==> !store[j].isActive
    ensures PostStatus(Post(store, Some(b), "", now, true).0) == 500
  {
    var p := NewProduct(b, now);
    assert p.sku == Some(Trim(b.sku.value));
    assert SkuTaken(store, p.sku);
  }

  // ---------------------------------------------------------------------
  // GET

  predicate NewestFirst(s: seq<StockProduct>) {
    forall i, j :: 0 <= i < j < |s| ==> s[i].createdAt >= s[j].createdAt
  }

  /** Inserts `p` into a newest-first list after every product at least as new. */
  function InsertByDate(p: StockProduct, s: seq<StockProduct>): (r: seq<StockProduct>)
    ensures |r| == |s| + 1
  {
    if s == [] || s[0].createdAt < p.createdAt then [p] + s
    else [s[0]] + InsertByDate(p, s[1..])
  }

  /** Inserting keeps every date at or below a bound both sides respect. */
  lemma {:induction false} InsertByDateBounded(p: StockProduct, s: seq<StockProduct>, t: int)
    requires p.createdAt <= t && forall k :: 0 <= k < |s| ==> s[k].createdAt <= t
    ensures forall k :: 0 <= k < |InsertByDate(p, s)| ==> InsertByDate(p, s)[k].createdAt <= t
    decreases |s|
  {
    if s != [] && s[0].createdAt >= p.createdAt {
      InsertByDateBounded(p, s[1..], t);
    }
  }

  lemma {:induction false} InsertByDateCorrect(p: StockProduct, s: seq<StockProduct>)
    requires NewestFirst(s)
    ensures NewestFirst(InsertByDate(p, s))
    ensures multiset(InsertByDate(p, s)) == multiset(s) + multiset{p}
  {
    InsertByDateSorted(p, s);
    InsertByDateAddsOne(p, s);
  }

  lemma {:induction false} InsertByDateSorted(p: StockProduct, s: seq<StockProduct>)
    requires NewestFirst(s)
    ensures NewestFirst(InsertByDate(p, s))
    decreases |s|
  {
    if s != [] && s[0].createdAt >= p.createdAt {
      var rest := InsertByDate(p, s[1..]);
      InsertByDateSorted(p, s[1..]);
      InsertByDateBounded(p, s[1..], s[0].createdAt);
      var r := [s[0]] + rest;
      forall i, j | 0 <= i < j < |r| ensures r[i].createdAt >= r[j].createdAt {
        assert r[j] == rest[j - 1];
        if i > 0 {
          assert r[i] == rest[i - 1];
        }
      }
    }
  }

  lemma {:induction false} InsertByDateAddsOne(p: StockProduct, s: seq<StockProduct>)
    ensures multiset(InsertByDate(p, s)) == multiset(s) + multiset{p}
    decreases |s|
  {
    if s != [] && s[0].createdAt >= p.createdAt {
      InsertByDateAddsOne(p, s[1..]);
      assert s == [s[0]] + s[1..];
    }
  }

  function SortNewestFirst(s: seq<StockProduct>): (r: seq<StockProduct>)
    ensures |r| == |s|
  {
    if s == [] then [] else InsertByDate(s[0], SortNewestFirst(s[1..]))
  }

  lemma {:induction false} SortNewestFirstCorrect(s: seq<StockProduct>)
    ensures NewestFirst(SortNewestFirst(s))
    ensures multiset(SortNewestFirst(s)) == multiset(s)
    decreases |s|
  {
    if s != [] {
      SortNewestFirstCorrect(s[1..]);
      InsertByDateCorrect(s[0], SortNewestFirst(s[1..]));
      assert s == [s[0]] + s[1..];
    }
  }

  function IsActive(p: StockProduct): bool {
    p.isActive
  }

  /** `GET`: exactly the active products, each as often as stored, newest
      `createdAt` first. */
  function Get(store: Store, dbUp: bool): (r: GetResponse)
    ensures !dbUp <==> r.FetchFailed?
    ensures r.Listed? ==>
      NewestFirst(r.products) &&
      (forall k :: 0 <= k < |r.products| ==> r.products[k].isActive) &&
      multiset(r.products) == multiset(Filter(store, IsActive))
  {
    if !dbUp then FetchFailed
    else
      var active := Filter(store, IsActive);
      var sorted := SortNewestFirst(active);
      SortNewestFirstCorrect(active);
      forall k | 0 <= k < |sorted| ensures sorted[k].isActive {
        assert sorted[k] in multiset(sorted);
        assert sorted[k] in active;
      }
      Listed(sorted)
  }
}

=== FILE: profile_flow.dfy ===
/** The profile page talking to the profile API: the `PUT`'s answer as the
    page reads it, and what the page then shows. */
module ProfileFlow {
  import opened Js
  import ProfileRoute
  import ProfilePage

  const UnauthorizedError := "Unauthorized"
  const UserNotFoundError := "User not found"
  const InternalError := "Internal server error"

  /** The `error` field of a failed answer; the profile itself has none. */
  function ErrorOf(r: ProfileRoute.ProfileResponse): (e: Option<string>)
    ensures e.None? <==> r.ProfileOk?
    ensures r.BadRequest? || r.Conflict? ==> e == Some(r.error)
  {
    match r
    case ProfileOk(_) => None
    case BadRequest(m) => Some(m)
    case Unauthorized => Some(UnauthorizedError)
    case NotFound => Some(UserNotFoundError)
    case Conflict(m) => Some(m)
    case ServerError => Some(InternalError)
  }

  /** What `fetch` and `response.json()` give the page: `response.ok` is a
      2xx status. */
  function ReplyOf(r: ProfileRoute.ProfileResponse): (b: ProfilePage.SaveReply)
    ensures b.ok <==> 200 <= ProfileRoute.Status(r) < 300
    ensures b.ok <==> r.ProfileOk?
  {
    ProfilePage.SaveReply(r.ProfileOk?, ErrorOf(r))
  }

  /** The page reports a save exactly when the route stored the profile.
      On success editing ends and the error is cleared unless the session
      refresh throws; on failure the collection is untouched, editing goes
      on and the page shows the route's message. */
  lemma SubmitReportsWhatTheRouteDid(st: ProfilePage.PageState, p: ProfilePage.FormProfile,
                                     users: seq<ProfileRoute.User>, session: Option<ProfileRoute.Session>,
                                     body: Option<ProfileRoute.ProfileBody>, dbUp: bool,
                                     sessionName: Option<string>, refreshOk: bool)
    ensures var (resp, users') := ProfileRoute.Put(users, session, body, dbUp);
            var out := ProfilePage.HandleSubmit(st, p, Replied(ReplyOf(resp)), sessionName, refreshOk);
            (resp.ProfileOk? <==> !out.state.isEditing && (out.state.error == "" || out.refreshed)) &&
            (resp.ProfileOk? ==> (out.state.error == "" <==> !out.refreshed || refreshOk)) &&
            (!resp.ProfileOk? ==>
              users' == users && out.state.isEditing == st.isEditing && !out.refreshed &&
              out.state.error == OrStr(ErrorOf(resp), ProfilePage.SaveFailedError) && out.state.error != "")
  {
  }
}

=== FILE: profile_page.dfy ===
/** The profile page's form state: the input handler that writes either a
    top-level field or one field of the nested address, and the outcome
    of saving the form. */
module ProfilePage {
  import opened Js

  /** The address as the form holds it: an object of named fields, or the
      text a top-level input named `address` put in its place. */
  datatype AddressValue = AddressObject(fields: map<string, string>) | AddressText(text: string)

  /** The `profile` state. Input names other than `name`, `email` and
      `address` land in `others`. */
  datatype FormProfile = FormProfile(name: string, email: string, others: map<string, string>, address: AddressValue)

  const AddressPrefix := "address."

  const InitialProfile := FormProfile("", "", map[],
    AddressObject(map["street" := "", "city" := "", "state" := "", "zipCode" := "", "country" := ""]))

  /** The text before the first dot, or all of it. */
  function BeforeDot(s: string): (r: string)
    ensures '.' !in r && StartsWith(s, r)
    ensures '.' !in s ==> r == s
    decreases |s|
  {
    if s == [] || s[0] == '.' then [] else [s[0]] + BeforeDot(s[1..])
  }

  /** `name.split(".")[1]` for a name that starts with `address.`. */
  function AddressKeyOf(name: string): string
    requires StartsWith(name, AddressPrefix)
  {
    BeforeDot(name[|AddressPrefix|..])
  }

  /** `{ ...s }` for a string `s`: one entry per character, keyed by its
      index written in decimal. */
  function SpreadText(s: string): (m: map<string, string>)
    ensures Spreads(s, m)
    decreases |s|
  {
    if s == [] then map[]
    else
      var prev := SpreadText(s[..|s| - 1]);
      SpreadStep(s, prev);
      prev[NatToString(|s| - 1) := [s[|s| - 1]]]
  }

  /** `m` is the spread of `s`: the key of each index maps to that
      character, and there are no other keys. */
  predicate Spreads(s: string, m: map<string, string>) {
    && (forall i :: 0 <= i < |s| ==> NatToString(i) in m && m[NatToString(i)] == [s[i]])
    && (forall k :: k in m ==> exists i :: 0 <= i < |s| && k == NatToString(i))
  }

  /** Spreading one more character adds exactly its entry. */
  lemma SpreadStep(s: string, prev: map<string, string>)
    requires s != [] && Spreads(s[..|s| - 1], prev)
    ensures Spreads(s, prev[NatToString(|s| - 1) := [s[|s| - 1]]])
  {
    var last := |s| - 1;
    var m := prev[NatToString(last) := [s[last]]];
    forall i | 0 <= i < |s| ensures NatToString(i) in m && m[NatToString(i)] == [s[i]] {
      if i < last {
        KeysDiffer(i, last);
        assert m[NatToString(i)] == prev[NatToString(i)] == [s[..last][i]];
      }
    }
    forall k | k in m ensures exists i :: 0 <= i < |s| && k == NatToString(i) {
      if k == NatToString(last) {
        assert 0 <= last < |s|;
      } else {
        assert k in prev;
        var i :| 0 <= i < last && k == NatToString(i);
        assert 0 <= i < |s|;
      }
    }
  }

  /** Distinct indexes have distinct keys. */
  lemma KeysDiffer(i: nat, j: nat)
    requires i != j
    ensures NatToString(i) != NatToString(j)
  {
    NatToStringRoundTrip(i);
    NatToStringRoundTrip(j);
  }

  /** `{ ...prev.address }` as an object. */
  function FieldsOf(a: AddressValue): map<string, string> {
    match a
    case AddressObject(m) => m
    case AddressText(s) => SpreadText(s)
  }

  /** `handleInputChange`. */
  function HandleInputChange(p: FormProfile, name: string, value: string): (r: FormProfile)
    ensures StartsWith(name, AddressPrefix) ==>
      r == p.(address := AddressObject(FieldsOf(p.address)[AddressKeyOf(name) := value]))
    ensures !StartsWith(name, AddressPrefix) && name != "address" ==> r.address == p.address
    ensures !StartsWith(name, AddressPrefix) && name == "name" ==> r == p.(name := value)
    ensures !StartsWith(name, AddressPrefix) && name == "email" ==> r == p.(email := value)
  {
    if StartsWith(name, AddressPrefix) then
      p.(address := AddressObject(FieldsOf(p.address)[AddressKeyOf(name) := value]))
    else if name == "name" then p.(name := value)
    else if name == "email" then p.(email := value)
    else if name == "address" then p.(address := AddressText(value))
    else p.(others := p.others[name := value])
  }

  /** Writing an address field and reading it back gives the value; the
      other address fields and everything outside the address stay. */
  lemma AddressFieldRoundTrip(p: FormProfile, key: string, value: string)
    requires '.' !in key
    ensures var r := HandleInputChange(p, AddressPrefix + key, value);
            r.address.AddressObject? && key in r.address.fields && r.address.fields[key] == value &&
            (forall k :: k in FieldsOf(p.address) && k != key ==> k in r.address.fields && r.address.fields[k] == FieldsOf(p.address)[k]) &&
            r.name == p.name && r.email == p.email && r.others == p.others
  {
    var name := AddressPrefix + key;
    assert StartsWith(name, AddressPrefix);
    assert name[|AddressPrefix|..] == key;
  }

  /** Only the first segment after `address.` names the field: deeper
      names write that segment, not a nested object. */
  lemma NestedNameWritesFirstSegment(p: FormProfile, key: string, rest: string, value: string)
    requires '.' !in key
    ensures HandleInputChange(p, AddressPrefix + key + "." + rest, value) ==
            HandleInputChange(p, AddressPrefix + key, value)
  {
    var long := AddressPrefix + key + "." + rest;
    assert StartsWith(long, AddressPrefix);
    assert long[|AddressPrefix|..] == key + "." + rest;
    BeforeDotStops(key, rest);
    AddressFieldRoundTrip(p, key, value);
  }

  lemma {:induction false} BeforeDotStops(key: string, rest: string)
    requires '.' !in key
    ensures BeforeDot(key + "." + rest) == key
    decreases |key|
  {
    if key == [] {
      assert (key + "." + rest)[0] == '.';
    } else {
      assert (key + "." + rest)[1..] == key[1..] + "." + rest;
      BeforeDotStops(key[1..], rest);
      assert [key[0]] + key[1..] == key;
    }
  }

  /** Edits to two different fields, top-level or nested, give the same
      form in either order. */
  lemma DistinctAddressEditsCommute(p: FormProfile, k1: string, v1: string, k2: string, v2: string)
    requires '.' !in k1 && '.' !in k2 && k1 != k2
    ensures HandleInputChange(HandleInputChange(p, AddressPrefix + k1, v1), AddressPrefix + k2, v2) ==
            HandleInputChange(HandleInputChange(p, AddressPrefix + k2, v2), AddressPrefix + k1, v1)
  {
    AddressFieldRoundTrip(p, k1, v1);
    AddressFieldRoundTrip(p, k2, v2);
    var a := HandleInputChange(p, AddressPrefix + k1, v1);
    var b := HandleInputChange(p, AddressPrefix + k2, v2);
    AddressFieldRoundTrip(a, k2, v2);
    AddressFieldRoundTrip(b, k1, v1);
    var n1 := AddressPrefix + k1;
    var n2 := AddressPrefix + k2;
    assert n1[|AddressPrefix|..] == k1 && n2[|AddressPrefix|..] == k2;
    assert StartsWith(n1, AddressPrefix) && StartsWith(n2, AddressPrefix);
  }

  // ---------------------------------------------------------------------
  // Saving

  /** The parts of the page `handleSubmit` sets. */
  datatype PageState = PageState(isEditing: bool, error: string)

  /** The answer of the `PUT`: whether it was OK and its `error` field. */
  datatype SaveReply = SaveReply(ok: bool, error: Option<string>)

  const SaveFailedError := "Failed to update profile"
  const SomethingWrongError := "Something went wrong. Please try again."

  /** What a submit did: the page state and whether the session was asked
      to refresh. */
  datatype SubmitOutcome = SubmitOutcome(state: PageState, refreshed: bool)

  /** `handleSubmit`. `reply` is the `PUT` and its JSON, which may throw;
      `sessionName` is the signed-in user's name, if any; `refreshOk` is
      false when the session refresh throws. */
  function HandleSubmit(st: PageState, p: FormProfile, reply: Reply<SaveReply>, sessionName: Option<string>,
                        refreshOk: bool): (r: SubmitOutcome)
    ensures reply.Threw? ==> r == SubmitOutcome(st.(error := SomethingWrongError), false)
    ensures reply.Replied? && !reply.body.ok ==>
      r == SubmitOutcome(st.(error := OrStr(reply.body.error, SaveFailedError)), false)
    ensures r.refreshed <==> reply.Replied? && reply.body.ok && sessionName != Some(p.name)
    ensures reply.Replied? && reply.body.ok ==> !r.state.isEditing
    ensures reply.Replied? && reply.body.ok ==>
      (r.state.error == "" <==> !r.refreshed || refreshOk)
  {
    if reply.Threw? then SubmitOutcome(st.(error := SomethingWrongError), false)
    else if !reply.body.ok then SubmitOutcome(st.(error := OrStr(reply.body.error, SaveFailedError)), false)
    else
      var saved := PageState(false, "");
      if sessionName != Some(p.name) then
        SubmitOutcome(if refreshOk then saved else saved.(error := SomethingWrongError), true)
      else SubmitOutcome(saved, false)
  }

  /** A failed session refresh after a good save shows the generic error
      although the profile was stored, and editing has already ended. */
  lemma RefreshFailureAfterSave(st: PageState, p: FormProfile, body: SaveReply, sessionName: Option<string>)
    requires body.ok && sessionName != Some(p.name)
    ensures var r := HandleSubmit(st, p, Replied(body), sessionName, false);
            r.state == PageState(false, SomethingWrongError) && r.refreshed
  {
  }

  /** Without a session name every successful save refreshes. */
  lemma NoSessionAlwaysRefreshes(st: PageState, p: FormProfile, body: SaveReply, refreshOk: bool)
    requires body.ok
    ensures HandleSubmit(st, p, Replied(body), None, refreshOk).refreshed
  {
  }
}

=== FILE: profile_route.dfy ===
/** The profile API: `GET` returns the signed-in user's profile with every
    missing field as "", and `PUT` validates, checks the email is free,
    normalises and stores the profile. The user collection is a sequence
    searched front to back, as `findOne` does. */
module ProfileRoute {
  import opened Js

  /** The address sub-document as stored; any field may be missing. */
  datatype StoredAddress = StoredAddress(
    street: Option<string>, city: Option<string>, state: Option<string>,
    zipCode: Option<string>, country: Option<string>)

  datatype User = User(id: string, name: Option<string>, email: Option<string>, address: Option<StoredAddress>)

  /** The signed-in session's user; `email` or `id` may be missing. */
  datatype Session = Session(email: Option<string>, id: Option<string>)

  /** The address as the API returns it. */
  datatype ProfileAddress = ProfileAddress(street: string, city: string, state: string, zipCode: string, country: string)

  datatype Profile = Profile(name: string, email: string, address: ProfileAddress)

  datatype ProfileResponse =
    | ProfileOk(profile: Profile)       // 200
    | BadRequest(error: string)         // 400
    | Unauthorized                      // 401 "Unauthorized"
    | NotFound                          // 404 "User not found"
    | Conflict(error: string)           // 409
    | ServerError                       // 500 "Internal server error"

  function Status(r: ProfileResponse): int {
    match r
    case ProfileOk(_) => 200
    case BadRequest(_) => 400
    case Unauthorized => 401
    case NotFound => 404
    case Conflict(_) => 409
    case ServerError => 500
  }

  const RequiredError := "Name and email are required"
  const InvalidEmailError := "Please enter a valid email address"
  const TakenByOtherError := "Email is already taken by another user"
  const DuplicateKeyError := "Email is already taken"

  /** `!session || !session.user?.email`. */
  predicate SignedIn(session: Option<Session>) {
    session.Some? && TruthyStr(session.value.email)
  }

  /** `User.findOne({ email })`: the first user with exactly that email. */
  function FindByEmail(users: seq<User>, email: string): (r: Option<nat>)
    ensures r.Some? ==> r.value < |users| && users[r.value].email == Some(email)
    ensures r.Some? ==> forall j :: 0 <= j < r.value ==> users[j].email != Some(email)
    ensures r.None? ==> forall j :: 0 <= j < |users| ==> users[j].email != Some(email)
    decreases |users|
  {
    if users == [] then None
    else if users[0].email == Some(email) then Some(0)
    else match FindByEmail(users[1..], email)
      case None => None
      case Some(k) => Some(k + 1)
  }

  // ---------------------------------------------------------------------
  // GET

  /** The five address fields, by name. */
  datatype AddressKey = Street | City | State | ZipCode | Country

  function StoredField(a: StoredAddress, key: AddressKey): Option<string> {
    match key
    case Street => a.street
    case City => a.city
    case State => a.state
    case ZipCode => a.zipCode
    case Country => a.country
  }

  function ProfileField(a: ProfileAddress, key: AddressKey): string {
    match key
    case Street => a.street
    case City => a.city
    case State => a.state
    case ZipCode => a.zipCode
    case Country => a.country
  }

  /** `user.address?.field || ""`. */
  function AddressField(a: Option<StoredAddress>, key: AddressKey): string {
    if a.Some? then OrStr(StoredField(a.value, key), "") else ""
  }

  /** The profile of a stored user, every missing or empty field as "". */
  function ProfileOf(u: User): (p: Profile)
    ensures p.name == OrStr(u.name, "") && p.email == OrStr(u.email, "")
    ensures forall key :: (ProfileField(p.address, key) ==
      if u.address.Some? && TruthyStr(StoredField(u.address.value, key)) then StoredField(u.address.value, key).value else "")
  {
    Profile(OrStr(u.name, ""), OrStr(u.email, ""),
            ProfileAddress(AddressField(u.address, Street), AddressField(u.address, City),
                           AddressField(u.address, State), AddressField(u.address, ZipCode),
                           AddressField(u.address, Country)))
  }

  /** `GET`. `dbUp` is false when the database connection fails. */
  function Get(users: seq<User>, session: Option<Session>, dbUp: bool): (r: ProfileResponse)
    ensures r == Unauthorized <==> !SignedIn(session)
    ensures r == ServerError <==> SignedIn(session) && !dbUp
    ensures r == NotFound <==> SignedIn(session) && dbUp && FindByEmail(users, session.value.email.value).None?
    ensures r.ProfileOk? <==> SignedIn(session) && dbUp && FindByEmail(users, session.value.email.value).Some?
    ensures r.ProfileOk? ==> r.profile == ProfileOf(users[FindByEmail(users, session.value.email.value).value])
  {
    if !SignedIn(session) then Unauthorized
    else if !dbUp then ServerError
    else match FindByEmail(users, session.value.email.value)
      case None => NotFound
      case Some(k) => ProfileOk(ProfileOf(users[k]))
  }

  // ---------------------------------------------------------------------
  // The email pattern /^\w+([.-]?\w+)*@\w+([.-]?\w+)*(\.\w{2,3})+$/,
  // read left to right by a small automaton. The pattern only asks which
  // class each character falls in.

  datatype CharClass = Word | Dot | Dash | At | Other

  /** `\w` is ASCII letters, digits and the underscore. */
  function ClassOf(c: char): CharClass {
    if 'a' <= c <= 'z' || 'A' <= c <= 'Z' || '0' <= c <= '9' || c == '_' then Word
    else if c == '.' then Dot
    else if c == '-' then Dash
    else if c == '@' then At
    else Other
  }

  /** Where the reader is. Both halves are `\w+([.-]?\w+)*`: words with
      single dots or hyphens between them. In the domain, `tail` counts the
      word characters since the last dot, or is -1 before the first dot
      and after a hyphen, where no `(\.\w{2,3})+` tail can end. */
  datatype ScanState =
    | LocalStart
    | LocalWord
    | LocalSeparator
    | DomainStart
    | DomainWord(tail: int)
    | DomainSeparator(afterDot: bool)

  function Step(st: ScanState, c: CharClass): Option<ScanState> {
    match (st, c)
    case (LocalStart, Word) => Some(LocalWord)
    case (LocalWord, Word) => Some(LocalWord)
    case (LocalWord, Dot) => Some(LocalSeparator)
    case (LocalWord, Dash) => Some(LocalSeparator)
    case (LocalWord, At) => Some(DomainStart)
    case (LocalSeparator, Word) => Some(LocalWord)
    case (DomainStart, Word) => Some(DomainWord(-1))
    case (DomainWord(t), Word) => Some(DomainWord(if t < 0 then -1 else t + 1))
    case (DomainWord(_), Dot) => Some(DomainSeparator(true))
    case (DomainWord(_), Dash) => Some(DomainSeparator(false))
    case (DomainSeparator(dot), Word) => Some(DomainWord(if dot then 1 else -1))
    case _ => None
  }

  /** The text ends in a word of the domain whose last dot is followed by
      two or three word characters. */
  predicate Final(st: ScanState) {
    st.DomainWord? && 2 <= st.tail <= 3
  }

  predicate Scan(s: string, st: ScanState)
    decreases |s|
  {
    if s == [] then Final(st)
    else match Step(st, ClassOf(s[0]))
      case None => false
      case Some(next) => Scan(s[1..], next)
  }

  predicate EmailPattern(e: string) {
    Scan(e, LocalStart)
  }

  /** Every character of an accepted text is in `\w`, a dot, a hyphen or
      the `@`, and the last one is a word character. */
  lemma {:induction false} ScanCharacters(s: string, st: ScanState)
    requires Scan(s, st)
    ensures forall i :: 0 <= i < |s| ==> ClassOf(s[i]) != Other
    ensures s != [] ==> ClassOf(s[|s| - 1]) == Word
    decreases |s|
  {
    if s != [] {
      var next := Step(st, ClassOf(s[0])).value;
      ScanCharacters(s[1..], next);
      assert forall i :: 1 <= i < |s| ==> s[i] == s[1..][i - 1];
      if |s| == 1 {
        assert Final(next);
      }
    }
  }

  /** Lower-casing keeps every character's class, so the verdict. */
  lemma {:induction false} LowerKeepsScan(s: string, st: ScanState)
    ensures Scan(ToLower(s), st) == Scan(s, st)
    decreases |s|
  {
    if s != [] {
      assert ClassOf(ToLower(s)[0]) == ClassOf(s[0]);
      assert ToLower(s)[1..] == ToLower(s[1..]);
      match Step(st, ClassOf(s[0]))
      case None =>
      case Some(next) => LowerKeepsScan(s[1..], next);
    }
  }

  /** For an address the pattern accepts, `toLowerCase().trim()` only
      lower-cases, and the result is still accepted. */
  lemma NormalisedEmail(e: string)
    requires EmailPattern(e)
    ensures Trim(ToLower(e)) == ToLower(e)
    ensures EmailPattern(Trim(ToLower(e)))
  {
    LowerKeepsScan(e, LocalStart);
    var l := ToLower(e);
    ScanCharacters(l, LocalStart);
    assert e != [];
    ClassifiedIsNotSpace(l[0]);
    ClassifiedIsNotSpace(l[|l| - 1]);
    assert TrimStart(l) == l;
    assert TrimEnd(l) == l;
  }

  lemma ClassifiedIsNotSpace(c: char)
    requires ClassOf(c) != Other
    ensures !IsSpace(c)
  {
  }

  /** The `(\.\w{2,3})+` tail may repeat, and the local part may hold
      single separators. */
  lemma PatternAccepts()
    ensures EmailPattern("a.b@c.co.in")
  {
    assert Scan("", DomainWord(2));
    assert Scan("n", DomainWord(1));
    assert Scan("in", DomainSeparator(true));
    assert Scan(".in", DomainWord(2));
    assert Scan("o.in", DomainWord(1));
    assert Scan("co.in", DomainSeparator(true));
    assert Scan(".co.in", DomainWord(-1));
    assert Scan("c.co.in", DomainStart);
    assert Scan("@c.co.in", LocalWord);
    assert Scan("b@c.co.in", LocalSeparator);
    assert Scan(".b@c.co.in", LocalWord);
  }

  /** A doubled separator in the local part is refused. */
  lemma RejectsDoubledDot()
    ensures !EmailPattern("a..b@c.in")
  {
    assert !Scan(".b@c.in", LocalSeparator);
    assert !Scan("..b@c.in", LocalWord);
  }

  /** A domain without a dot has no `(\.\w{2,3})+` tail. */
  lemma RejectsDomainWithoutDot()
    ensures !EmailPattern("a@bcd")
  {
    assert !Scan("d", DomainWord(-1));
    assert !Scan("cd", DomainWord(-1));
    assert !Scan("bcd", DomainStart);
    assert !Scan("@bcd", LocalWord);
  }

  /** A last label of four characters is refused. */
  lemma RejectsLongTail()
    ensures !EmailPattern("a@b.info")
  {
    assert !Scan("", DomainWord(4));
    assert !Scan("o", DomainWord(3));
    assert !Scan("fo", DomainWord(2));
    assert !Scan("nfo", DomainWord(1));
    assert !Scan("info", DomainSeparator(true));
    assert !Scan(".info", DomainWord(-1));
    assert !Scan("b.info", DomainStart);
    assert !Scan("@b.info", LocalWord);
  }

  /** A last label after a hyphen is no tail. */
  lemma RejectsHyphenTail()
    ensures !EmailPattern("a@b.c-om")
  {
    assert !Scan("m", DomainWord(-1));
    assert !Scan("om", DomainSeparator(false));
    assert !Scan("-om", DomainWord(1));
    assert !Scan("c-om", DomainSeparator(true));
    assert !Scan(".c-om", DomainWord(-1));
    assert !Scan("b.c-om", DomainStart);
    assert !Scan("@b.c-om", LocalWord);
  }

  // ---------------------------------------------------------------------
  // PUT

  /** The address object in the request; any field may be missing. */
  datatype AddressInput = AddressInput(
    street: Option<string>, city: Option<string>, state: Option<string>,
    zipCode: Option<string>, country: Option<string>)

  datatype ProfileBody = ProfileBody(name: Option<string>, email: Option<string>, address: Option<AddressInput>)

  function InputField(a: AddressInput, key: AddressKey): Option<string> {
    match key
    case Street => a.street
    case City => a.city
    case State => a.state
    case ZipCode => a.zipCode
    case Country => a.country
  }

  /** `address?.field?.trim() || ""`. */
  function TrimmedOr(a: Option<AddressInput>, key: AddressKey): string {
    if a.Some? && InputField(a.value, key).Some? then Trim(InputField(a.value, key).value) else ""
  }

  /** The address `PUT` stores: every field present, trimmed or "". */
  function StoredAddressOf(a: Option<AddressInput>): (r: StoredAddress)
    ensures forall key :: StoredField(r, key) == Some(TrimmedOr(a, key))
  {
    var r := StoredAddress(Some(TrimmedOr(a, Street)), Some(TrimmedOr(a, City)), Some(TrimmedOr(a, State)),
                           Some(TrimmedOr(a, ZipCode)), Some(TrimmedOr(a, Country)));
    FieldsAreTrimmed(r, a);
    r
  }

  lemma FieldsAreTrimmed(r: StoredAddress, a: Option<AddressInput>)
    requires r.street == Some(TrimmedOr(a, Street)) && r.city == Some(TrimmedOr(a, City))
    requires r.state == Some(TrimmedOr(a, State)) && r.zipCode == Some(TrimmedOr(a, ZipCode))
    requires r.country == Some(TrimmedOr(a, Country))
    ensures forall key :: StoredField(r, key) == Some(TrimmedOr(a, key))
  {
    forall key ensures StoredField(r, key) == Some(TrimmedOr(a, key)) {
      match key
      case Street =>
      case City =>
      case State =>
      case ZipCode =>
      case Country =>
    }
  }

  /** A user other than the session's already has this email. */
  predicate TakenByOther(users: seq<User>, email: string, sessionId: Option<string>) {
    exists j :: 0 <= j < |users| && users[j].email == Some(email) && Some(users[j].id) != sessionId
  }

  /** The unique index on `email` refuses the update: a user other than
      the one updated already holds the new email. */
  predicate UniqueViolation(users: seq<User>, k: nat, email: string) {
    exists j :: 0 <= j < |users| && j != k && users[j].email == Some(email)
  }

  /** The request passes every check before the database work: signed
      in, a JSON body with a name and a well-formed email, and a live
      connection. */
  predicate PassesChecks(session: Option<Session>, body: Option<ProfileBody>, dbUp: bool) {
    && SignedIn(session) && body.Some? && TruthyStr(body.value.name) && TruthyStr(body.value.email)
    && EmailPattern(body.value.email.value) && dbUp
  }

  /** Another user already holds the new email, which differs from the
      session's. */
  predicate OtherOwns(users: seq<User>, s: Session, b: ProfileBody)
    requires s.email.Some? && b.email.Some?
  {
    b.email.value != s.email.value && TakenByOther(users, ToLower(b.email.value), s.id)
  }

  /** Checks passed and no other user holds the new email: the route goes
      on to look up the signed-in user. */
  predicate ReachesLookup(users: seq<User>, session: Option<Session>, body: Option<ProfileBody>, dbUp: bool) {
    PassesChecks(session, body, dbUp) && !OtherOwns(users, session.value, body.value)
  }

  /** The user record `PUT` writes for the user at `k`. */
  function UpdatedUser(u: User, b: ProfileBody): User
    requires b.name.Some? && b.email.Some?
  {
    User(u.id, Some(Trim(b.name.value)), Some(Trim(ToLower(b.email.value))), Some(StoredAddressOf(b.address)))
  }

  /** The database stage of `PUT`, once the request has passed its checks:
      the other-user check, the lookup of the signed-in user and the
      update, which the unique index on `email` may refuse. */
  function Update(users: seq<User>, s: Session, b: ProfileBody): (r: (ProfileResponse, seq<User>))
    requires TruthyStr(s.email) && TruthyStr(b.name) && TruthyStr(b.email)
    ensures !r.0.ProfileOk? ==> r.1 == users
    ensures OtherOwns(users, s, b) ==> r.0 == Conflict(TakenByOtherError)
    ensures !OtherOwns(users, s, b) ==>
      match FindByEmail(users, s.email.value)
      case None => r.0 == NotFound
      case Some(k) =>
        if UniqueViolation(users, k, Trim(ToLower(b.email.value))) then r.0 == Conflict(DuplicateKeyError)
        else
          r.0.ProfileOk? && |r.1| == |users| &&
          (forall j :: 0 <= j < |users| && j != k ==> r.1[j] == users[j]) &&
          r.1[k] == UpdatedUser(users[k], b) &&
          r.0.profile == ProfileOf(r.1[k])
  {
    if OtherOwns(users, s, b) then (Conflict(TakenByOtherError), users)
    else
      match FindByEmail(users, s.email.value)
      case None => (NotFound, users)
      case Some(k) =>
        if UniqueViolation(users, k, Trim(ToLower(b.email.value))) then (Conflict(DuplicateKeyError), users)
        else
          var u := UpdatedUser(users[k], b);
          (ProfileOk(ProfileOf(u)), users[k := u])
  }

  /** `PUT`: the response and the collection afterwards. `body` is None
      when the request is not JSON; `dbUp` is false when the database
      connection fails. */
  function Put(users: seq<User>, session: Option<Session>, body: Option<ProfileBody>, dbUp: bool)
    : (r: (ProfileResponse, seq<User>))
    ensures !r.0.ProfileOk? ==> r.1 == users
    ensures r.0 == Unauthorized <==> !SignedIn(session)
    ensures SignedIn(session) && body.Some? && (!TruthyStr(body.value.name) || !TruthyStr(body.value.email)) ==>
      r.0 == BadRequest(RequiredError)
    ensures r.0 == BadRequest(InvalidEmailError) <==>
      SignedIn(session) && body.Some? && TruthyStr(body.value.name) && TruthyStr(body.value.email) &&
      !EmailPattern(body.value.email.value)
    ensures r.0 == ServerError <==>
      SignedIn(session) &&
      (body.None? ||
       (TruthyStr(body.value.name) && TruthyStr(body.value.email) && EmailPattern(body.value.email.value) && !dbUp))
    ensures r.0 == Conflict(TakenByOtherError) <==>
      PassesChecks(session, body, dbUp) && OtherOwns(users, session.value, body.value)
    ensures r.0 == NotFound <==>
      ReachesLookup(users, session, body, dbUp) && FindByEmail(users, session.value.email.value).None?
    ensures r.0 == Conflict(DuplicateKeyError) <==>
      ReachesLookup(users, session, body, dbUp) && FindByEmail(users, session.value.email.value).Some? &&
      UniqueViolation(users, FindByEmail(users, session.value.email.value).value, Trim(ToLower(body.value.email.value)))
    ensures r.0.ProfileOk? <==>
      ReachesLookup(users, session, body, dbUp) && FindByEmail(users, session.value.email.value).Some? &&
      !UniqueViolation(users, FindByEmail(users, session.value.email.value).value, Trim(ToLower(body.value.email.value)))
    ensures r.0.ProfileOk? ==>
      ReachesLookup(users, session, body, dbUp) &&
      FindByEmail(users, session.value.email.value).Some? &&
      var k := FindByEmail(users, session.value.email.value).value;
      var b := body.value;
      |r.1| == |users| &&
      (forall j :: 0 <= j < |users| && j != k ==> r.1[j] == users[j]) &&
      r.1[k] == User(users[k].id, Some(Trim(b.name.value)), Some(Trim(ToLower(b.email.value))), Some(StoredAddressOf(b.address))) &&
      r.0.profile == ProfileOf(r.1[k])
  {
    if !SignedIn(session) then (Unauthorized, users)
    else if body.None? then (ServerError, users)
    else
      var b := body.value;
      if !TruthyStr(b.name) || !TruthyStr(b.email) then (BadRequest(RequiredError), users)
      else if !EmailPattern(b.email.value) then (BadRequest(InvalidEmailError), users)
      else if !dbUp then (ServerError, users)
      else Update(users, session.value, b)
  }

  /** After a successful update, a `GET` under the new email returns what
      the `PUT` answered: the new email is the updated user's alone. */
  lemma PutThenGet(users: seq<User>, session: Option<Session>, body: Option<ProfileBody>)
    ensures var (r, users') := Put(users, session, body, true);
            r.ProfileOk? ==> Get(users', Some(Session(Some(r.profile.email), session.value.id)), true) == r
  {
    var (r, users') := Put(users, session, body, true);
    if !r.ProfileOk? {
      return;
    }
    var k := FindByEmail(users, session.value.email.value).value;
    var email := Trim(ToLower(body.value.email.value));
    NormalisedEmail(body.value.email.value);
    assert !UniqueViolation(users, k, email);
    var found := FindByEmail(users', email);
    assert users'[k].email == Some(email);
    assert found.Some?;
    assert forall j :: 0 <= j < |users'| && j != k ==> users'[j] == users[j];
  }

  /** The stored email is the submitted one lower-cased and still matches
      the pattern; every address field is trimmed or "". */
  lemma StoredFieldsAreNormalised(users: seq<User>, session: Option<Session>, body: Option<ProfileBody>, dbUp: bool)
    ensures var (r, _) := Put(users, session, body, dbUp);
            r.ProfileOk? ==>
            r.profile.email == ToLower(body.value.email.value) && EmailPattern(r.profile.email) &&
            r.profile.name == Trim(body.value.name.value) &&
            forall key :: ProfileField(r.profile.address, key) == TrimmedOr(body.value.address, key)
  {
    var (r, _) := Put(users, session, body, dbUp);
    if r.ProfileOk? {
      var k := FindByEmail(users, session.value.email.value).value;
      UpdatedProfile(users[k], body.value);
    }
  }

  /** The profile of the record `PUT` writes: the normalised email and
      name, and each address field trimmed or "". */
  lemma UpdatedProfile(u: User, b: ProfileBody)
    requires b.name.Some? && b.email.Some? && EmailPattern(b.email.value)
    ensures var p := ProfileOf(UpdatedUser(u, b));
            p.email == ToLower(b.email.value) && EmailPattern(p.email) && p.name == Trim(b.name.value) &&
            forall key :: ProfileField(p.address, key) == TrimmedOr(b.address, key)
  {
    NormalisedEmail(b.email.value);
  }

  /** The other-user check compares case-sensitively with the session's
      email, so resubmitting one's own email with another user owning its
      lower-cased form skips that check and hits the unique index: 409
      with the other message. */
  lemma SameEmailSkipsOtherUserCheck(users: seq<User>, s: Session, b: ProfileBody, other: nat)
    requires TruthyStr(s.email) && TruthyStr(b.name) && b.email == s.email && EmailPattern(b.email.value)
    requires FindByEmail(users, s.email.value).Some?
    requires other < |users| && other != FindByEmail(users, s.email.value).value
    requires users[other].email == Some(ToLower(b.email.value))
    ensures Put(users, Some(s), Some(b), true).0 == Conflict(DuplicateKeyError)
  {
    NormalisedEmail(b.email.value);
    var k := FindByEmail(users, s.email.value).value;
    assert UniqueViolation(users, k, Trim(ToLower(b.email.value)));
  }

}

=== FILE: register.dfy ===
/** The register page's submit handler: two password checks in a fixed
    order, then one request carrying the name, email and password. */
module Register {
  import opened Js

  datatype RegisterForm = RegisterForm(name: string, email: string, password: string, confirmPassword: string)

  /** The JSON body sent to the register API. */
  datatype RegisterRequest = RegisterRequest(name: string, email: string, password: string)

  /** The API's answer: whether it was OK and its `error` field. */
  datatype RegisterReply = RegisterReply(ok: bool, error: Option<string>)

  /** The parts of the page the handler sets. */
  datatype RegisterState = RegisterState(error: Option<string>, success: bool)

  const MismatchError := "Passwords do not match"
  const TooShortError := "Password must be at least 6 characters long"
  const FailedError := "Registration failed"
  const SomethingWrongError := "Something went wrong. Please try again."
  const MinPasswordLength := 6

  /** The form-side checks: the mismatch is reported before the length. */
  function PasswordProblem(f: RegisterForm): (r: Option<string>)
    ensures r.None? <==> f.password == f.confirmPassword && |f.password| >= MinPasswordLength
    ensures f.password != f.confirmPassword ==> r == Some(MismatchError)
    ensures f.password == f.confirmPassword && |f.password| < MinPasswordLength ==> r == Some(TooShortError)
  {
    if f.password != f.confirmPassword then Some(MismatchError)
    else if |f.password| < MinPasswordLength then Some(TooShortError)
    else None
  }

  /** The state after a submit and the request it sent, if any. */
  datatype SubmitOutcome = SubmitOutcome(state: RegisterState, request: Option<RegisterRequest>)

  /** `handleSubmit`. `reply` is the API call and its JSON, which may
      throw. */
  function HandleSubmit(st: RegisterState, f: RegisterForm, reply: Reply<RegisterReply>): (r: SubmitOutcome)
    ensures r.request.Some? <==> PasswordProblem(f).None?
    ensures r.request.Some? ==> r.request.value == RegisterRequest(f.name, f.email, f.password)
    ensures PasswordProblem(f).Some? ==> r.state == st.(error := PasswordProblem(f))
    ensures PasswordProblem(f).None? && reply.Threw? ==> r.state == st.(error := Some(SomethingWrongError))
    ensures PasswordProblem(f).None? && reply.Replied? && !reply.body.ok ==>
      r.state == st.(error := Some(OrStr(reply.body.error, FailedError)))
    ensures r.state.success <==> st.success || (PasswordProblem(f).None? && reply.Replied? && reply.body.ok)
    ensures PasswordProblem(f).None? && reply.Replied? && reply.body.ok ==> r.state.error.None?
  {
    match PasswordProblem(f)
    case Some(msg) => SubmitOutcome(st.(error := Some(msg)), None)
    case None =>
      var req := RegisterRequest(f.name, f.email, f.password);
      var cleared := st.(error := None);
      match reply
      case Threw(_) => SubmitOutcome(cleared.(error := Some(SomethingWrongError)), Some(req))
      case Replied(body) =>
        if !body.ok then SubmitOutcome(cleared.(error := Some(OrStr(body.error, FailedError))), Some(req))
        else SubmitOutcome(cleared.(success := true), Some(req))
  }

  /** A mismatched pair is reported as a mismatch even when the password
      is also too short. */
  lemma MismatchReportedFirst(st: RegisterState, f: RegisterForm, reply: Reply<RegisterReply>)
    requires f.password != f.confirmPassword && |f.password| < MinPasswordLength
    ensures HandleSubmit(st, f, reply).state.error == Some(MismatchError)
  {
  }
}

=== FILE: shop.dfy ===
/** The shop page's product filter: a lower-cased search over the name and
    short description, a category selection and a price range, all three
    required at once. */
module Shop {
  import opened Js
  import opened Catalog

  /** The page's filter state. Only the search box has a setter, which
      replaces `searchQuery`; the category selection and the price range
      keep their initial values. */
  datatype ShopFilters = ShopFilters(searchQuery: string, selectedCategories: seq<string>, priceRange: (int, int))

  const InitialFilters := ShopFilters("", [], (0, 3000))

  predicate MatchesSearch(p: Product, q: string) {
    Contains(ToLower(p.name), ToLower(q)) || Contains(ToLower(p.shortDescription), ToLower(q))
  }

  predicate MatchesCategory(p: Product, categories: seq<string>) {
    |categories| == 0 || p.category in categories
  }

  /** Inclusive bounds on the list price; the discount plays no part. */
  predicate MatchesPrice(p: Product, range: (int, int)) {
    range.0 <= p.price <= range.1
  }

  predicate Shown(f: ShopFilters, p: Product) {
    MatchesSearch(p, f.searchQuery) && MatchesCategory(p, f.selectedCategories) && MatchesPrice(p, f.priceRange)
  }

  /** `filteredProducts`. */
  function FilteredProducts(products: seq<Product>, f: ShopFilters): (r: seq<Product>)
    ensures forall p :: p in r <==> p in products && Shown(f, p)
    ensures IsSubsequence(r, products)
    ensures forall p :: multiset(r)[p] == if Shown(f, p) then multiset(products)[p] else 0
  {
    Filter(products, (p: Product) => Shown(f, p))
  }

  /** The three conditions act independently: filtering by the search
      first and then by category and price gives the same list. */
  lemma {:induction false} FilterComposes(products: seq<Product>, f: ShopFilters)
    ensures FilteredProducts(products, f) ==
      Filter(Filter(products, (p: Product) => MatchesSearch(p, f.searchQuery)),
             (p: Product) => MatchesCategory(p, f.selectedCategories) && MatchesPrice(p, f.priceRange))
    decreases |products|
  {
    if products != [] {
      FilterComposes(products[1..], f);
    }
  }

  /** The empty query occurs in every name, so it hides nothing. */
  lemma EmptyQueryMatchesAll(p: Product)
    ensures MatchesSearch(p, "")
  {
    ContainsEmpty(ToLower(p.name));
  }

  /** With the initial state every product priced from 0 to 3000 is
      listed, in order. */
  lemma InitialListsAll(products: seq<Product>)
    requires forall k :: 0 <= k < |products| ==> 0 <= products[k].price <= 3000
    ensures FilteredProducts(products, InitialFilters) == products
  {
    forall k | 0 <= k < |products| ensures Shown(InitialFilters, products[k]) {
      EmptyQueryMatchesAll(products[k]);
    }
  }

  /** Every catalog product lies in the initial price range, so the shop
      first shows the whole catalog. */
  lemma CatalogWithinInitialRange()
    ensures forall k :: 0 <= k < |AllProducts| ==> 0 <= AllProducts[k].price <= 3000
  {
  }

  /** A discount never moves a product into or out of the price range. */
  lemma ListPriceDecides(f: ShopFilters, p: Product, discount: int)
    ensures Shown(f, p) <==> Shown(f, p.(discountPercentage := discount))
  {
  }

  /** The search is case-insensitive over ASCII letters: a query and its
      lower-cased form show the same products. */
  lemma {:induction false} SearchIgnoresCase(products: seq<Product>, f: ShopFilters)
    ensures FilteredProducts(products, f) == FilteredProducts(products, f.(searchQuery := ToLower(f.searchQuery)))
    decreases |products|
  {
    LowerIdempotent(f.searchQuery);
    if products != [] {
      SearchIgnoresCase(products[1..], f);
    }
  }
}

=== FILE: webhook.dfy ===
/** The carrier's webhook: pick the order fields out of the payload with
    fallbacks, and mail an invoice only when the order id, the tracking
    number and the customer's email are all known. */
module Webhook {
  import opened Js
  import Invoice

  /** The payload fields the handler reads, each possibly absent. */
  datatype Payload = Payload(
    order_id: Option<string>,
    orderNumber: Option<string>,
    awb_number: Option<string>,
    tracking_number: Option<string>,
    customer_email: Option<string>,
    email: Option<string>,
    customer_name: Option<string>,
    items: Option<seq<Invoice.LineItem>>,
    total: Option<int>,
    shipping_address: Option<string>,
    customer_address: Option<string>,
    payment_method: Option<string>,
    paymentMode: Option<string>)

  /** The mail the handler sends. */
  datatype ConfirmationMail = ConfirmationMail(email: string, orderId: string, trackingNumber: string, invoiceHtml: string)

  datatype WebhookResponse =
    | Received       // 200 { received: true }
    | InvalidData    // 400 { error: "Invalid webhook data" }

  function Status(r: WebhookResponse): int {
    if r.Received? then 200 else 400
  }

  /** The response and the mail the handler attempted, if any. */
  datatype WebhookOutcome = WebhookOutcome(response: WebhookResponse, mail: Option<ConfirmationMail>)

  const DefaultItems: seq<Invoice.LineItem> := [Invoice.LineItem("Product", 1, 0)]

  function OrderIdOf(p: Payload): string { OrStr(p.order_id, OrStr(p.orderNumber, "")) }
  function TrackingOf(p: Payload): string { OrStr(p.awb_number, OrStr(p.tracking_number, "")) }
  function EmailOf(p: Payload): string { OrStr(p.customer_email, OrStr(p.email, "")) }

  /** `data.items || [default]`: any array, even an empty one, is kept. */
  function ItemsOf(p: Payload): (r: seq<Invoice.LineItem>)
    ensures p.items.Some? ==> r == p.items.value
    ensures p.items.None? ==> r == DefaultItems
  {
    if p.items.Some? then p.items.value else DefaultItems
  }

  /** `items.reduce((sum, item) => sum + item.price * item.quantity, 0)`. */
  function ItemsSum(items: seq<Invoice.LineItem>): int
    decreases |items|
  {
    if items == [] then 0 else items[0].price * items[0].quantity + ItemsSum(items[1..])
  }

  /** The invoice the payload yields; `date` is today's date as the
      server's locale writes it. */
  function InvoiceFor(p: Payload, date: string): (d: Invoice.InvoiceData)
    ensures d.orderId == OrderIdOf(p)
    ensures TruthyStr(p.customer_name) ==> d.customerName == p.customer_name.value
    ensures !TruthyStr(p.customer_name) ==> d.customerName == "Customer"
    ensures d.items == ItemsOf(p)
    ensures TruthyNum(p.total) ==> d.total == p.total.value
    ensures !TruthyNum(p.total) ==> d.total == ItemsSum(ItemsOf(p))
    ensures d.shippingAddress.Some? && d.paymentMethod.Some?
  {
    var items := ItemsOf(p);
    Invoice.InvoiceData(
      OrderIdOf(p),
      OrStr(p.customer_name, "Customer"),
      items,
      if TruthyNum(p.total) then p.total.value else ItemsSum(items),
      date,
      Some(OrStr(p.shipping_address, OrStr(p.customer_address, ""))),
      Some(OrStr(p.payment_method, OrStr(p.paymentMode, ""))))
  }

  /** `POST`. `body` is None when the request is not JSON; `mailOk` is
      false when sending the mail throws. */
  function Post(body: Option<Payload>, date: string, mailOk: bool): (r: WebhookOutcome)
    ensures body.None? ==> r == WebhookOutcome(InvalidData, None)
    ensures r.mail.Some? <==>
      body.Some? && OrderIdOf(body.value) != "" && TrackingOf(body.value) != "" && EmailOf(body.value) != ""
    ensures r.mail.Some? ==>
      r.mail.value == ConfirmationMail(EmailOf(body.value), OrderIdOf(body.value), TrackingOf(body.value),
                                       Invoice.Render(InvoiceFor(body.value, date)))
    ensures r.response == InvalidData <==> body.None? || (r.mail.Some? && !mailOk)
  {
    if body.None? then WebhookOutcome(InvalidData, None)
    else
      var p := body.value;
      var orderId := OrderIdOf(p);
      var tracking := TrackingOf(p);
      var email := EmailOf(p);
      if orderId != "" && tracking != "" && email != "" then
        var mail := ConfirmationMail(email, orderId, tracking, Invoice.Render(InvoiceFor(p, date)));
        WebhookOutcome(if mailOk then Received else InvalidData, Some(mail))
      else WebhookOutcome(Received, None)
  }

  /** Each of the three keys falls back to its second spelling, then to the
      empty string. */
  lemma FieldFallbacks(p: Payload)
    ensures OrderIdOf(p) == (if TruthyStr(p.order_id) then p.order_id.value
                             else if TruthyStr(p.orderNumber) then p.orderNumber.value else "")
    ensures TrackingOf(p) == (if TruthyStr(p.awb_number) then p.awb_number.value
                              else if TruthyStr(p.tracking_number) then p.tracking_number.value else "")
    ensures EmailOf(p) == (if TruthyStr(p.customer_email) then p.customer_email.value
                           else if TruthyStr(p.email) then p.email.value else "")
  {
  }

  /** An incomplete payload is still acknowledged with 200, and no mail is
      attempted, so nothing can fail. */
  lemma IncompleteIsAcknowledged(p: Payload, date: string, mailOk: bool)
    requires OrderIdOf(p) == "" || TrackingOf(p) == "" || EmailOf(p) == ""
    ensures Post(Some(p), date, mailOk) == WebhookOutcome(Received, None)
  {
  }

  /** The mailed invoice, read back, shows the payload's total when it is
      truthy and otherwise the sum over the items; a payload without
      items gets the one placeholder row. */
  lemma MailedInvoiceTotals(p: Payload, date: string, mailOk: bool)
    requires Invoice.Plain(InvoiceFor(p, date))
    requires OrderIdOf(p) != "" && TrackingOf(p) != "" && EmailOf(p) != ""
    ensures var r := Post(Some(p), date, mailOk);
            r.mail.Some? &&
            var v := Invoice.ReadInvoice(r.mail.value.invoiceHtml);
            v.Some? &&
            v.value.total == IntToString(if TruthyNum(p.total) then p.total.value else ItemsSum(ItemsOf(p))) &&
            |v.value.rows| == |ItemsOf(p)| &&
            (p.items.None? ==> v.value.rows == [Invoice.RowView("Product", "1", "0")] && (!TruthyNum(p.total) ==> v.value.total == "0"))
  {
    Invoice.RenderReadsBack(InvoiceFor(p, date));
    if p.items.None? {
      assert IntToString(1) == "1" && IntToString(0) == "0";
    }
  }

  /** The mail's fate decides the status: a complete payload whose mail
      fails is answered 400 although the payload was fine. */
  lemma MailFailureIs400(p: Payload, date: string)
    requires OrderIdOf(p) != "" && TrackingOf(p) != "" && EmailOf(p) != ""
    ensures Status(Post(Some(p), date, false).response) == 400
    ensures Status(Post(Some(p), date, true).response) == 200
  {
  }
}
